=== FILE: README.md ===
# Widget tree flattener of cinema_skylight_engine, in Dafny

This project models the core of the engine's 2D widget layer, together with two
smaller state machines from the 3D side.

A widget is a tree. Drawn leaves are *primitives*: backgrounds, borders and
textures. The *composite* picture widget only places its children. One
instanced draw of a unit quad shows all of them. Three tree walks keep the GPU
buffers in step with the tree:

- `traverse_and_push_all` (the rebuild) gives each primitive the next slot of
  the transform buffer (`tbo`). It appends the primitive's transform and, when
  it has one, its texture, and sends its shader info.
- `traverse_and_set_transforms` rewrites the slots in place.
- `traverse_and_send_info` re-sends the per-type shader records.

The framed picture widget holds a background, an inner widget and a border in
three fixed slots. Its tree walks hand all three the same frame, so the inner
widget is placed by its own stored position and size. The inset frame that the
padding and border widths leave is computed only by `draw_children`
(`src/widgets/composites/framed_widget.rs:42-63`), which nothing in the engine
calls. `Framed.DefaultLayoutMatchesInner` shows that the two agree for the
default picture only.

On the 3D side, a `GameObject` owns one entry of a shared model's instance
transform array. The 3D view pipeline runs a fixed ping-pong bloom blur.

Matrices and quaternions stay symbolic (`LinAlg.Mat`). Only the identity laws
are applied, so two equal terms denote equal real matrices. Distinct terms can
still denote the same matrix, so the matrix contracts state only when a matrix
is the identity or the parent frame, never when it is not. GPU state is a
value: the transform buffer, the diffuse texture list and a map of shader
uniforms. It is threaded through pure functions, and GL draws become trace
events. Each walk is checked against an independent pre-order reference
definition:

- `Kinds`: the drawn nodes in pre-order.
- `Slots`: their indices.
- `Flatten`: their transforms in a given frame.
- `TexturesOf`: their textures.
- `Shape`: the tree with everything a traversal writes cleared.
- `InfoList`: the list walk of `send_widget_info`.

Files, one module each:

- `wrappers.dfy`: `Option`, and the engine's error variants.
- `linalg.dfy`: vectors, quaternions and symbolic matrices.
- `primitives.dfy`: the per-type counter, the discriminants and the three `send_widget_info`s.
- `widget.dfy`: the tree and the per-node trait operations.
- `traversal.dfy`: the three walks.
- `framed.dfy`: the picture widget and its inset rule.
- `text_widget.dfy`: the text widget's fields and its 20-byte `widget_info` record.
- `widget_quad.dfy`: the quad mesh and its instanced draw.
- `game_object.dfy`: game objects bound to shared models.
- `view3d_pipeline.dfy`: the bloom ping-pong schedule.

The widget trait in `src/widgets/widget.rs` is the contract for every widget.
The error variants it names (`WidgetIndexMissing`, `WidgetNotPrimitive`,
`TexturelessWidget`) are declared in `Errors`, because `src/error/errors.rs`
does not declare them.

## Model

| member | source | states |
|---|---|---|
| Primitives.DefaultCounter | src/widgets/primitives/mod.rs:8-13 | a fresh counter has every per-type count at 0 |
| Primitives.Discriminant | src/widgets/primitives/mod.rs:17-21 | Background, Texture and Border are sent as 1, 2 and 3, each value in both directions |
| Primitives.DiscriminantInjective | src/widgets/primitives/mod.rs:17-21 | two kinds with the same discriminant are the same kind, so the shader can tell the three apart |
| Primitives.Bump | src/widgets/primitives/background_widget.rs:56 | sending one primitive adds 1 to its own type's count and leaves the other two counts alone (the border and texture widgets do the same at line 60 of their files) |
| Primitives.BackgroundInfo | src/widgets/primitives/background_widget.rs:46-61 | without an index: `WidgetIndexMissing`, with nothing written and the counter unchanged; with index i: `widgets[i].type` = 1, `widgets[i].index` = the background count, `backgroundWidgets[count]` = the colour, no other uniform changed, and the background count + 1 |
| Primitives.BorderInfo | src/widgets/primitives/border_widget.rs:48-65 | the same for a border, with tag 3, plus `borderWidgets[count].colour` and `.widths`; only the border count advances |
| Primitives.TextureInfo | src/widgets/primitives/texture_widget.rs:52-65 | the same for a texture, with tag 2 and only the type and index entries; only the texture count advances |
| Primitives.SendWidgetInfo | src/widgets/widget.rs:82 | the dispatch fails exactly when the index is missing, and then changes nothing; otherwise it writes the kind's tag and its own type's count at `widgets[index]` and bumps that count |
| Widgets.LocalMatrix | src/widgets/widget.rs:42-50 | the local box is the identity when the node sits at the origin with unit size and no rotation; without rotation it is Translate(x, y, 0) · Scale(w, h, 1) |
| Widgets.TransformMatrix | src/widgets/widget.rs:42-52 | `transform_matrix` is the parent frame when the local box is the identity, and the local box when the frame is the identity |
| Widgets.UnitPlacementIsVecSpace | src/widgets/widget.rs:42-52 | a node at the origin with unit size and no rotation is drawn exactly in its parent's frame |
| Widgets.UnrotatedTransform | src/widgets/widget.rs:42-52 | without rotation, `transform_matrix` is vec_space · Translate(x, y, 0) · Scale(w, h, 1), in that order |
| Widgets.SetPosition | src/widgets/primitives/background_widget.rs:34 | the position is stored; rotation, size, children, index and frame are kept; the variant, a primitive's kind and a composite's padding are kept too |
| Widgets.SetRotation | src/widgets/primitives/background_widget.rs:36 | the rotation is stored; position, size, children, index and frame are kept; the variant, a primitive's kind and a composite's padding are kept too |
| Widgets.SetSize | src/widgets/primitives/background_widget.rs:38 | width and height are stored; position, rotation, children, index and frame are kept; the variant, a primitive's kind and a composite's padding are kept too |
| Widgets.GetIndex | src/widgets/composites/picture_widget.rs:83 | a composite never reports an index |
| Widgets.SetIndex | src/widgets/composites/picture_widget.rs:84 | a primitive stores the index; a composite ignores the call and is unchanged; placement, children, frame, the variant, a primitive's kind and a composite's padding are kept |
| Widgets.SetVecSpace | src/widgets/primitives/background_widget.rs:44 | the frame is stored; placement, children and index are kept; the variant, a primitive's kind and a composite's padding are kept too |
| Widgets.GetTexture | src/widgets/widget.rs:203 | only a texture primitive can report a texture; the trait default is none |
| Widgets.SetTexture | src/widgets/widget.rs:204 | a texture primitive stores the texture and succeeds; every other widget fails with `TexturelessWidget(id)` and is unchanged |
| Widgets.SetThenGet | src/widgets/primitives/background_widget.rs:33-42 | position, size and index read back as just written |
| Widgets.DefaultBackground | src/widgets/primitives/background_widget.rs:17-30 | the default background is transparent black at the origin, of size 0, unrotated, with no index, no children and the identity frame |
| Widgets.DefaultBorder | src/widgets/primitives/border_widget.rs:18-32 | the default border has zero colour and zero widths, with the same defaults otherwise |
| Widgets.DefaultTexture | src/widgets/primitives/texture_widget.rs:21-34 | the default texture widget has no texture, with the same defaults otherwise |
| Widgets.SetTransform | src/widgets/widget.rs:161-185 | a composite fails with `WidgetNotPrimitive`; a primitive without an index fails with `WidgetIndexMissing`; both leave the buffer unchanged. Otherwise only slot `index` changes, and it now holds the node's transform; the length is kept |
| Widgets.SetTextureSend | src/widgets/widget.rs:189-197 | as `SetTransform`, for the texture list: it succeeds exactly on an indexed primitive that has a texture, writes that texture at its index and nothing else; a missing texture is reported as `WidgetIndexMissing` |
| Traversal.TexturesOfConcat | src/widgets/widget.rs:106-108 | the textures of two node lists are the textures of each, in order |
| Traversal.TallyConcat | src/widgets/widget.rs:207-215 | counting two lists is counting one, then the other |
| Traversal.TallyCounts | src/widgets/widget.rs:207-215 | after counting a list, each type's count has grown by the number of nodes of that type and by nothing else |
| Traversal.InfoListConcat | src/widgets/widget.rs:207-215 | sending two lists in turn, stopping at the first error, is sending their concatenation |
| Traversal.InfoListSpec | src/widgets/widget.rs:207-215 | the list walk succeeds exactly when no slot is missing, and then it has counted every node; otherwise it fails with `WidgetIndexMissing`, having counted only the nodes before the first missing slot |
| Traversal.PushAll | src/widgets/widget.rs:90-117 | the rebuild never fails; the rebuilt node keeps its placement, variant, kind or padding and number of children, and takes the given frame |
| Traversal.PushAllSeq | src/widgets/widget.rs:112-114 | the children are rebuilt one for one, in order, each keeping its placement, variant and kind or padding, all in the same given frame |
| Traversal.PushAllBuffers | src/widgets/widget.rs:90-117 | the rebuild appends exactly the pre-order transforms of the drawn nodes to `tbo`, with children in their parent's frame; it appends to the texture list only the textures of textured nodes, in pre-order, and nodes without a texture add nothing |
| Traversal.PushAllSeqBuffers | src/widgets/widget.rs:112-114 | the same for a list of siblings, taken in stored order |
| Traversal.PushAllSlots | src/widgets/widget.rs:97-104 | from a `tbo` of length L, the N drawn nodes get the distinct indices L … L+N-1 in pre-order, and `tbo` grows by exactly N, so `tbo[index]` is each node's own entry |
| Traversal.PushAllSeqSlots | src/widgets/widget.rs:112-114 | the same numbering across siblings: the second sibling continues where the first stopped |
| Traversal.PushAllPlaces | src/widgets/widget.rs:100-114 | the rebuild changes only indices and frames, and every node then holds its parent's full transform as its frame |
| Traversal.PushAllSeqPlaces | src/widgets/widget.rs:112-114 | the same for siblings, all in the same parent frame |
| Traversal.PushAllInfo | src/widgets/widget.rs:97-110 | the uniforms and counter a rebuild leaves are those of sending every drawn node's info in pre-order, with the slot it was just given |
| Traversal.PushAllSeqInfo | src/widgets/widget.rs:112-114 | the same across siblings |
| Traversal.SendInfo | src/widgets/widget.rs:207-215 | an unindexed primitive fails at once, writing nothing and counting nothing; the only error the walk can return is `WidgetIndexMissing` |
| Traversal.SendInfoSeq | src/widgets/widget.rs:210-212 | an empty list succeeds and changes nothing; the only error is `WidgetIndexMissing` |
| Traversal.SendInfoIsPreorder | src/widgets/widget.rs:207-215 | the tree walk is the list walk over the pre-order (kind, slot) list: parent first, then children in order, stopping at the first error |
| Traversal.SendInfoSeqIsPreorder | src/widgets/widget.rs:210-212 | the same for siblings |
| Traversal.SendInfoSpec | src/widgets/widget.rs:207-215 | the info walk succeeds exactly when every drawn node has an index, and then each per-type count grows by the number of drawn nodes of that type; otherwise it fails with `WidgetIndexMissing` at the first unindexed node, having counted only the nodes before it |
| Traversal.RebuildThenSendInfo | src/widgets/widget.rs:90-117 | right after a rebuild, the info walk succeeds and writes exactly the uniforms and counter the rebuild wrote |
| Traversal.UnbuiltTreeFailsInfo | src/widgets/widget.rs:207-215 | a tree whose first drawn node has no index fails the info walk without counting anything |
| Traversal.SetTransforms | src/widgets/widget.rs:124-142 | `tbo` keeps its length; the walk succeeds exactly when every drawn node has an index, and otherwise fails with `WidgetIndexMissing`; the root stores the frame it was handed even when it then fails; indices and kinds are kept |
| Traversal.SetTransformsSeq | src/widgets/widget.rs:134-139 | the same for siblings, stopping at the first failing child |
| Traversal.SetTransformsFrame | src/widgets/widget.rs:124-142 | an entry of `tbo` that no node of the tree names is left unchanged |
| Traversal.SetTransformsSeqFrame | src/widgets/widget.rs:134-139 | the same for siblings |
| Traversal.SetTransformsWrites | src/widgets/widget.rs:124-142 | the rewrite writes each drawn node's pre-order transform at its slot, in pre-order, and stops at the first node without a slot: it is the list walk over the tree's slots and transforms, whether it stops early or not |
| Traversal.SetTransformsSeqWrites | src/widgets/widget.rs:137-139 | the same for siblings, one list after the other |
| Traversal.SetTransformsStores | src/widgets/widget.rs:124-135 | every drawn node up to and including the first one without a slot stores the frame it is handed; the nodes after it keep the frame they held |
| Traversal.SetTransformsSeqStores | src/widgets/widget.rs:137-139 | the same across siblings: a sibling after the one that fails keeps its frame |
| Traversal.SetTransformsStoresAll | src/widgets/widget.rs:124-142 | when every drawn node has a slot, every one stores the frame it is handed |
| Traversal.SetTransformsStops | src/widgets/widget.rs:124-142 | when some drawn node has no slot, the rewrite fails with `WidgetIndexMissing`; a slot that no node before that one names keeps its old transform, and a node before it whose slot no later such node reuses has written its own transform there |
| Traversal.SetTransformsStopsFrames | src/widgets/widget.rs:124-135 | on that failure, the nodes up to and including the one without a slot hold the frames they were handed, and the nodes after it keep the frames they held |
| Traversal.WriteAllRange | src/widgets/widget.rs:129-132 | writing transforms at the dense slots L, L+1, … in turn replaces exactly that block of the buffer with them and keeps everything before and after it |
| Traversal.DenseWritesFit | src/widgets/widget.rs:161-171 | a tree numbered densely from L only writes inside a buffer that holds the whole block |
| Traversal.SetTransformsRewritesBlock | src/widgets/widget.rs:124-142 | on a tree numbered L … L+N-1 in pre-order, the rewrite succeeds and replaces exactly that block of `tbo` with the tree's pre-order transforms; everything before and after the block is kept |
| Traversal.SetTransformsPlaces | src/widgets/widget.rs:124-142 | the rewrite keeps the tree's shape, and after a success every node holds its parent's full transform as its frame |
| Traversal.SetTransformsSeqPlaces | src/widgets/widget.rs:134-139 | the same for siblings |
| Traversal.RefreshAgreesWithRebuild | src/widgets/widget.rs:90-142 | moving the nodes of a built tree, keeping their indices, and then rewriting leaves `tbo` exactly as a fresh rebuild of the moved tree from the same buffers would |
| Traversal.RefreshAfterRebuildIsNoop | src/widgets/widget.rs:90-142 | rewriting straight after a rebuild writes back what is already there |
| Traversal.PushAllShapeOnly | src/widgets/widget.rs:90-117 | the rebuild reads nothing a traversal writes: two trees that differ only in stored indices and frames rebuild identically |
| Traversal.PushAllSeqShapeOnly | src/widgets/widget.rs:112-114 | the same for siblings |
| Traversal.RebuildIsIdempotent | src/widgets/widget.rs:90-117 | rebuilding a rebuilt tree again from the same buffers changes nothing |
| Traversal.SetTextures | src/widgets/widget.rs:143-156 | as written, the texture walk keeps the list's length, succeeds exactly when every drawn node has both an index and a texture, and otherwise fails with `WidgetIndexMissing` |
| Traversal.SetTexturesSeq | src/widgets/widget.rs:150-153 | the same for siblings |
| Traversal.SetTexturesFrame | src/widgets/widget.rs:143-156 | a texture entry that no node names is left unchanged |
| Traversal.SetTexturesSeqFrame | src/widgets/widget.rs:150-153 | the same for siblings |
| Traversal.SetTexturesRejectsUntextured | src/widgets/widget.rs:143-156 | as written, any tree with a background or border node fails the texture walk, whatever its indices |
| Traversal.RefreshTextures | src/widgets/widget.rs:106-108 | corrected texture walk: keeps the list's length; succeeds exactly when every drawn node has an index (textureless nodes are stepped over); otherwise fails with `WidgetIndexMissing`; after a success its running position has advanced by the tree's number of textures |
| Traversal.RefreshTexturesSeq | src/widgets/widget.rs:106-108 | the same for siblings |
| Traversal.RefreshTexturesRewritesBlock | src/widgets/widget.rs:106-108 | on a built tree, the corrected walk replaces exactly the block of the texture list starting at k with the tree's textures in pre-order, the layout the rebuild appends |
| Traversal.RefreshTexturesWalk | src/widgets/widget.rs:106-108 | on a tree whose drawn nodes all have an index, the corrected walk writes the tree's textures in pre-order at consecutive positions from k, stepping over textureless nodes |
| Traversal.RefreshTexturesSeqWalk | src/widgets/widget.rs:106-108 | the same for siblings, each continuing where the one before stopped |
| Traversal.TextureRunSplice | src/widgets/widget.rs:106-108 | writing a list's textures at consecutive positions from k replaces exactly the block starting at k with them and keeps the rest of the texture list |
| Traversal.RefreshTexturesAgreesWithRebuild | src/widgets/widget.rs:90-117 | on a built tree whose textures were swapped, the corrected walk leaves the texture list exactly as a fresh rebuild of the changed tree would |
| Framed.DefaultPicture | src/widgets/composites/picture_widget.rs:15-39 | the default picture: padding 0.05 on each side, identity frame, and three slots: the default background, a texture child at (0.06, 0.06) of size 0.88 × 0.88, and a border of width 0.01 on each side |
| Framed.GetBackground | src/widgets/composites/framed_widget.rs:11-13 | slot 0 holds a background |
| Framed.GetInnerWidget | src/widgets/composites/framed_widget.rs:14-16 | slot 1, downcast to the inner (texture) type |
| Framed.GetBorder | src/widgets/composites/framed_widget.rs:17-19 | slot 2 holds a border |
| Framed.SetSlot | src/widgets/composites/framed_widget.rs:31-33 | replaces one child slot and nothing else |
| Framed.SetBackground | src/widgets/composites/framed_widget.rs:31 | slot 0 becomes the given background; the other slots are kept, a framed picture stays framed, and the picture stays a composite with the same place, frame and padding |
| Framed.SetInnerWidget | src/widgets/composites/framed_widget.rs:32 | slot 1 becomes the given widget, of any kind; the other slots are kept, and the picture stays a composite with the same place, frame and padding |
| Framed.SetBorder | src/widgets/composites/framed_widget.rs:33 | slot 2 becomes the given border; the other slots are kept, and the picture stays a composite with the same place, frame and padding |
| Framed.GetBorderWidths | src/widgets/composites/framed_widget.rs:35 | the widths read are those of the border in slot 2 |
| Framed.GetPadding | src/widgets/composites/picture_widget.rs:70 | the padding read is the picture's own padding |
| Framed.SetBorderWidths | src/widgets/composites/framed_widget.rs:35-36 | only the border's widths change: its colour, place, index, frame and children, every other child, and the picture's own fields are kept |
| Framed.SetPadding | src/widgets/composites/picture_widget.rs:70-71 | the padding is stored; children, place and frame are kept |
| Framed.SetBorderWidthsThenGet | src/widgets/composites/framed_widget.rs:35-39 | widths and padding read back as written, each setter leaves the other value alone, and storing the value just read changes nothing |
| Framed.InnerLayout | src/widgets/composites/framed_widget.rs:46-50 | the inner box starts after the left (top) border and padding, and its far edge plus the right (bottom) border and padding reaches exactly 1 |
| Framed.InnerVecSpace | src/widgets/composites/framed_widget.rs:52-54 | the inner widget's frame is the parent frame when the inner box is the whole unit square (0, 0, 1 × 1) |
| Framed.ZeroInsetIsParentSpace | src/widgets/composites/framed_widget.rs:46-54 | with no padding and no border the inner widget gets the whole parent frame |
| Framed.InsetShiftsBox | src/widgets/composites/framed_widget.rs:46-50 | widening the left border by d moves the box right by d and narrows it by d; its right edge and its vertical extent stay |
| Framed.DefaultLayoutMatchesInner | src/widgets/composites/picture_widget.rs:15-39 | in the default picture, the texture child's own placement is exactly the box the inset rule computes from the default padding and widths: (0.06, 0.06), 0.88 × 0.88 |
| Framed.DrawChildren | src/widgets/composites/framed_widget.rs:42-63 | children 0, 1, 2 are drawn in that order; background and border get the parent frame unchanged, and only the inner widget gets the inset frame |
| Framed.UnframedDrawsAllInParent | src/widgets/composites/framed_widget.rs:42-63 | with no padding and no border, all three children are drawn in the parent frame |
| Framed.RebuiltLeaves | src/widgets/composites/picture_widget.rs:92-107 | a rebuilt picture keeps its three slots' kinds and placements, in order |
| Framed.PictureRebuild | src/widgets/composites/picture_widget.rs:92-107 | rebuilding a picture from a `tbo` of length L appends exactly three entries: the background at L, the inner widget at L+1, the border at L+2; the picture itself takes no slot |
| Framed.TexturedPicture | src/widgets/composites/picture_widget.rs:42-64 | the default picture carrying a loaded texture has that texture in its inner slot |
| Framed.PictureTextureRefreshFails | src/widgets/composites/picture_widget.rs:120-126 | as written, the texture walk fails on every built picture, because it meets the background first |
| Framed.PictureTextureSlotOutOfRange | src/widgets/widget.rs:189-197 | as written: rebuilt from empty buffers, a textured picture's inner widget gets index 1, but the texture list has one entry, so `set_texture_send` would write past its end |
| Framed.RebuiltTreeRefreshesTextures | src/widgets/widget.rs:106-108 | corrected: on any built tree, pictures included, the corrected texture walk succeeds and leaves the texture list as the rebuild laid it out |
| Framed.PictureTextureRefreshCorrected | src/widgets/composites/picture_widget.rs:120-126 | corrected: rebuilt from empty buffers, a textured picture's texture walk succeeds and writes its one texture at position 0, where the rebuild put it |
| Text.DefaultText | src/widgets/primitives/text_widget.rs:19-33 | the default text widget: zero colour, unit size at the origin, no children, no index, identity frame, no font face, font size 0 |
| Text.SetTextPosition | src/widgets/primitives/text_widget.rs:38 | the position is stored; every other field is kept: placement, colour, index, frame, children, font face and font size |
| Text.SetTextRotation | src/widgets/primitives/text_widget.rs:40 | the rotation is stored; every other field is kept: placement, colour, index, frame, children, font face and font size |
| Text.SetTextSize | src/widgets/primitives/text_widget.rs:42 | the size is stored; every other field is kept: placement, colour, index, frame, children, font face and font size |
| Text.SetTextIndex | src/widgets/primitives/text_widget.rs:46 | the index is stored; every other field is kept: placement, colour, frame, children, font face and font size |
| Text.SetTextVecSpace | src/widgets/primitives/text_widget.rs:48 | the frame is stored; every other field is kept: placement, colour, index, children, font face and font size |
| Text.U32Bytes | src/widgets/primitives/text_widget.rs:58 | `to_ne_bytes` of a `u32` gives four bytes, and reading them back in the same byte order gives the value |
| Text.U32BytesOnto | src/widgets/primitives/text_widget.rs:58 | every four bytes are the encoding of the value they read as |
| Text.WidgetInfo | src/widgets/primitives/text_widget.rs:50-65 | the record is 20 bytes: the first four read back as the background tag 1, then the colour's x, y, z and w, each as four float bytes |
| Quad.CreateWQuad | src/widgets/widget_quad.rs:5-49 | four z = 0 vertices on the corners of the unit square, the first at the top-left anchor (0, 0); six indices, all valid, forming two triangles that share the diagonal 0–2; every normal is +z; each texture coordinate is (x, 1 − y); both instance buffers start empty |
| Quad.QuadCoversUnitSquare | src/widgets/widget_quad.rs:9-34 | every corner of the unit square is a vertex of the quad |
| Quad.AsI32 | src/widgets/widget_model.rs:44-45 | `usize as i32` wraps modulo 2^32 into the signed 32-bit range: the result is a 32-bit signed value congruent to n, and equal to n below 2^31 |
| Quad.Draw | src/widgets/widget_model.rs:39-52 | the instanced draw uses every index of the mesh, once per `tbo` entry |
| Quad.DrawAfterRebuild | src/widgets/widget_model.rs:39-52 | after a rebuild into the fresh quad, the draw shows one instance per drawn widget, none per composite, with six indices each |
| Scene.DefaultObject | src/game_object.rs:15-26 | the default object: at the origin, scale 1, the unit rotation, no children, unbound, index 0 |
| Scene.ObjectMatrix | src/game_object.rs:36-42 | an object's `transform_matrix` is the identity when it sits at the origin with scale 1 and the unit rotation |
| Scene.DefaultObjectIsIdentity | src/game_object.rs:15-42 | `transform_matrix` is translate · uniform scale · rotate, so a default object draws its parent's frame unchanged |
| Scene.Unbind | src/game_object.rs:62-65 | a bound object's entry is removed from its model's array (later entries shift down); the other models and an unbound object's models are unchanged |
| Scene.SetDrawable | src/game_object.rs:61-74 | after the old entry is dropped: when rebound, the object's index is the model's length just before, and its own transform is appended there as the one new entry; when unbound, nothing is appended and the index is kept; placement and children are kept; every model other than the new one is exactly as the removal left it, and models named neither before nor after are untouched |
| Scene.FromModel | src/game_object.rs:29-34 | a new object bound to m takes the index equal to m's prior transform count; m grows by one identity entry after its old entries, which are kept; every other model is unchanged |
| Scene.SetTransformToDrawable | src/game_object.rs:45-55 | the write-back keeps every model's array and its length |
| Scene.SetTransformToDrawableSeq | src/game_object.rs:52-54 | the same over the children |
| Scene.SetTransformToDrawableFrame | src/game_object.rs:45-55 | only entries that some object of the tree is bound to are written |
| Scene.SetTransformToDrawableSeqFrame | src/game_object.rs:52-54 | the same over the children |
| Scene.SetTransformToDrawableWrites | src/game_object.rs:45-55 | when no two objects share an entry, each bound object's entry ends up holding parent frame · its own transform; every child is composed onto its parent's matrix whether or not the parent is bound |
| Scene.SetTransformToDrawableSeqWrites | src/game_object.rs:52-54 | the same over the children |
| Scene.RebindAsWritten | src/game_object.rs:61-74 | as written, rebinding one object of a scene changes only that object (and the arrays); every other object keeps its index |
| Scene.RebindAsWrittenStrandsIndex | src/game_object.rs:63-65 | two objects on one model at entries 0 and 1: unbinding the first leaves the second at index 1 of a one-entry array, so the scene is no longer consistent and its next write-back is out of range |
| Scene.Shifted | src/game_object.rs:64 | an object whose entry lay after the removed one in the same model moves down one index; others keep theirs |
| Scene.Rebind | src/game_object.rs:61-74 | corrected rebinding, in which objects follow their shifted entries, keeps a consistent scene consistent (every entry in range, no two objects on one entry) and stores the object's transform at its new index; every other bound object keeps its model and still names the transform it named before |
| Scene.RebindKeepsEntry | src/game_object.rs:61-74 | after object k's entry is removed, any other bound object's shifted index names the transform its old index named |
| View3D.New | src/render_pipelines/view_3d_render_pipeline.rs:20-77 | framebuffers with 3 attachments plus depth (geometry), 2 (lighting) and 1 each (ping, pong), all at the given size; the lighting pass is linked to the geometry buffer; the blur starts horizontal on its first pass |
| View3D.Draw | src/render_pipelines/view_3d_render_pipeline.rs:90-128 | the lighting pass is drawn once, before any blur; then exactly the ten scheduled passes follow, in order. Afterwards `hoz` is true and `first_iter` false, whatever they were before. Ping reads pong and pong reads ping; geometry, lighting and size are unchanged |
| View3D.ScheduleChains | src/render_pipelines/view_3d_render_pipeline.rs:109-121 | pass 0 reads attachment 1 of the lighting pass; every later pass draws into the other blur buffer and reads the one the pass before it drew |
| View3D.ScheduleAlternates | src/render_pipelines/view_3d_render_pipeline.rs:100-124 | pass i sets `horizontal` to true, and draws into ping, exactly when i is even |
| View3D.ScheduleDraws | src/render_pipelines/view_3d_render_pipeline.rs:106-125 | over the first n passes, ping is drawn ⌈n/2⌉ times and pong ⌊n/2⌋ times |
| View3D.BlurDrawsEachFiveTimes | src/render_pipelines/view_3d_render_pipeline.rs:99-125 | in a frame, ping and pong are each drawn five times, and the last pass draws pong |
| View3D.SetSize | src/render_pipelines/view_3d_render_pipeline.rs:134-145 | the pipeline and all four framebuffers take the new size; links and flags are kept |
| View3D.GetHeight | src/render_pipelines/view_3d_render_pipeline.rs:130-132 | returns (width, height), and in a well-formed pipeline every framebuffer has that size |
| View3D.SetSizeThenGet | src/render_pipelines/view_3d_render_pipeline.rs:130-145 | `get_height` returns the size last set, and the later of two resizes wins |
| View3D.GetLink | src/render_pipelines/view_3d_render_pipeline.rs:147-151 | the output is [lighting attachment 0, ping attachment 0], in that order, and both attachments exist |
| View3D.GetLinkAfterSchedule | src/render_pipelines/view_3d_render_pipeline.rs:99-151 | the first link is the lighting pass's attachment 0, not the attachment the blur starts from; the second is ping, which the next-to-last (horizontal) pass drew, while the last pass draws pong |
| View3D.LinkTo | src/render_pipelines/view_3d_render_pipeline.rs:153-159 | only the geometry buffer's inputs change: the outputs are appended in order |
| View3D.Unlink | src/render_pipelines/view_3d_render_pipeline.rs:161-163 | only the geometry buffer's inputs change: they become empty |
| View3D.LinkPush | src/render_pipelines/view_3d_render_pipeline.rs:165-169 | one input is appended to the geometry buffer; nothing else in the pipeline changes |
| View3D.UnlinkThenLinkTo | src/render_pipelines/view_3d_render_pipeline.rs:153-163 | linking outputs after unlinking leaves exactly those outputs, and the pipeline's shape is kept |

## Left out

- GL calls and their errors (`set_int`, `set_vector_4`, `set_bool`, framebuffer draws and resizes, the VAO draw, uploads) are foreign. Uniform writes are map updates and draws are trace events, and all of them are taken to succeed.
- `f32` rounding and the bit layout of `f32::to_ne_bytes` are not modelled. Lengths and insets are `real`, and the float encoding in `Text.WidgetInfo` is a parameter that yields four bytes.
- Matrices and quaternions are symbolic, with only the identity laws. Results that need associativity or inversion are not stated. `get_size_pixels`/`set_size_pixels` (`src/widgets/widget.rs:55-71`) need matrix inversion and are not part of this model.
- Widgets.LocalMatrix: promises only that the unit placement gives the identity. The converse fails for real matrices: the quaternion (-1, 0, 0, 0) also gives the identity rotation, and so does a half-turn combined with a mirroring scale.
- Widgets.TransformMatrix: promises only that an identity local box leaves the parent frame unchanged. A singular frame, such as the 0 × 0 default picture's, absorbs other local boxes too.
- Framed.InnerVecSpace: promises only that the whole unit square leaves the parent frame unchanged. A singular parent frame absorbs other insets too.
- Scene.ObjectMatrix: promises only that the default placement gives the identity. The quaternion (-1, 0, 0, 0) gives it too.
- Framed.DrawChildren: `draw_children` calls `draw(&Matrix4)` on each child, but no widget declares that method (the widget trait's only `draw` takes no frame, `src/widgets/traits.rs:4`), and nothing in the engine calls `draw_children`. The model keeps it as the one place where the inset frame is used. A child's `draw` error would stop it early; the model returns the three calls it makes, in order, and takes each to succeed.
- Primitives.Bump: the counters are `i32` in the source. Overflow after 2^31 widgets of one type is not modelled.
- Quad.Draw: `len() as i32` wraps for buffers of 2^31 entries or more. `Quad.AsI32` writes the wrap out, but `Quad.Draw` promises the counts only below 2^31.
- Framed.SetPadding: the trait declares `set_padding`, but the picture widget implements `set_padding_inner_val` instead (`src/widgets/composites/picture_widget.rs:71`). The model stores the padding under one name.
- `PictureWidget::from_path` loads an asset. `Framed.TexturedPicture` only models its result, with the texture as an id.
- `Rc` sharing: textures and models are plain ids. A model's transform array is an entry of a map from model id.
- Widgets.SetTransform: `set_data_index_inner` (`src/widgets/widget.rs:164`) writes through an unchecked pointer. The model requires the index to lie inside `tbo` (`IndexFits`), and a write past the end is not modelled.
- Widgets.SetTextureSend: `diffuse_textures[index]` (`src/widgets/widget.rs:191`) panics when the index is past the end of the texture list. The model requires the index to lie inside it (`IndexFits`) instead of modelling the panic. `Framed.PictureTextureSlotOutOfRange` shows that a rebuilt picture reaches that case.
- Traversal.SetTransforms: the same unchecked write (`src/widgets/widget.rs:131`). The walk requires every slot written before the first missing one to lie inside `tbo` (`WritesFit`).
- Traversal.SetTextures: the same panicking index (`src/widgets/widget.rs:146`). The walk requires the slots it writes to lie inside the texture list (`TextureWritesFit`). `quad.meshes[0]` also panics on a model without meshes (`src/widgets/widget.rs:88`); the model has no mesh list, only the one mesh's texture list.
- Scene.SetDrawable: removing past the end of an array, or writing past it in `set_transform_to_drawable`, is undefined or panics in the array type, which is foreign. Both are preconditions here.
- Scene.SetTransformToDrawableWrites: when two objects share one entry, the later write wins. The lemma covers only scenes in which entries are distinct.
- Scene.SetTransformToDrawableSeqWrites: the same restriction to distinct entries, for a list of sibling objects.
- `get_drawable` (`src/game_object.rs:57-59`) is a plain accessor of the `drawable` field.
- `View3DRenderPipeline::new` can fail while loading shaders or creating framebuffers. Both are foreign, so `View3D.New` models only the success path. `bind` is GL only.
- The text widget does not implement `send_widget_info` in the source, and it is not part of the drawn tree walks. Freetype sizing is foreign.
- The threads, windowing, resource manager and scene orchestration are not part of this model. Neither are the older widget designs, `widget_2d_render_pipeline.rs` and `widget_model.rs` beyond `draw`.

## Findings

| source | as written | input that shows it | evidently intended | confidence | as-written member | corrected member |
|---|---|---|---|---|---|---|
| src/widgets/widget.rs:143-156 | `traverse_and_set_textures` repeats the test of `set_texture_send` inline on every primitive (lines 145-149), so it returns `WidgetIndexMissing` for a primitive without a texture | any built picture: its background (slot 0) is met first | refresh the textures of textured nodes and step over the others, as the rebuild does at lines 106-108 | not executed; high | Framed.PictureTextureRefreshFails | Framed.RebuiltTreeRefreshesTextures |
| src/widgets/widget.rs:189-197 | `set_texture_send` writes `diffuse_textures[index]` with the node's `tbo` slot, but the rebuild appends a texture only for textured nodes, so the two numberings differ | the default picture carrying texture t, rebuilt from empty buffers: inner index 1, texture list [t] | write each texture at its position among the textured nodes, where the rebuild put it | not executed; high | Framed.PictureTextureSlotOutOfRange | Framed.PictureTextureRefreshCorrected |
| src/game_object.rs:61-74 | `set_drawable` removes the object's entry with `remove`, which shifts every later entry of that model down one place; the other objects bound to the model keep their old `model_index` | objects A and B on model M at entries 0 and 1; A is unbound: M has one entry, and B still holds index 1 | the objects after the removed entry follow it, so that every bound object's index still names its own entry | not executed; medium | Scene.RebindAsWrittenStrandsIndex | Scene.Rebind |

=== FILE: framed.dfy ===
/** The framed composite: a picture widget holds exactly three children in
    fixed slots (0 background, 1 inner widget, 2 border).

    The inset frame that the border widths and the padding leave is computed
    only by `draw_children` (framed_widget.rs:42-63), which nothing in the
    engine calls.  The picture's tree walks hand all three children the same
    frame (picture_widget.rs:99-104 and 110-114), so a rebuilt inner widget is
    placed by its own stored position and size alone.
    `DefaultLayoutMatchesInner` shows that the two agree for the default
    picture only.

    Inset vectors are read as (x, y, z, w) = (left, right, top, bottom).  The
    arithmetic is on `real`: the `f32` rounding of the source is not modelled. */
module Framed {
  import opened Wrappers
  import opened Errors
  import opened LinAlg
  import opened Primitives
  import opened Widgets
  import opened Traversal

  // ----- slot typing -----

  predicate IsBackground(w: Widget) { w.Primitive? && w.kind.Background? }
  predicate IsTextureWidget(w: Widget) { w.Primitive? && w.kind.Texture? }
  predicate IsBorder(w: Widget) { w.Primitive? && w.kind.Border? }

  /** What the slot accessors demand: a composite with the three slots present
      and a background in slot 0 and a border in slot 2.  The source panics on a
      missing slot or a failed downcast, so this is a precondition. */
  predicate IsFramed(w: Widget)
  {
    w.Composite? && |w.children| >= 3 && IsBackground(w.children[0]) && IsBorder(w.children[2])
  }

  /** `PictureWidget::default()`: unplaced, identity frame, padding 0.05 on every
      side, and the three slots: a default background, a texture widget at
      (0.06, 0.06) of size 0.88 x 0.88, and a border of width 0.01 on every side. */
  function DefaultPicture(): (w: Widget)
    ensures IsFramed(w) && IsTextureWidget(w.children[1]) && |w.children| == 3
    ensures w.padding == Vec4(0.05, 0.05, 0.05, 0.05) && w.vecSpace == Identity && w.place == Unplaced
    ensures w.children[0] == DefaultBackground()
    ensures w.children[1].kind == Texture(None) && w.children[1].index == None
    ensures GetPosition(w.children[1]) == Vec2(0.06, 0.06) && GetSize(w.children[1]) == (0.88, 0.88)
    ensures w.children[2].kind == Border(Zero4, Vec4(0.01, 0.01, 0.01, 0.01)) && w.children[2].index == None
  {
    var inner := Primitive(Texture(None), Placement(Vec2(0.06, 0.06), UnitQuat, 0.88, 0.88), Identity, None, []);
    var border := Primitive(Border(Zero4, Vec4(0.01, 0.01, 0.01, 0.01)), Unplaced, Identity, None, []);
    Composite(Unplaced, Identity, Vec4(0.05, 0.05, 0.05, 0.05), [DefaultBackground(), inner, border])
  }

  // ----- slot accessors -----

  /** `get_background`, `get_inner_widget` (downcast to the texture widget) and
      `get_border`. */
  function GetBackground(w: Widget): (b: Widget)
    requires IsFramed(w)
    ensures IsBackground(b)
  {
    w.children[0]
  }

  function GetInnerWidget(w: Widget): (t: Widget)
    requires IsFramed(w) && IsTextureWidget(w.children[1])
    ensures IsTextureWidget(t)
  {
    w.children[1]
  }

  function GetBorder(w: Widget): (b: Widget)
    requires IsFramed(w)
    ensures IsBorder(b)
  {
    w.children[2]
  }

  /** Replace the child in `slot` and nothing else.  Indexing past the children
      panics in the source. */
  function SetSlot(w: Widget, slot: nat, child: Widget): (r: Widget)
    requires w.Composite? && slot < |w.children|
    ensures r.Composite? && |r.children| == |w.children| && r.children[slot] == child
    ensures forall i :: 0 <= i < |w.children| && i != slot ==> r.children[i] == w.children[i]
    ensures r.place == w.place && r.vecSpace == w.vecSpace && r.padding == w.padding
  {
    Composite(w.place, w.vecSpace, w.padding, w.children[slot := child])
  }

  /** `set_background`: the argument's type guarantees a background. */
  function SetBackground(w: Widget, b: Widget): (r: Widget)
    requires w.Composite? && |w.children| >= 1 && IsBackground(b)
    ensures |r.children| == |w.children| && r.children[0] == b
    ensures forall i :: 1 <= i < |w.children| ==> r.children[i] == w.children[i]
    ensures IsFramed(w) ==> IsFramed(r) && GetBackground(r) == b
    ensures r.Composite? && r.place == w.place && r.vecSpace == w.vecSpace && r.padding == w.padding
  {
    SetSlot(w, 0, b)
  }

  /** `set_inner_widget`: any widget may go into slot 1. */
  function SetInnerWidget(w: Widget, inner: Widget): (r: Widget)
    requires w.Composite? && |w.children| >= 2
    ensures |r.children| == |w.children| && r.children[1] == inner
    ensures forall i :: 0 <= i < |w.children| && i != 1 ==> r.children[i] == w.children[i]
    ensures IsFramed(w) ==> IsFramed(r)
    ensures r.Composite? && r.place == w.place && r.vecSpace == w.vecSpace && r.padding == w.padding
  {
    SetSlot(w, 1, inner)
  }

  /** `set_border`: the argument's type guarantees a border. */
  function SetBorder(w: Widget, b: Widget): (r: Widget)
    requires w.Composite? && |w.children| >= 3 && IsBorder(b)
    ensures |r.children| == |w.children| && r.children[2] == b
    ensures forall i :: 0 <= i < |w.children| && i != 2 ==> r.children[i] == w.children[i]
    ensures IsFramed(w) ==> IsFramed(r) && GetBorder(r) == b
    ensures r.Composite? && r.place == w.place && r.vecSpace == w.vecSpace && r.padding == w.padding
  {
    SetSlot(w, 2, b)
  }

  function GetBorderWidths(w: Widget): (v: Vec4)
    requires IsFramed(w)
    ensures w.children[2].Primitive? && w.children[2].kind.Border? && v == w.children[2].kind.widths
  {
    GetBorder(w).kind.widths
  }

  /** `set_border_widths`: only the border's widths change; its colour, place,
      frame, slot and children, and every other child, stay. */
  function SetBorderWidths(w: Widget, widths: Vec4): (r: Widget)
    requires IsFramed(w)
    ensures IsFramed(r) && GetBorderWidths(r) == widths
    ensures |r.children| == |w.children|
    ensures forall i :: 0 <= i < |w.children| && i != 2 ==> r.children[i] == w.children[i]
    ensures r.children[2].kind.colour == w.children[2].kind.colour
    ensures r.children[2].place == w.children[2].place && r.children[2].index == w.children[2].index
    ensures r.children[2].vecSpace == w.children[2].vecSpace && r.children[2].children == w.children[2].children
    ensures r.place == w.place && r.padding == w.padding && r.vecSpace == w.vecSpace
  {
    var b := GetBorder(w);
    SetSlot(w, 2, Primitive(Border(b.kind.colour, widths), b.place, b.vecSpace, b.index, b.children))
  }

  function GetPadding(w: Widget): (v: Vec4)
    requires w.Composite?
    ensures v == w.padding
  {
    w.padding
  }

  /** Store the padding (the picture widget's `set_padding_inner_val`). */
  function SetPadding(w: Widget, padding: Vec4): (r: Widget)
    requires w.Composite?
    ensures r.Composite? && GetPadding(r) == padding
    ensures r.children == w.children && r.place == w.place && r.vecSpace == w.vecSpace
  {
    Composite(w.place, w.vecSpace, padding, w.children)
  }

  /** Writing a border's widths and reading them back, and the picture's slots
      stay framed whatever is stored in them; storing what was just read
      changes nothing. */
  lemma SetBorderWidthsThenGet(w: Widget, widths: Vec4, padding: Vec4)
    requires IsFramed(w)
    ensures GetBorderWidths(SetBorderWidths(w, widths)) == widths
    ensures GetBackground(SetBorderWidths(w, widths)) == GetBackground(w)
    ensures GetPadding(SetPadding(w, padding)) == padding
    ensures IsFramed(SetPadding(w, padding)) && GetBorderWidths(SetPadding(w, padding)) == GetBorderWidths(w)
    ensures SetBorderWidths(w, GetBorderWidths(w)) == w && SetPadding(w, GetPadding(w)) == w
  {
  }

  // ----- the inset rule -----

  /** The inner widget's box in the frame's normalised coordinates. */
  datatype InnerBox = InnerBox(x: real, y: real, width: real, height: real)

  /** `draw_children`'s inset: the inner box starts after the left (top) border
      and padding and ends before the right (bottom) ones. */
  function InnerLayout(padding: Vec4, border: Vec4): (b: InnerBox)
    ensures b.x == border.x + padding.x && b.y == border.z + padding.z
    ensures b.x + b.width + border.y + padding.y == 1.0
    ensures b.y + b.height + border.w + padding.w == 1.0
  {
    var width := 1.0 - border.x - border.y - padding.x - padding.y;
    var height := 1.0 - border.z - border.w - padding.z - padding.w;
    InnerBox(border.x + padding.x, border.z + padding.z, width, height)
  }

  /** The frame the inner widget is drawn in: the parent frame, then moved to
      the inner box's corner, then scaled to its size. */
  function InnerVecSpace(vs: Mat, padding: Vec4, border: Vec4): (m: Mat)
    ensures InnerLayout(padding, border) == InnerBox(0.0, 0.0, 1.0, 1.0) ==> m == vs
  {
    var b := InnerLayout(padding, border);
    Mul(vs, Mul(Translate(b.x, b.y, 0.0), Scale(b.width, b.height, 1.0)))
  }

  /** With no padding and no border the inner widget gets the whole frame. */
  lemma ZeroInsetIsParentSpace(vs: Mat)
    ensures InnerLayout(Zero4, Zero4) == InnerBox(0.0, 0.0, 1.0, 1.0)
    ensures InnerVecSpace(vs, Zero4, Zero4) == vs
  {
  }

  /** Widening the left border (or padding) by `d` moves the box right by `d`
      and narrows it by `d`; the right edge stays. */
  lemma InsetShiftsBox(padding: Vec4, border: Vec4, d: real)
    ensures var a := InnerLayout(padding, border);
      var b := InnerLayout(padding, border.(x := border.x + d));
      b.x == a.x + d && b.width == a.width - d && b.x + b.width == a.x + a.width && b.y == a.y && b.height == a.height
  {
  }

  /** In the default picture, the texture child's own placement is exactly the
      box the inset rule computes from the default padding and border widths. */
  lemma DefaultLayoutMatchesInner()
    ensures var w := DefaultPicture();
      var b := InnerLayout(w.padding, GetBorderWidths(w));
      b == InnerBox(0.06, 0.06, 0.88, 0.88) &&
      GetPosition(w.children[1]) == Vec2(b.x, b.y) && GetSize(w.children[1]) == (b.width, b.height)
  {
  }

  /** One `draw` call of a child, with the frame it is handed. */
  datatype DrawCall = DrawCall(child: nat, space: Mat)

  /** `draw_children`: children 0, 1, 2 in that order; the background and the
      border get the parent frame unchanged and only the inner widget gets the
      inset frame. */
  function DrawChildren(w: Widget, vs: Mat): (trace: seq<DrawCall>)
    requires IsFramed(w)
    ensures |trace| == 3
    ensures forall i :: 0 <= i < 3 ==> trace[i].child == i
    ensures trace[0].space == vs && trace[2].space == vs
    ensures trace[1].space == InnerVecSpace(vs, GetPadding(w), GetBorderWidths(w))
  {
    var inner := InnerVecSpace(vs, w.padding, GetBorderWidths(w));
    [DrawCall(0, vs), DrawCall(1, inner), DrawCall(2, vs)]
  }

  /** A frame with no padding and no border draws every child in the parent frame. */
  lemma UnframedDrawsAllInParent(w: Widget, vs: Mat)
    requires IsFramed(w) && GetPadding(w) == Zero4 && GetBorderWidths(w) == Zero4
    ensures forall i :: 0 <= i < 3 ==> DrawChildren(w, vs)[i].space == vs
  {
    ZeroInsetIsParentSpace(vs);
  }

  // ----- pictures in the tree walks -----

  /** A frame whose three slots are childless primitives, as every picture the
      source builds is. */
  predicate PlainFrame(w: Widget)
  {
    IsFramed(w) && |w.children| == 3 &&
    forall i :: 0 <= i < 3 ==> w.children[i].Primitive? && w.children[i].children == []
  }

  lemma DefaultPictureIsPlain(t: TextureId)
    ensures PlainFrame(DefaultPicture()) && PlainFrame(TexturedPicture(t))
    ensures TexturedPicture(t).children[1].kind == Texture(Some(t))
  {
  }

  /** A rebuilt picture keeps the kinds and places of its three slots, in
      order; only slots and frames differ. */
  lemma RebuiltLeaves(w: Widget, vs: Mat, g: Gpu, c: PrimitiveCounter)
    requires PlainFrame(w)
    ensures var b := PushAll(w, vs, g, c).widget;
      b.Composite? && |b.children| == 3 &&
      (forall i :: 0 <= i < 3 ==>
        (b.children[i].Primitive? && b.children[i].children == [] &&
         b.children[i].kind == w.children[i].kind && b.children[i].place == w.children[i].place))
  {
    var b := PushAll(w, vs, g, c).widget;
    PushAllPlaces(w, vs, g, c);
    ShapeSeqIndex(b.children);
    ShapeSeqIndex(w.children);
    forall i | 0 <= i < 3
      ensures b.children[i].Primitive? && b.children[i].children == []
      ensures b.children[i].kind == w.children[i].kind && b.children[i].place == w.children[i].place
    {
      ShapeOfLeaf(b.children[i], w.children[i]);
    }
  }

  /** A picture (the default one included) rebuilt from a transform buffer of
      length `L` appends exactly three slots: the background at `L`, the inner
      widget at `L + 1`, the border at `L + 2`; the picture itself takes none. */
  lemma PictureRebuild(w: Widget, vs: Mat, g: Gpu, c: PrimitiveCounter)
    requires PlainFrame(w)
    ensures var b := PushAll(w, vs, g, c);
      var L := |g.tbo|;
      |b.gpu.tbo| == L + 3 && GetIndex(b.widget) == None && PlainFrame(b.widget) &&
      b.widget.children[0].index == Some(L) && b.widget.children[1].index == Some(L + 1) &&
      b.widget.children[2].index == Some(L + 2)
  {
    var L := |g.tbo|;
    PushAllSlots(w, vs, g, c);
    RebuiltLeaves(w, vs, g, c);
    var b := PushAll(w, vs, g, c);
    ThreeLeaves(w.children);
    ThreeLeaves(b.widget.children);
    assert Range(L, 3) == [Some(L), Some(L + 1), Some(L + 2)];
  }

  /** The default picture carrying texture `t`, as `from_path` builds it. */
  function TexturedPicture(t: TextureId): (w: Widget)
    ensures IsFramed(w) && GetTexture(w.children[1]) == Some(t)
  {
    SetInnerWidget(DefaultPicture(), SetTexture(GetInnerWidget(DefaultPicture()), t).widget)
  }

  /** The texture refresh as written cannot succeed on any built picture: it
      meets the background before anything else and reports a missing index. */
  lemma PictureTextureRefreshFails(w: Widget, vs: Mat, g: Gpu, c: PrimitiveCounter, textures: seq<TextureId>)
    requires PlainFrame(w)
    ensures var b := PushAll(w, vs, g, c);
      TextureWritesFit(b.widget, |textures|) && SetTextures(b.widget, textures).outcome == Err(WidgetIndexMissing)
  {
    var b := PushAll(w, vs, g, c);
    RebuiltLeaves(w, vs, g, c);
    var cs := b.widget.children;
    assert Kinds(cs[0]) == [cs[0].kind] + KindsSeq([]);
    assert !FullyTextured(cs[0]) by {
      assert cs[0].kind in Kinds(cs[0]);
    }
    assert TextureWritesFit(b.widget, |textures|);
    ThreeLeaves(cs);
    SetTexturesRejectsUntextured(b.widget, textures, 0);
  }

  /** The texture slot a rebuild hands a picture's inner texture is its
      transform slot, one past the background's; but the rebuild appended only
      one texture.  So from empty buffers `set_texture_send` on that child
      indexes one past the end of the texture list. */
  lemma PictureTextureSlotOutOfRange(w: Widget, t: TextureId, vs: Mat, u: Uniforms, c: PrimitiveCounter)
    requires PlainFrame(w) && w.children[1].kind == Texture(Some(t))
    ensures var b := PushAll(w, vs, Gpu([], [], u), c);
      PlainFrame(b.widget) &&
      b.widget.children[1].index == Some(1) && b.gpu.textures == [t] &&
      GetTexture(b.widget.children[1]) == Some(t) &&
      !IndexFits(b.widget.children[1], |b.gpu.textures|)
  {
    var g := Gpu([], [], u);
    var b := PushAll(w, vs, g, c);
    PictureRebuild(w, vs, g, c);
    PushAllBuffers(w, vs, g, c);
    RebuiltLeaves(w, vs, g, c);
    ThreeLeaves(w.children);
    var ks := Kinds(w);
    assert ks == [w.children[0].kind, Texture(Some(t)), w.children[2].kind];
    assert ks[1..][1..] == [ks[2]];
    assert TexturesOf(ks[1..][1..]) == [];
    assert TexturesOf(ks[1..]) == [t];
  }

  /** The corrected refresh keeps the texture list in step with the rebuild on
      any built tree, pictures included. */
  lemma RebuiltTreeRefreshesTextures(w: Widget, vs: Mat, g: Gpu, c: PrimitiveCounter)
    ensures var b := PushAll(w, vs, g, c);
      |g.textures| + |TexturesOf(Kinds(b.widget))| <= |b.gpu.textures| &&
      var r := RefreshTextures(b.widget, b.gpu.textures, |g.textures|);
      r.outcome == Ok && r.textures == b.gpu.textures
  {
    var b := PushAll(w, vs, g, c);
    PushAllSlots(w, vs, g, c);
    assert None !in Range(|g.tbo|, |Kinds(w)|);
    RefreshTexturesAgreesWithRebuild(w, b.widget, vs, g, c);
    RebuildIsIdempotent(w, vs, g, c);
  }

  /** From empty buffers the corrected refresh of a textured picture writes its
      one texture at position 0, where the rebuild put it. */
  lemma PictureTextureRefreshCorrected(w: Widget, t: TextureId, vs: Mat, u: Uniforms, c: PrimitiveCounter)
    requires PlainFrame(w) && w.children[1].kind == Texture(Some(t))
    ensures var b := PushAll(w, vs, Gpu([], [], u), c);
      |TexturesOf(Kinds(b.widget))| <= |b.gpu.textures| &&
      var r := RefreshTextures(b.widget, b.gpu.textures, 0);
      r.outcome == Ok && r.textures == [t]
  {
    RebuiltTreeRefreshesTextures(w, vs, Gpu([], [], u), c);
    PictureTextureSlotOutOfRange(w, t, vs, u, c);
  }
}

=== FILE: game_object.dfy ===
/** The 3D scene graph: a game object may be bound to a shared model, and then
    owns one entry (`model_index`) of that model's instance transform array;
    children are placed in the frame of their parent whether or not the parent
    is bound.  Models are shared handles in the source, so they are ids here
    and the transform arrays live in one map from model id to array. */
module Scene {
  import opened Wrappers
  import opened LinAlg

  type ModelId = nat

  /** Every model's instance transform array. */
  type Models = map<ModelId, seq<Mat>>

  datatype GameObject = GameObject(
    position: Vec3,
    rotation: Quat,
    scale: real,
    children: seq<GameObject>,
    drawable: Option<ModelId>,
    modelIndex: nat)

  /** `GameObject::default()`: at the origin, unit scale, no rotation, no
      children, unbound, index 0. */
  function DefaultObject(): (o: GameObject)
    ensures o.position == Vec3(0.0, 0.0, 0.0) && o.scale == 1.0 && o.rotation == UnitQuat
    ensures o.children == [] && o.drawable == None && o.modelIndex == 0
  {
    GameObject(Vec3(0.0, 0.0, 0.0), UnitQuat, 1.0, [], None, 0)
  }

  /** `transform_matrix`: translated, then uniformly scaled, then rotated. */
  function ObjectMatrix(o: GameObject): (m: Mat)
    ensures o.position == Vec3(0.0, 0.0, 0.0) && o.scale == 1.0 && o.rotation == UnitQuat ==> m == Identity
  {
    Mul(Mul(Translate(o.position.x, o.position.y, o.position.z), UniformScale(o.scale)), Rotate(o.rotation))
  }

  /** A default object draws its parent's frame unchanged. */
  lemma DefaultObjectIsIdentity()
    ensures ObjectMatrix(DefaultObject()) == Identity
  {
  }

  /** The array lengths of the models: all that decides whether a write fits. */
  function Sizes(models: Models): (s: map<ModelId, nat>)
    ensures s.Keys == models.Keys && forall d | d in models :: s[d] == |models[d]|
  {
    map d | d in models :: |models[d]|
  }

  /** `Vec::remove`: drop entry `i`, shifting the later ones down. */
  function RemoveAt<T>(s: seq<T>, i: nat): (r: seq<T>)
    requires i < |s|
    ensures |r| == |s| - 1
    ensures forall j :: 0 <= j < i ==> r[j] == s[j]
    ensures forall j :: i <= j < |r| ==> r[j] == s[j + 1]
  {
    s[..i] + s[i + 1..]
  }

  /** The model array a bound object's entry is dropped from, before rebinding. */
  function Unbind(o: GameObject, models: Models): (r: Models)
    requires o.drawable.Some? ==> o.drawable.value in models && o.modelIndex < |models[o.drawable.value]|
    ensures r.Keys == models.Keys
    ensures o.drawable.None? ==> r == models
    ensures o.drawable.Some? ==> r[o.drawable.value] == RemoveAt(models[o.drawable.value], o.modelIndex)
    ensures forall d | d in models && Some(d) != o.drawable :: r[d] == models[d]
  {
    match o.drawable
    case None => models
    case Some(d) => models[d := RemoveAt(models[d], o.modelIndex)]
  }

  datatype Rebound = Rebound(obj: GameObject, models: Models)

  /** `set_drawable`: drop the entry the object held in its old model (a `remove`,
      which panics past the end), then, when bound to a new model, take the next
      index of that model and append the object's own transform there. */
  function SetDrawable(o: GameObject, d: Option<ModelId>, models: Models): (r: Rebound)
    requires o.drawable.Some? ==> o.drawable.value in models && o.modelIndex < |models[o.drawable.value]|
    requires d.Some? ==> d.value in models
    ensures r.obj.drawable == d && r.models.Keys == models.Keys
    ensures r.obj.position == o.position && r.obj.rotation == o.rotation && r.obj.scale == o.scale
    ensures r.obj.children == o.children
    ensures d.None? ==> r.obj.modelIndex == o.modelIndex && r.models == Unbind(o, models)
    ensures d.Some? ==>
      var before := Unbind(o, models)[d.value];
      r.obj.modelIndex == |before| && r.models[d.value] == before + [ObjectMatrix(o)]
    ensures forall e | e in models && Some(e) != d && Some(e) != o.drawable :: r.models[e] == models[e]
    ensures forall e | e in models && Some(e) != d :: r.models[e] == Unbind(o, models)[e]
  {
    var unbound := Unbind(o, models);
    match d
    case None => Rebound(GameObject(o.position, o.rotation, o.scale, o.children, None, o.modelIndex), unbound)
    case Some(m) =>
      var obj := GameObject(o.position, o.rotation, o.scale, o.children, d, |unbound[m]|);
      Rebound(obj, unbound[m := unbound[m] + [ObjectMatrix(o)]])
  }

  /** `from_model`: a default object bound to `m` takes the index equal to the
      number of transforms `m` held before. */
  function FromModel(m: ModelId, models: Models): (r: Rebound)
    requires m in models
    ensures r.obj.drawable == Some(m) && r.obj.modelIndex == |models[m]|
    ensures m in r.models && |r.models[m]| == |models[m]| + 1 && r.models[m][|models[m]|] == Identity
    ensures r.models.Keys == models.Keys && r.models[m][..|models[m]|] == models[m]
    ensures forall e | e in models && e != m :: r.models[e] == models[e]
  {
    DefaultObjectIsIdentity();
    SetDrawable(DefaultObject(), Some(m), models)
  }

  // ----- set_transform_to_drawable -----

  datatype Binding = Binding(model: ModelId, slot: nat)

  /** The (model, index) pairs of the bound objects of a tree, in pre-order. */
  function Bindings(o: GameObject): seq<Binding>
    decreases o
  {
    (if o.drawable.Some? then [Binding(o.drawable.value, o.modelIndex)] else []) + BindingsSeq(o.children)
  }

  function BindingsSeq(os: seq<GameObject>): seq<Binding>
    decreases os
  {
    if |os| == 0 then [] else Bindings(os[0]) + BindingsSeq(os[1..])
  }

  /** The composed transforms of the bound objects of a tree placed in `vs`, in
      pre-order (one per binding): each object's matrix is its parent's
      composed matrix times its own, bound or not. */
  function Composed(o: GameObject, vs: Mat): (ts: seq<Mat>)
    ensures |ts| == |Bindings(o)|
    decreases o
  {
    var m := Mul(vs, ObjectMatrix(o));
    (if o.drawable.Some? then [m] else []) + ComposedSeq(o.children, m)
  }

  function ComposedSeq(os: seq<GameObject>, vs: Mat): (ts: seq<Mat>)
    ensures |ts| == |BindingsSeq(os)|
    decreases os
  {
    if |os| == 0 then [] else Composed(os[0], vs) + ComposedSeq(os[1..], vs)
  }

  /** Every binding names a model and an entry inside its array. */
  predicate Fits(bs: seq<Binding>, sizes: map<ModelId, nat>)
  {
    forall i :: 0 <= i < |bs| ==> bs[i].model in sizes && bs[i].slot < sizes[bs[i].model]
  }

  /** `set_transform_to_drawable`: compose the object's matrix onto the parent
      frame, write it at `model_index` when the object is bound, and hand it to
      every child.  Writing past the end of an array is undefined in the source,
      so the bindings must fit. */
  function SetTransformToDrawable(o: GameObject, vs: Mat, models: Models): (r: Models)
    requires Fits(Bindings(o), Sizes(models))
    ensures Sizes(r) == Sizes(models)
    decreases o
  {
    var m := Mul(vs, ObjectMatrix(o));
    var own := if o.drawable.Some? then [Binding(o.drawable.value, o.modelIndex)] else [];
    assert Fits(own, Sizes(models)) && Fits(BindingsSeq(o.children), Sizes(models)) by {
      FitsSplit(own, BindingsSeq(o.children), Sizes(models));
    }
    var written := if o.drawable.Some? then
        assert own[0] == Binding(o.drawable.value, o.modelIndex);
        models[o.drawable.value := models[o.drawable.value][o.modelIndex := m]]
      else models;
    assert Sizes(written) == Sizes(models);
    SetTransformToDrawableSeq(o.children, m, written)
  }

  function SetTransformToDrawableSeq(os: seq<GameObject>, vs: Mat, models: Models): (r: Models)
    requires Fits(BindingsSeq(os), Sizes(models))
    ensures Sizes(r) == Sizes(models)
    decreases os
  {
    if |os| == 0 then models
    else
      assert Fits(Bindings(os[0]), Sizes(models)) && Fits(BindingsSeq(os[1..]), Sizes(models)) by {
        FitsSplit(Bindings(os[0]), BindingsSeq(os[1..]), Sizes(models));
      }
      var first := SetTransformToDrawable(os[0], vs, models);
      SetTransformToDrawableSeq(os[1..], vs, first)
  }

  lemma FitsSplit(a: seq<Binding>, b: seq<Binding>, sizes: map<ModelId, nat>)
    ensures Fits(a + b, sizes) <==> Fits(a, sizes) && Fits(b, sizes)
  {
    if Fits(a + b, sizes) {
      assert forall i :: 0 <= i < |a| ==> a[i] == (a + b)[i];
      assert forall i :: 0 <= i < |b| ==> b[i] == (a + b)[|a| + i];
    }
    if Fits(a, sizes) && Fits(b, sizes) {
      forall i | 0 <= i < |a + b|
        ensures (a + b)[i].model in sizes && (a + b)[i].slot < sizes[(a + b)[i].model]
      {
        if i >= |a| { assert (a + b)[i] == b[i - |a|]; }
      }
    }
  }

  /** The write-back touches only the entries the tree's objects are bound to. */
  lemma {:induction false} SetTransformToDrawableFrame(o: GameObject, vs: Mat, models: Models, d: ModelId, j: nat)
    requires Fits(Bindings(o), Sizes(models))
    requires d in models && j < |models[d]| && Binding(d, j) !in Bindings(o)
    ensures SetTransformToDrawable(o, vs, models)[d][j] == models[d][j]
    decreases o
  {
    var m := Mul(vs, ObjectMatrix(o));
    var own := if o.drawable.Some? then [Binding(o.drawable.value, o.modelIndex)] else [];
    assert Bindings(o) == own + BindingsSeq(o.children);
    FitsSplit(own, BindingsSeq(o.children), Sizes(models));
    assert o.drawable.Some? ==> own[0] == Binding(o.drawable.value, o.modelIndex);
    var written := if o.drawable.Some? then models[o.drawable.value := models[o.drawable.value][o.modelIndex := m]] else models;
    assert Sizes(written) == Sizes(models);
    assert written[d][j] == models[d][j];
    SetTransformToDrawableSeqFrame(o.children, m, written, d, j);
  }

  lemma {:induction false} SetTransformToDrawableSeqFrame(os: seq<GameObject>, vs: Mat, models: Models, d: ModelId, j: nat)
    requires Fits(BindingsSeq(os), Sizes(models))
    requires d in models && j < |models[d]| && Binding(d, j) !in BindingsSeq(os)
    ensures SetTransformToDrawableSeq(os, vs, models)[d][j] == models[d][j]
    decreases os
  {
    if |os| > 0 {
      FitsSplit(Bindings(os[0]), BindingsSeq(os[1..]), Sizes(models));
      SetTransformToDrawableFrame(os[0], vs, models, d, j);
      var first := SetTransformToDrawable(os[0], vs, models);
      assert Sizes(first) == Sizes(models);
      assert d in first && j < |first[d]| by {
        assert Sizes(first)[d] == Sizes(models)[d];
      }
      SetTransformToDrawableSeqFrame(os[1..], vs, first, d, j);
    }
  }

  /** No two objects share an entry. */
  predicate Distinct(bs: seq<Binding>)
  {
    forall i, j :: 0 <= i < j < |bs| ==> bs[i] != bs[j]
  }

  lemma DistinctSplit(a: seq<Binding>, b: seq<Binding>)
    requires Distinct(a + b)
    ensures Distinct(a) && Distinct(b)
    ensures forall x :: x in a ==> x !in b
  {
    forall i, j | 0 <= i < j < |a|
      ensures a[i] != a[j]
    {
      assert a[i] == (a + b)[i] && a[j] == (a + b)[j];
    }
    forall i, j | 0 <= i < j < |b|
      ensures b[i] != b[j]
    {
      assert b[i] == (a + b)[|a| + i] && b[j] == (a + b)[|a| + j];
    }
    forall x | x in a
      ensures x !in b
    {
      var i :| 0 <= i < |a| && a[i] == x;
      forall j | 0 <= j < |b|
        ensures b[j] != x
      {
        assert (a + b)[i] != (a + b)[|a| + j];
      }
    }
  }

  /** When no two objects share an entry, the write-back leaves each bound
      object's composed transform at its own entry. */
  lemma {:induction false} SetTransformToDrawableWrites(o: GameObject, vs: Mat, models: Models, i: nat)
    requires Fits(Bindings(o), Sizes(models)) && Distinct(Bindings(o))
    requires i < |Bindings(o)|
    ensures var b := Bindings(o)[i];
      b.model in models && b.slot < |models[b.model]| &&
      SetTransformToDrawable(o, vs, models)[b.model][b.slot] == Composed(o, vs)[i]
    decreases o, 2
  {
    if o.drawable.Some? && i == 0 {
      SetTransformToDrawableWritesOwn(o, vs, models);
    } else {
      SetTransformToDrawableWritesBelow(o, vs, models, i);
    }
  }

  /** The bound object's own entry holds its composed transform: no descendant
      overwrites it. */
  lemma {:induction false} SetTransformToDrawableWritesOwn(o: GameObject, vs: Mat, models: Models)
    requires Fits(Bindings(o), Sizes(models)) && Distinct(Bindings(o)) && o.drawable.Some?
    ensures var b := Bindings(o)[0];
      b.model in models && b.slot < |models[b.model]| &&
      SetTransformToDrawable(o, vs, models)[b.model][b.slot] == Composed(o, vs)[0]
  {
    var m := Mul(vs, ObjectMatrix(o));
    var b := Binding(o.drawable.value, o.modelIndex);
    var own := [b];
    assert Bindings(o) == own + BindingsSeq(o.children);
    assert Composed(o, vs) == [m] + ComposedSeq(o.children, m);
    FitsSplit(own, BindingsSeq(o.children), Sizes(models));
    DistinctSplit(own, BindingsSeq(o.children));
    assert own[0] == b && b !in BindingsSeq(o.children);
    assert b.model in Sizes(models) && b.slot < Sizes(models)[b.model];
    var written := models[b.model := models[b.model][b.slot := m]];
    assert Sizes(written) == Sizes(models);
    SetTransformToDrawableSeqFrame(o.children, m, written, b.model, b.slot);
  }

  /** An entry bound below the object holds that descendant's composed
      transform. */
  lemma {:induction false} SetTransformToDrawableWritesBelow(o: GameObject, vs: Mat, models: Models, i: nat)
    requires Fits(Bindings(o), Sizes(models)) && Distinct(Bindings(o))
    requires (if o.drawable.Some? then 1 else 0) <= i < |Bindings(o)|
    ensures var b := Bindings(o)[i];
      b.model in models && b.slot < |models[b.model]| &&
      SetTransformToDrawable(o, vs, models)[b.model][b.slot] == Composed(o, vs)[i]
    decreases o, 1
  {
    var m := Mul(vs, ObjectMatrix(o));
    if o.drawable.Some? {
      var own := Binding(o.drawable.value, o.modelIndex);
      assert Bindings(o) == [own] + BindingsSeq(o.children);
      assert Composed(o, vs) == [m] + ComposedSeq(o.children, m);
      FitsSplit([own], BindingsSeq(o.children), Sizes(models));
      DistinctSplit([own], BindingsSeq(o.children));
      assert [own][0] == own;
      var written := models[own.model := models[own.model][own.slot := m]];
      assert Sizes(written) == Sizes(models);
      assert Bindings(o)[i] == BindingsSeq(o.children)[i - 1];
      assert Composed(o, vs)[i] == ComposedSeq(o.children, m)[i - 1];
      assert SetTransformToDrawable(o, vs, models) == SetTransformToDrawableSeq(o.children, m, written);
      SetTransformToDrawableSeqWrites(o.children, m, written, i - 1);
    } else {
      assert Bindings(o) == [] + BindingsSeq(o.children) == BindingsSeq(o.children);
      assert Composed(o, vs) == [] + ComposedSeq(o.children, m) == ComposedSeq(o.children, m);
      assert SetTransformToDrawable(o, vs, models) == SetTransformToDrawableSeq(o.children, m, models);
      SetTransformToDrawableSeqWrites(o.children, m, models, i);
    }
  }

  lemma {:induction false} SetTransformToDrawableSeqWrites(os: seq<GameObject>, vs: Mat, models: Models, i: nat)
    requires Fits(BindingsSeq(os), Sizes(models)) && Distinct(BindingsSeq(os))
    requires i < |BindingsSeq(os)|
    ensures var b := BindingsSeq(os)[i];
      b.model in models && b.slot < |models[b.model]| &&
      SetTransformToDrawableSeq(os, vs, models)[b.model][b.slot] == ComposedSeq(os, vs)[i]
    decreases os, 3
  {
    var b1 := Bindings(os[0]);
    var b2 := BindingsSeq(os[1..]);
    assert BindingsSeq(os) == b1 + b2;
    assert ComposedSeq(os, vs) == Composed(os[0], vs) + ComposedSeq(os[1..], vs);
    FitsSplit(b1, b2, Sizes(models));
    DistinctSplit(b1, b2);
    var first := SetTransformToDrawable(os[0], vs, models);
    assert Sizes(first) == Sizes(models);
    var b := BindingsSeq(os)[i];
    assert b.model in Sizes(models) && b.slot < Sizes(models)[b.model];
    if i < |b1| {
      assert b == b1[i] && b !in b2;
      SetTransformToDrawableWrites(os[0], vs, models, i);
      assert b.model in first && b.slot < |first[b.model]| by {
        assert Sizes(first)[b.model] == Sizes(models)[b.model];
      }
      SetTransformToDrawableSeqFrame(os[1..], vs, first, b.model, b.slot);
    } else {
      assert b == b2[i - |b1|];
      SetTransformToDrawableSeqWrites(os[1..], vs, first, i - |b1|);
    }
  }

  // ----- several objects sharing models -----

  /** A scene's objects (the ones `set_drawable` is called on) and the models
      they share are consistent when every bound object's entry exists and no
      two objects hold the same entry of the same model. */
  predicate Consistent(objs: seq<GameObject>, models: Models)
  {
    (forall i :: 0 <= i < |objs| && objs[i].drawable.Some? ==>
      objs[i].drawable.value in models && objs[i].modelIndex < |models[objs[i].drawable.value]|) &&
    (forall i, j :: 0 <= i < j < |objs| && objs[i].drawable.Some? && objs[i].drawable == objs[j].drawable ==>
      objs[i].modelIndex != objs[j].modelIndex)
  }

  datatype World = World(objs: seq<GameObject>, models: Models)

  /** `objs[k].set_drawable(d)` as written: only object `k` and the arrays change;
      every other object keeps its index, even those whose entry moved down. */
  function RebindAsWritten(w: World, k: nat, d: Option<ModelId>): (r: World)
    requires k < |w.objs| && Consistent(w.objs, w.models)
    requires d.Some? ==> d.value in w.models
    ensures |r.objs| == |w.objs| && r.objs[k].drawable == d
    ensures forall i :: 0 <= i < |w.objs| && i != k ==> r.objs[i] == w.objs[i]
  {
    var b := SetDrawable(w.objs[k], d, w.models);
    World(w.objs[k := b.obj], b.models)
  }

  /** Two objects bound to one model, at entries 0 and 1. */
  function TwoOnOneModel(): World
  {
    var a := GameObject(Vec3(0.0, 0.0, 0.0), UnitQuat, 1.0, [], Some(0), 0);
    var b := GameObject(Vec3(0.0, 0.0, 0.0), UnitQuat, 1.0, [], Some(0), 1);
    World([a, b], map[0 := [Identity, Identity]])
  }

  /** Unbinding the first of two objects on one model leaves the second holding
      index 1 of an array that now has one entry: its next write-back is past
      the end. */
  lemma RebindAsWrittenStrandsIndex()
    ensures Consistent(TwoOnOneModel().objs, TwoOnOneModel().models)
    ensures var r := RebindAsWritten(TwoOnOneModel(), 0, None);
      r.objs[1].modelIndex == 1 && |r.models[0]| == 1 && !Consistent(r.objs, r.models) &&
      !Fits(Bindings(r.objs[1]), Sizes(r.models))
  {
    var w := TwoOnOneModel();
    var r := RebindAsWritten(w, 0, None);
    assert r.objs[1].drawable == Some(0) && r.objs[1].modelIndex == 1;
    assert Bindings(r.objs[1]) == [Binding(0, 1)] + BindingsSeq([]);
    assert Sizes(r.models)[0] == 1;
    assert Bindings(r.objs[1])[0] == Binding(0, 1);
  }

  /** The model entry an unbinding removes shifts the later entries down by one:
      an object that held one of them now holds the one before. */
  function Shifted(o: GameObject, gone: Option<ModelId>, slot: nat): (r: GameObject)
    ensures r.drawable == o.drawable && r.position == o.position && r.children == o.children
    ensures o.drawable == gone && gone.Some? && o.modelIndex > slot ==> r.modelIndex == o.modelIndex - 1
    ensures !(o.drawable == gone && gone.Some? && o.modelIndex > slot) ==> r.modelIndex == o.modelIndex
  {
    if o.drawable == gone && gone.Some? && o.modelIndex > slot then
      GameObject(o.position, o.rotation, o.scale, o.children, o.drawable, o.modelIndex - 1)
    else o
  }

  /** `set_drawable` with the removal carried through: the objects whose entries
      moved down follow them. */
  function Rebind(w: World, k: nat, d: Option<ModelId>): (r: World)
    requires k < |w.objs| && Consistent(w.objs, w.models)
    requires d.Some? ==> d.value in w.models
    ensures |r.objs| == |w.objs| && r.objs[k].drawable == d
    ensures Consistent(r.objs, r.models)
    ensures d.Some? ==> r.models[d.value][r.objs[k].modelIndex] == ObjectMatrix(w.objs[k])
    ensures forall i :: 0 <= i < |w.objs| && i != k && w.objs[i].drawable.Some? ==>
      r.objs[i].drawable == w.objs[i].drawable &&
      r.models[r.objs[i].drawable.value][r.objs[i].modelIndex] == w.models[w.objs[i].drawable.value][w.objs[i].modelIndex]
  {
    var o := w.objs[k];
    var b := SetDrawable(o, d, w.models);
    var objs := seq(|w.objs|, i requires 0 <= i < |w.objs| =>
      if i == k then b.obj else Shifted(w.objs[i], o.drawable, o.modelIndex));
    RebindKeepsConsistent(w, k, d, objs, b);
    forall i | 0 <= i < |w.objs| && i != k && w.objs[i].drawable.Some?
      ensures objs[i].drawable.value in b.models && objs[i].modelIndex < |b.models[objs[i].drawable.value]|
      ensures b.models[objs[i].drawable.value][objs[i].modelIndex] == w.models[w.objs[i].drawable.value][w.objs[i].modelIndex]
    {
      RebindKeepsEntry(w, k, d, b, i);
    }
    World(objs, b.models)
  }

  /** The proof obligation of `Rebind`, on its own. */
  lemma RebindKeepsConsistent(w: World, k: nat, d: Option<ModelId>, objs: seq<GameObject>, b: Rebound)
    requires k < |w.objs| && Consistent(w.objs, w.models)
    requires d.Some? ==> d.value in w.models
    requires b == SetDrawable(w.objs[k], d, w.models)
    requires |objs| == |w.objs| && objs[k] == b.obj
    requires forall i :: 0 <= i < |objs| && i != k ==> objs[i] == Shifted(w.objs[i], w.objs[k].drawable, w.objs[k].modelIndex)
    ensures Consistent(objs, b.models)
  {
    var o := w.objs[k];
    var unbound := Unbind(o, w.models);
    // every other object's entry still exists after the removal, and ...
    forall i | 0 <= i < |objs| && i != k && objs[i].drawable.Some?
      ensures objs[i].drawable.value in unbound && objs[i].modelIndex < |unbound[objs[i].drawable.value]|
    {
      var e := w.objs[i];
      if o.drawable.Some? && e.drawable == o.drawable {
        if i < k {
          assert e.modelIndex != o.modelIndex;
        } else {
          assert o.modelIndex != e.modelIndex;
        }
      }
    }
    // ... no two objects share one, the rebound object included.
    forall i, j | 0 <= i < j < |objs| && objs[i].drawable.Some? && objs[i].drawable == objs[j].drawable
      ensures objs[i].modelIndex != objs[j].modelIndex
    {
      if i != k && j != k {
        var ei, ej := w.objs[i], w.objs[j];
        assert ei.modelIndex != ej.modelIndex;
        if o.drawable.Some? && ei.drawable == o.drawable {
          assert ei.modelIndex != o.modelIndex && ej.modelIndex != o.modelIndex by {
            if i < k { assert ei.modelIndex != o.modelIndex; } else { assert o.modelIndex != ei.modelIndex; }
            if j < k { assert ej.modelIndex != o.modelIndex; } else { assert o.modelIndex != ej.modelIndex; }
          }
        }
      }
    }
  }

  /** An object other than the rebound one still names the transform it held:
      its entry either stayed where it was or moved down one place, with it. */
  lemma RebindKeepsEntry(w: World, k: nat, d: Option<ModelId>, b: Rebound, i: nat)
    requires k < |w.objs| && Consistent(w.objs, w.models)
    requires d.Some? ==> d.value in w.models
    requires b == SetDrawable(w.objs[k], d, w.models)
    requires i < |w.objs| && i != k && w.objs[i].drawable.Some?
    ensures var s := Shifted(w.objs[i], w.objs[k].drawable, w.objs[k].modelIndex);
      s.drawable.value in b.models && s.modelIndex < |b.models[s.drawable.value]| &&
      b.models[s.drawable.value][s.modelIndex] == w.models[w.objs[i].drawable.value][w.objs[i].modelIndex]
  {
    var o, e := w.objs[k], w.objs[i];
    var s := Shifted(e, o.drawable, o.modelIndex);
    var m := e.drawable.value;
    var unbound := Unbind(o, w.models);
    // the entry is still in the array the removal left, at the shifted index
    if o.drawable == Some(m) {
      if i < k { assert e.modelIndex != o.modelIndex; } else { assert o.modelIndex != e.modelIndex; }
      assert unbound[m] == RemoveAt(w.models[m], o.modelIndex);
    }
    assert s.modelIndex < |unbound[m]| && unbound[m][s.modelIndex] == w.models[m][e.modelIndex];
    // and rebinding only appends to it
    if d == Some(m) {
      assert b.models[m] == unbound[m] + [ObjectMatrix(o)];
    } else {
      assert b.models[m] == unbound[m];
    }
  }
}

=== FILE: linalg.dfy ===
/** Vectors, quaternions and 4x4 matrices, kept symbolic.

    A `Mat` is a product term over translations, scalings and rotations.  The
    smart constructors below apply only the identity laws of real matrix algebra
    (a zero translation, a unit scale and the unit quaternion are the identity;
    the identity is neutral for products), so two terms that are equal here
    denote equal real matrices.  The converse does not hold: distinct terms can
    denote the same matrix (the quaternion (-1, 0, 0, 0) also rotates by
    nothing, and a singular frame absorbs any scaling), so contracts conclude
    that two matrices differ only where real matrices do too: a nonzero
    translation and a non-unit scale are never the identity.
    Associativity is deliberately not applied: the model keeps the bracketing
    the source computes. */
module LinAlg {

  datatype Vec2 = Vec2(x: real, y: real)
  datatype Vec3 = Vec3(x: real, y: real, z: real)
  /** A 4-component vector; for border widths and padding the components
      x, y, z, w are the left, right, top and bottom insets. */
  datatype Vec4 = Vec4(x: real, y: real, z: real, w: real)
  /** A quaternion `s + xi + yj + zk` (cgmath's `Quaternion::new(s, x, y, z)`). */
  datatype Quat = Quat(s: real, x: real, y: real, z: real)

  const UnitQuat: Quat := Quat(1.0, 0.0, 0.0, 0.0)
  const Zero2: Vec2 := Vec2(0.0, 0.0)
  const Zero4: Vec4 := Vec4(0.0, 0.0, 0.0, 0.0)

  datatype Mat =
    | Identity
    | TranslateM(t: Vec3)
    | ScaleM(f: Vec3)
    | RotateM(q: Quat)
    | MulM(a: Mat, b: Mat)

  /** `Matrix4::from_translation(vec3(x, y, z))`. */
  function Translate(x: real, y: real, z: real): (m: Mat)
    ensures m == Identity <==> x == 0.0 && y == 0.0 && z == 0.0
  {
    if x == 0.0 && y == 0.0 && z == 0.0 then Identity else TranslateM(Vec3(x, y, z))
  }

  /** `Matrix4::from_nonuniform_scale(x, y, z)`. */
  function Scale(x: real, y: real, z: real): (m: Mat)
    ensures m == Identity <==> x == 1.0 && y == 1.0 && z == 1.0
  {
    if x == 1.0 && y == 1.0 && z == 1.0 then Identity else ScaleM(Vec3(x, y, z))
  }

  /** `Matrix4::from_scale(s)`. */
  function UniformScale(s: real): (m: Mat)
    ensures m == Scale(s, s, s)
  {
    Scale(s, s, s)
  }

  /** `Matrix4::from(q)` for a rotation quaternion. */
  function Rotate(q: Quat): (m: Mat)
    ensures q == UnitQuat ==> m == Identity
  {
    if q == UnitQuat then Identity else RotateM(q)
  }

  /** The matrix product `a * b`. */
  function Mul(a: Mat, b: Mat): (m: Mat)
    ensures a == Identity ==> m == b
    ensures b == Identity ==> m == a
  {
    if a == Identity then b else if b == Identity then a else MulM(a, b)
  }
}

=== FILE: primitives.dfy ===
/** The primitive-widget bookkeeping: the per-type counter threaded through a
    traversal, the type discriminants the fragment shader switches on, and the
    three `send_widget_info` implementations, which write shader uniforms.

    Shader uniforms are modelled as a map keyed by (array, element, field), so
    `widgets[3].type` is `Uniform(WidgetsArray, 3, TypeField)` and
    `backgroundWidgets[0]` is `Uniform(BackgroundWidgetsArray, 0, WholeElement)`. */
module Primitives {
  import opened Wrappers
  import opened Errors
  import opened LinAlg

  /** A texture handle, modelled by its id. */
  type TextureId = nat

  /** Per-type counts of the primitives already sent in this traversal.
      A plain value record (the source's type is `Copy`), threaded by value. */
  datatype PrimitiveCounter = PrimitiveCounter(backgroundNum: int, textureNum: int, borderNum: int)

  /** `PrimitiveCounter::default()`. */
  function DefaultCounter(): (c: PrimitiveCounter)
    ensures c.backgroundNum == 0 && c.textureNum == 0 && c.borderNum == 0
  {
    PrimitiveCounter(0, 0, 0)
  }

  /** The primitive kinds the shader distinguishes. */
  datatype PrimitiveType = BackgroundType | TextureType | BorderType

  /** The integer each kind is sent as (`PrimitiveType as i32`). */
  function Discriminant(t: PrimitiveType): (d: int)
    ensures 1 <= d <= 3
    ensures t == BackgroundType <==> d == 1
    ensures t == TextureType <==> d == 2
    ensures t == BorderType <==> d == 3
  {
    match t
    case BackgroundType => 1
    case TextureType => 2
    case BorderType => 3
  }

  /** No two kinds share a discriminant, so the shader can tell them apart. */
  lemma DiscriminantInjective(t: PrimitiveType, u: PrimitiveType)
    requires Discriminant(t) == Discriminant(u)
    ensures t == u
  {
  }

  /** What a primitive widget carries beyond its placement. */
  datatype Kind =
    | Background(colour: Vec4)
    | Border(colour: Vec4, widths: Vec4)
    | Texture(texture: Option<TextureId>)

  function TypeOf(k: Kind): PrimitiveType
  {
    match k
    case Background(_) => BackgroundType
    case Border(_, _) => BorderType
    case Texture(_) => TextureType
  }

  /** The counter value a primitive of type `t` is numbered with. */
  function CountOf(c: PrimitiveCounter, t: PrimitiveType): int
  {
    match t
    case BackgroundType => c.backgroundNum
    case TextureType => c.textureNum
    case BorderType => c.borderNum
  }

  /** The counter after one more primitive of kind `k` has been sent. */
  function Bump(c: PrimitiveCounter, k: Kind): (d: PrimitiveCounter)
    ensures CountOf(d, TypeOf(k)) == CountOf(c, TypeOf(k)) + 1
    ensures forall t :: t != TypeOf(k) ==> CountOf(d, t) == CountOf(c, t)
  {
    match k
    case Background(_) => c.(backgroundNum := c.backgroundNum + 1)
    case Border(_, _) => c.(borderNum := c.borderNum + 1)
    case Texture(_) => c.(textureNum := c.textureNum + 1)
  }

  datatype UniformArray = WidgetsArray | BackgroundWidgetsArray | BorderWidgetsArray
  datatype UniformField = TypeField | IndexField | ColourField | WidthsField | WholeElement
  datatype UniformKey = Uniform(array: UniformArray, element: int, field: UniformField)
  datatype UniformValue = IntValue(i: int) | Vec4Value(v: Vec4)
  type Uniforms = map<UniformKey, UniformValue>

  /** The state a `send_widget_info` call leaves behind. */
  datatype InfoResult = InfoResult(uniforms: Uniforms, counter: PrimitiveCounter, outcome: Outcome)

  /** `u` maps `key` to `value`. */
  predicate Holds(u: Uniforms, key: UniformKey, value: UniformValue)
  {
    key in u && u[key] == value
  }

  /** `u` and `v` agree on every key outside `written`, and `v` adds no other keys. */
  predicate SameOutside(u: Uniforms, v: Uniforms, written: set<UniformKey>)
  {
    && (forall key :: key in v ==> key in u || key in written)
    && (forall key :: key in u && key !in written ==> key in v && v[key] == u[key])
  }

  /** `BackgroundWidget::send_widget_info`. */
  function BackgroundInfo(colour: Vec4, index: Option<nat>, u: Uniforms, c: PrimitiveCounter): (r: InfoResult)
    ensures index.None? ==> r == InfoResult(u, c, Err(WidgetIndexMissing))
    ensures index.Some? ==>
      && r.outcome == Ok
      && Holds(r.uniforms, Uniform(WidgetsArray, index.value, TypeField), IntValue(Discriminant(BackgroundType)))
      && Holds(r.uniforms, Uniform(WidgetsArray, index.value, IndexField), IntValue(c.backgroundNum))
      && Holds(r.uniforms, Uniform(BackgroundWidgetsArray, c.backgroundNum, WholeElement), Vec4Value(colour))
      && SameOutside(u, r.uniforms, {Uniform(WidgetsArray, index.value, TypeField),
                                     Uniform(WidgetsArray, index.value, IndexField),
                                     Uniform(BackgroundWidgetsArray, c.backgroundNum, WholeElement)})
      && r.counter == c.(backgroundNum := c.backgroundNum + 1)
  {
    match index
    case None => InfoResult(u, c, Err(WidgetIndexMissing))
    case Some(i) =>
      var u' := u[Uniform(WidgetsArray, i, TypeField) := IntValue(Discriminant(BackgroundType))]
                 [Uniform(WidgetsArray, i, IndexField) := IntValue(c.backgroundNum)]
                 [Uniform(BackgroundWidgetsArray, c.backgroundNum, WholeElement) := Vec4Value(colour)];
      InfoResult(u', c.(backgroundNum := c.backgroundNum + 1), Ok)
  }

  /** `BorderWidget::send_widget_info`. */
  function BorderInfo(colour: Vec4, widths: Vec4, index: Option<nat>, u: Uniforms, c: PrimitiveCounter): (r: InfoResult)
    ensures index.None? ==> r == InfoResult(u, c, Err(WidgetIndexMissing))
    ensures index.Some? ==>
      && r.outcome == Ok
      && Holds(r.uniforms, Uniform(WidgetsArray, index.value, TypeField), IntValue(Discriminant(BorderType)))
      && Holds(r.uniforms, Uniform(WidgetsArray, index.value, IndexField), IntValue(c.borderNum))
      && Holds(r.uniforms, Uniform(BorderWidgetsArray, c.borderNum, ColourField), Vec4Value(colour))
      && Holds(r.uniforms, Uniform(BorderWidgetsArray, c.borderNum, WidthsField), Vec4Value(widths))
      && SameOutside(u, r.uniforms, {Uniform(WidgetsArray, index.value, TypeField),
                                     Uniform(WidgetsArray, index.value, IndexField),
                                     Uniform(BorderWidgetsArray, c.borderNum, ColourField),
                                     Uniform(BorderWidgetsArray, c.borderNum, WidthsField)})
      && r.counter == c.(borderNum := c.borderNum + 1)
  {
    match index
    case None => InfoResult(u, c, Err(WidgetIndexMissing))
    case Some(i) =>
      var u' := u[Uniform(WidgetsArray, i, TypeField) := IntValue(Discriminant(BorderType))]
                 [Uniform(WidgetsArray, i, IndexField) := IntValue(c.borderNum)]
                 [Uniform(BorderWidgetsArray, c.borderNum, ColourField) := Vec4Value(colour)]
                 [Uniform(BorderWidgetsArray, c.borderNum, WidthsField) := Vec4Value(widths)];
      InfoResult(u', c.(borderNum := c.borderNum + 1), Ok)
  }

  /** `TextureWidget::send_widget_info`: only the type tag and the per-type number. */
  function TextureInfo(index: Option<nat>, u: Uniforms, c: PrimitiveCounter): (r: InfoResult)
    ensures index.None? ==> r == InfoResult(u, c, Err(WidgetIndexMissing))
    ensures index.Some? ==>
      && r.outcome == Ok
      && Holds(r.uniforms, Uniform(WidgetsArray, index.value, TypeField), IntValue(Discriminant(TextureType)))
      && Holds(r.uniforms, Uniform(WidgetsArray, index.value, IndexField), IntValue(c.textureNum))
      && SameOutside(u, r.uniforms, {Uniform(WidgetsArray, index.value, TypeField),
                                     Uniform(WidgetsArray, index.value, IndexField)})
      && r.counter == c.(textureNum := c.textureNum + 1)
  {
    match index
    case None => InfoResult(u, c, Err(WidgetIndexMissing))
    case Some(i) =>
      var u' := u[Uniform(WidgetsArray, i, TypeField) := IntValue(Discriminant(TextureType))]
                 [Uniform(WidgetsArray, i, IndexField) := IntValue(c.textureNum)];
      InfoResult(u', c.(textureNum := c.textureNum + 1), Ok)
  }

  /** Dispatch of `send_widget_info` over the primitive kinds. */
  function SendWidgetInfo(k: Kind, index: Option<nat>, u: Uniforms, c: PrimitiveCounter): (r: InfoResult)
    ensures index.None? <==> r.outcome.Err?
    ensures r.outcome.Err? ==> r == InfoResult(u, c, Err(WidgetIndexMissing))
    ensures r.outcome.Ok? ==> r.counter == Bump(c, k)
    ensures r.outcome.Ok? ==> Holds(r.uniforms, Uniform(WidgetsArray, index.value, TypeField), IntValue(Discriminant(TypeOf(k))))
    ensures r.outcome.Ok? ==> Holds(r.uniforms, Uniform(WidgetsArray, index.value, IndexField), IntValue(CountOf(c, TypeOf(k))))
  {
    match k
    case Background(colour) => BackgroundInfo(colour, index, u, c)
    case Border(colour, widths) => BorderInfo(colour, widths, index, u, c)
    case Texture(_) => TextureInfo(index, u, c)
  }
}

=== FILE: text_widget.dfy ===
/** The text widget: a standalone primitive that is not part of the drawn tree
    walks.  Its only behaviour beyond field access is `widget_info`, which
    packs a 20-byte record for the shader: the background type tag as a `u32`
    and the four colour components as `f32`, each in the machine's native byte
    order.  The font face is an opaque handle; sizing it is foreign code. */
module Text {
  import opened Wrappers
  import opened LinAlg
  import opened Primitives
  import opened Widgets

  newtype byte = x: int | 0 <= x < 256

  /** A `u32` value. */
  type U32 = x: int | 0 <= x < 0x1_0000_0000

  type FaceId = nat

  datatype TextWidget = TextWidget(
    colour: Vec4,
    place: Placement,
    children: seq<Widget>,
    index: Option<nat>,
    vecSpace: Mat,
    fontFace: Option<FaceId>,
    fontSize: U32)

  /** `TextWidget::default()`: transparent black, unit size at the origin, no
      children, no slot, identity frame, no font face and font size 0. */
  function DefaultText(): (t: TextWidget)
    ensures t.colour == Zero4 && t.place == Placement(Zero2, UnitQuat, 1.0, 1.0)
    ensures t.children == [] && t.index == None && t.vecSpace == Identity
    ensures t.fontFace == None && t.fontSize == 0
  {
    TextWidget(Zero4, Placement(Zero2, UnitQuat, 1.0, 1.0), [], None, Identity, None, 0)
  }

  // ----- accessors: each writes its own field and nothing else -----

  function SetTextPosition(t: TextWidget, pos: Vec2): (r: TextWidget)
    ensures r.place.position == pos
    ensures r.place.rotation == t.place.rotation && r.place.width == t.place.width && r.place.height == t.place.height
    ensures r.colour == t.colour && r.index == t.index && r.vecSpace == t.vecSpace && r.children == t.children
    ensures r.fontFace == t.fontFace && r.fontSize == t.fontSize
  {
    t.(place := t.place.(position := pos))
  }

  function SetTextRotation(t: TextWidget, rot: Quat): (r: TextWidget)
    ensures r.place.rotation == rot
    ensures r.place.position == t.place.position && r.place.width == t.place.width && r.place.height == t.place.height
    ensures r.colour == t.colour && r.index == t.index && r.vecSpace == t.vecSpace && r.children == t.children
    ensures r.fontFace == t.fontFace && r.fontSize == t.fontSize
  {
    t.(place := t.place.(rotation := rot))
  }

  function SetTextSize(t: TextWidget, width: real, height: real): (r: TextWidget)
    ensures (r.place.width, r.place.height) == (width, height)
    ensures r.place.position == t.place.position && r.place.rotation == t.place.rotation
    ensures r.colour == t.colour && r.index == t.index && r.vecSpace == t.vecSpace && r.children == t.children
    ensures r.fontFace == t.fontFace && r.fontSize == t.fontSize
  {
    t.(place := t.place.(width := width, height := height))
  }

  function SetTextIndex(t: TextWidget, i: Option<nat>): (r: TextWidget)
    ensures r.index == i
    ensures r.place == t.place && r.colour == t.colour && r.vecSpace == t.vecSpace && r.children == t.children
    ensures r.fontFace == t.fontFace && r.fontSize == t.fontSize
  {
    t.(index := i)
  }

  function SetTextVecSpace(t: TextWidget, vs: Mat): (r: TextWidget)
    ensures r.vecSpace == vs
    ensures r.place == t.place && r.colour == t.colour && r.index == t.index && r.children == t.children
    ensures r.fontFace == t.fontFace && r.fontSize == t.fontSize
  {
    t.(vecSpace := vs)
  }

  // ----- native-endian byte encoding -----

  /** `u32::to_ne_bytes`: least significant byte first on a little-endian
      machine, most significant first otherwise. */
  function U32Bytes(v: U32, littleEndian: bool): (bs: seq<byte>)
    ensures |bs| == 4
    ensures U32Of(bs, littleEndian) == v
  {
    var q1 := v / 0x100;
    var q2 := q1 / 0x100;
    var q3 := q2 / 0x100;
    assert v == v % 0x100 + 0x100 * q1;
    assert q1 == q1 % 0x100 + 0x100 * q2;
    assert q2 == q2 % 0x100 + 0x100 * q3;
    assert v / 0x1_0000 == q2;
    assert v / 0x100_0000 == q3;
    var b0 := (v % 0x100) as byte;
    var b1 := (v / 0x100 % 0x100) as byte;
    var b2 := (v / 0x1_0000 % 0x100) as byte;
    var b3 := (v / 0x100_0000) as byte;
    if littleEndian then [b0, b1, b2, b3] else [b3, b2, b1, b0]
  }

  /** `u32::from_ne_bytes`, the reader on the shader side. */
  function U32Of(bs: seq<byte>, littleEndian: bool): (v: U32)
    requires |bs| == 4
  {
    var le := if littleEndian then bs else [bs[3], bs[2], bs[1], bs[0]];
    le[0] as int + 0x100 * le[1] as int + 0x1_0000 * le[2] as int + 0x100_0000 * le[3] as int
  }

  /** Every four bytes are the encoding of the value they read as. */
  lemma {:induction false} U32BytesOnto(bs: seq<byte>, littleEndian: bool)
    requires |bs| == 4
    ensures U32Bytes(U32Of(bs, littleEndian), littleEndian) == bs
  {
    var le := if littleEndian then bs else [bs[3], bs[2], bs[1], bs[0]];
    var a, b, c, d := le[0] as int, le[1] as int, le[2] as int, le[3] as int;
    var v := a + 0x100 * (b + 0x100 * (c + 0x100 * d));
    assert v == U32Of(bs, littleEndian);
    DivMod(a, b + 0x100 * (c + 0x100 * d));
    DivMod(b, c + 0x100 * d);
    DivMod(c, d);
  }

  /** Splitting off the low byte. */
  lemma DivMod(lo: int, hi: int)
    requires 0 <= lo < 0x100 && 0 <= hi
    ensures (lo + 0x100 * hi) % 0x100 == lo && (lo + 0x100 * hi) / 0x100 == hi
  {
  }

  /** `widget_info`: the 20-byte shader record, with the float encoding
      `f32::to_ne_bytes` taken as a parameter (its bit layout is not modelled,
      only that it yields four bytes). */
  function WidgetInfo(t: TextWidget, littleEndian: bool, f32Bytes: real -> seq<byte>): (data: seq<byte>)
    requires forall x :: |f32Bytes(x)| == 4
    ensures |data| == 20
    ensures U32Of(data[..4], littleEndian) == Discriminant(BackgroundType)
    ensures data[4..8] == f32Bytes(t.colour.x) && data[8..12] == f32Bytes(t.colour.y)
    ensures data[12..16] == f32Bytes(t.colour.z) && data[16..] == f32Bytes(t.colour.w)
  {
    var tag := U32Bytes(Discriminant(BackgroundType), littleEndian);
    var data := tag + f32Bytes(t.colour.x) + f32Bytes(t.colour.y) + f32Bytes(t.colour.z) + f32Bytes(t.colour.w);
    assert data[..4] == tag;
    data
  }
}

=== FILE: traversal.dfy ===
/** The three tree walks of the `Widget` trait, with the pre-order reference
    definitions they are proved against.

    The instance buffers are a value `Gpu`: the transform buffer (`tbo`), whose
    length is the instance count of the single instanced draw, the diffuse
    texture list, and the shader uniforms.  Each walk threads that value and the
    `PrimitiveCounter` through a depth-first pre-order visit: a node before its
    children, children in stored order.  An error returned by a child stops the
    walk at once (Rust's `?`), keeping everything written so far. */
module Traversal {
  import opened Wrappers
  import opened Errors
  import opened LinAlg
  import opened Primitives
  import opened Widgets

  datatype Gpu = Gpu(tbo: seq<Mat>, textures: seq<TextureId>, uniforms: Uniforms)

  // =====================================================================
  // Reference definitions: what a pre-order flattening of a tree is
  // =====================================================================

  /** The kinds of the drawn (primitive) nodes, in pre-order. */
  function Kinds(w: Widget): seq<Kind>
    decreases w
  {
    match w
    case Primitive(k, _, _, _, cs) => [k] + KindsSeq(cs)
    case Composite(_, _, _, cs) => KindsSeq(cs)
  }

  function KindsSeq(cs: seq<Widget>): seq<Kind>
    decreases cs
  {
    if |cs| == 0 then [] else Kinds(cs[0]) + KindsSeq(cs[1..])
  }

  /** The slot indices of the drawn nodes, in pre-order (one per kind). */
  function Slots(w: Widget): (s: seq<Option<nat>>)
    ensures |s| == |Kinds(w)|
    decreases w
  {
    match w
    case Primitive(_, _, _, i, cs) => [i] + SlotsSeq(cs)
    case Composite(_, _, _, cs) => SlotsSeq(cs)
  }

  function SlotsSeq(cs: seq<Widget>): (s: seq<Option<nat>>)
    ensures |s| == |KindsSeq(cs)|
    decreases cs
  {
    if |cs| == 0 then [] else Slots(cs[0]) + SlotsSeq(cs[1..])
  }

  /** The transforms of the drawn nodes, in pre-order, when the tree is placed
      in the frame `vs`: each node's matrix is its parent's matrix times its own
      local box, whatever `vec_space` and index the nodes currently hold. */
  function Flatten(w: Widget, vs: Mat): (f: seq<Mat>)
    ensures |f| == |Kinds(w)|
    decreases w
  {
    var m := Mul(vs, LocalMatrix(w.place));
    match w
    case Primitive(_, _, _, _, cs) => [m] + FlattenSeq(cs, m)
    case Composite(_, _, _, cs) => FlattenSeq(cs, m)
  }

  function FlattenSeq(cs: seq<Widget>, vs: Mat): (f: seq<Mat>)
    ensures |f| == |KindsSeq(cs)|
    decreases cs
  {
    if |cs| == 0 then [] else Flatten(cs[0], vs) + FlattenSeq(cs[1..], vs)
  }

  /** The tree with everything a traversal writes (slot indices and `vec_space`)
      cleared: what the user built, as opposed to what traversal derived. */
  function Shape(w: Widget): Widget
    decreases w
  {
    match w
    case Primitive(k, p, _, _, cs) => Primitive(k, p, Identity, None, ShapeSeq(cs))
    case Composite(p, _, pad, cs) => Composite(p, Identity, pad, ShapeSeq(cs))
  }

  function ShapeSeq(cs: seq<Widget>): seq<Widget>
    decreases cs
  {
    if |cs| == 0 then [] else [Shape(cs[0])] + ShapeSeq(cs[1..])
  }

  /** Every node of `w` holds the frame its parent hands it: the root `vs`, and
      each child its parent's full transform matrix. */
  predicate Placed(w: Widget, vs: Mat)
    decreases w
  {
    w.vecSpace == vs && PlacedSeq(w.children, TransformMatrix(w))
  }

  predicate PlacedSeq(cs: seq<Widget>, vs: Mat)
    decreases cs
  {
    |cs| == 0 || (Placed(cs[0], vs) && PlacedSeq(cs[1..], vs))
  }

  /** The dense index run `start, start + 1, ..., start + n - 1`. */
  function Range(start: nat, n: nat): (s: seq<Option<nat>>)
    ensures |s| == n
    ensures forall k :: 0 <= k < n ==> s[k] == Some(start + k)
  {
    seq(n, k requires 0 <= k < n => Some(start + k))
  }

  /** The textures of the drawn nodes that have one, in pre-order. */
  function TexturesOf(ks: seq<Kind>): seq<TextureId>
  {
    if |ks| == 0 then []
    else (if ks[0].Texture? && ks[0].texture.Some? then [ks[0].texture.value] else []) + TexturesOf(ks[1..])
  }

  /** The counter after sending every kind in `ks`, in order. */
  function Tally(c: PrimitiveCounter, ks: seq<Kind>): PrimitiveCounter
    decreases |ks|
  {
    if |ks| == 0 then c else Tally(Bump(c, ks[0]), ks[1..])
  }

  /** How many kinds in `ks` are of type `t`. */
  function Occurrences(ks: seq<Kind>, t: PrimitiveType): nat
  {
    if |ks| == 0 then 0 else (if TypeOf(ks[0]) == t then 1 else 0) + Occurrences(ks[1..], t)
  }

  /** `send_widget_info` over a pre-order list of (kind, slot) pairs, stopping at
      the first error. */
  function InfoList(ks: seq<Kind>, ss: seq<Option<nat>>, u: Uniforms, c: PrimitiveCounter): InfoResult
    requires |ks| == |ss|
  {
    if |ks| == 0 then InfoResult(u, c, Ok)
    else
      var r := SendWidgetInfo(ks[0], ss[0], u, c);
      if r.outcome.Err? then r else InfoList(ks[1..], ss[1..], r.uniforms, r.counter)
  }

  // ----- facts about the reference definitions -----

  lemma KindsSeqCons(w: Widget, cs: seq<Widget>)
    ensures KindsSeq([w] + cs) == Kinds(w) + KindsSeq(cs)
    ensures SlotsSeq([w] + cs) == Slots(w) + SlotsSeq(cs)
    ensures ShapeSeq([w] + cs) == [Shape(w)] + ShapeSeq(cs)
    ensures forall vs :: PlacedSeq([w] + cs, vs) <==> Placed(w, vs) && PlacedSeq(cs, vs)
  {
    assert ([w] + cs)[0] == w;
    assert ([w] + cs)[1..] == cs;
  }

  /** `ShapeSeq` clears each child in place. */
  lemma {:induction false} ShapeSeqIndex(cs: seq<Widget>)
    ensures |ShapeSeq(cs)| == |cs|
    ensures forall i :: 0 <= i < |cs| ==> ShapeSeq(cs)[i] == Shape(cs[i])
    decreases cs
  {
    if |cs| > 0 {
      ShapeSeqIndex(cs[1..]);
    }
  }

  /** A node with the shape of a childless primitive is that primitive up to its
      slot and frame. */
  lemma ShapeOfLeaf(x: Widget, y: Widget)
    requires Shape(x) == Shape(y) && y.Primitive? && y.children == []
    ensures x.Primitive? && x.kind == y.kind && x.place == y.place && x.children == []
  {
    ShapeSeqIndex(x.children);
  }

  /** A childless primitive at the head of a list contributes exactly itself. */
  lemma LeafHead(cs: seq<Widget>)
    requires |cs| > 0 && cs[0].Primitive? && cs[0].children == []
    ensures KindsSeq(cs) == [cs[0].kind] + KindsSeq(cs[1..])
    ensures SlotsSeq(cs) == [cs[0].index] + SlotsSeq(cs[1..])
  {
    assert Kinds(cs[0]) == [cs[0].kind] + KindsSeq([]);
    assert Slots(cs[0]) == [cs[0].index] + SlotsSeq([]);
  }

  /** The drawn nodes of three childless primitives are those three, in order. */
  lemma ThreeLeaves(cs: seq<Widget>)
    requires |cs| == 3
    requires forall i :: 0 <= i < 3 ==> cs[i].Primitive? && cs[i].children == []
    ensures KindsSeq(cs) == [cs[0].kind, cs[1].kind, cs[2].kind]
    ensures SlotsSeq(cs) == [cs[0].index, cs[1].index, cs[2].index]
  {
    LeafHead(cs);
    LeafHead(cs[1..]);
    LeafHead(cs[2..]);
    assert cs[1..][1..] == cs[2..];
    assert cs[2..][1..] == [];
  }

  lemma RangeConcat(start: nat, a: nat, b: nat)
    ensures Range(start, a) + Range(start + a, b) == Range(start, a + b)
  {
  }

  /** A dense run splits into two dense runs at any point. */
  lemma RangeSplit(s1: seq<Option<nat>>, s2: seq<Option<nat>>, start: nat)
    requires s1 + s2 == Range(start, |s1| + |s2|)
    ensures s1 == Range(start, |s1|)
    ensures s2 == Range(start + |s1|, |s2|)
  {
    forall k | 0 <= k < |s1|
      ensures s1[k] == Some(start + k)
    {
      assert s1[k] == (s1 + s2)[k];
    }
    forall k | 0 <= k < |s2|
      ensures s2[k] == Some(start + |s1| + k)
    {
      assert s2[k] == (s1 + s2)[|s1| + k];
    }
  }

  lemma {:induction false} TexturesOfConcat(k1: seq<Kind>, k2: seq<Kind>)
    ensures TexturesOf(k1 + k2) == TexturesOf(k1) + TexturesOf(k2)
    decreases |k1|
  {
    if |k1| > 0 {
      assert (k1 + k2)[0] == k1[0];
      assert (k1 + k2)[1..] == k1[1..] + k2;
      TexturesOfConcat(k1[1..], k2);
    } else {
      assert k1 + k2 == k2;
    }
  }

  lemma {:induction false} TallyConcat(c: PrimitiveCounter, k1: seq<Kind>, k2: seq<Kind>)
    ensures Tally(c, k1 + k2) == Tally(Tally(c, k1), k2)
    decreases |k1|
  {
    if |k1| > 0 {
      assert (k1 + k2)[0] == k1[0];
      assert (k1 + k2)[1..] == k1[1..] + k2;
      TallyConcat(Bump(c, k1[0]), k1[1..], k2);
    } else {
      assert k1 + k2 == k2;
    }
  }

  /** Tallying counts each primitive type separately: the count of type `t`
      grows by the number of kinds of that type and by nothing else. */
  lemma {:induction false} TallyCounts(c: PrimitiveCounter, ks: seq<Kind>, t: PrimitiveType)
    ensures CountOf(Tally(c, ks), t) == CountOf(c, t) + Occurrences(ks, t)
    decreases |ks|
  {
    if |ks| > 0 {
      TallyCounts(Bump(c, ks[0]), ks[1..], t);
    }
  }

  /** Sending two lists one after the other is sending their concatenation. */
  lemma {:induction false} InfoListConcat(k1: seq<Kind>, s1: seq<Option<nat>>, k2: seq<Kind>, s2: seq<Option<nat>>,
                                          u: Uniforms, c: PrimitiveCounter)
    requires |k1| == |s1| && |k2| == |s2|
    ensures InfoList(k1 + k2, s1 + s2, u, c) ==
      (var r := InfoList(k1, s1, u, c); if r.outcome.Err? then r else InfoList(k2, s2, r.uniforms, r.counter))
    decreases |k1|
  {
    if |k1| == 0 {
      assert k1 + k2 == k2;
      assert s1 + s2 == s2;
    } else {
      assert (k1 + k2)[0] == k1[0] && (s1 + s2)[0] == s1[0];
      assert (k1 + k2)[1..] == k1[1..] + k2;
      assert (s1 + s2)[1..] == s1[1..] + s2;
      var r := SendWidgetInfo(k1[0], s1[0], u, c);
      if r.outcome.Ok? {
        InfoListConcat(k1[1..], s1[1..], k2, s2, r.uniforms, r.counter);
      }
    }
  }

  /** The list walk succeeds exactly when every slot is present; then the counter
      has tallied every kind.  Otherwise it fails with `WidgetIndexMissing` at the
      first missing slot, having tallied only the kinds before it. */
  lemma {:induction false} InfoListSpec(ks: seq<Kind>, ss: seq<Option<nat>>, u: Uniforms, c: PrimitiveCounter)
    requires |ks| == |ss|
    ensures InfoList(ks, ss, u, c).outcome.Ok? <==> None !in ss
    ensures None !in ss ==> InfoList(ks, ss, u, c).counter == Tally(c, ks)
    ensures InfoList(ks, ss, u, c).outcome.Err? ==> InfoList(ks, ss, u, c).outcome == Err(WidgetIndexMissing)
    ensures forall k :: 0 <= k < |ss| && ss[k] == None && None !in ss[..k] ==>
      InfoList(ks, ss, u, c).counter == Tally(c, ks[..k])
    decreases |ks|
  {
    if |ks| > 0 {
      var r := SendWidgetInfo(ks[0], ss[0], u, c);
      if r.outcome.Ok? {
        InfoListSpec(ks[1..], ss[1..], r.uniforms, r.counter);
        assert ss == [ss[0]] + ss[1..];
        forall k | 0 <= k < |ss| && ss[k] == None && None !in ss[..k]
          ensures InfoList(ks, ss, u, c).counter == Tally(c, ks[..k])
        {
          assert k > 0;
          assert ss[1..][k - 1] == None;
          assert ss[1..][..k - 1] == ss[..k][1..];
          assert ks[..k][0] == ks[0] && ks[..k][1..] == ks[1..][..k - 1];
        }
      }
    }
  }

  // =====================================================================
  // traverse_and_push_all: the structural rebuild
  // =====================================================================

  datatype Pushed = Pushed(widget: Widget, gpu: Gpu, counter: PrimitiveCounter, outcome: Outcome)
  datatype PushedSeq = PushedSeq(children: seq<Widget>, gpu: Gpu, counter: PrimitiveCounter)

  /** `traverse_and_push_all`.  A primitive takes the next slot (`index = tbo.len()`),
      stores the frame it was handed, appends its transform and, when it has one,
      its texture, sends its info, and then rebuilds its children in the frame of
      its own transform.  A composite takes no slot: it only stores its frame and
      hands its transform to its children.

      The `?` after `send_widget_info` never fires here, because the index was set
      just before; and since no node can fail, neither can any child, so the walk
      always returns `Ok`. */
  function PushAll(w: Widget, vs: Mat, g: Gpu, c: PrimitiveCounter): (r: Pushed)
    ensures r.outcome == Ok
    ensures r.widget.place == w.place && r.widget.vecSpace == vs && SameVariant(w, r.widget)
    ensures |r.widget.children| == |w.children|
    decreases w
  {
    match w
    case Primitive(kind, p, _, _, cs) =>
      var w1 := Primitive(kind, p, vs, Some(|g.tbo|), cs);
      var m := TransformMatrix(w1);
      var textures := match GetTexture(w1) case Some(t) => g.textures + [t] case None => g.textures;
      var info := SendWidgetInfo(kind, w1.index, g.uniforms, c);
      var rest := PushAllSeq(cs, m, Gpu(g.tbo + [m], textures, info.uniforms), info.counter);
      Pushed(Primitive(kind, p, vs, Some(|g.tbo|), rest.children), rest.gpu, rest.counter, Ok)
    case Composite(p, _, pad, cs) =>
      var rest := PushAllSeq(cs, TransformMatrix(Composite(p, vs, pad, cs)), g, c);
      Pushed(Composite(p, vs, pad, rest.children), rest.gpu, rest.counter, Ok)
  }

  function PushAllSeq(cs: seq<Widget>, vs: Mat, g: Gpu, c: PrimitiveCounter): (r: PushedSeq)
    ensures |r.children| == |cs|
    ensures forall i :: 0 <= i < |cs| ==>
      r.children[i].place == cs[i].place && r.children[i].vecSpace == vs && SameVariant(cs[i], r.children[i])
    decreases cs
  {
    if |cs| == 0 then PushedSeq([], g, c)
    else
      var first := PushAll(cs[0], vs, g, c);
      var rest := PushAllSeq(cs[1..], vs, first.gpu, first.counter);
      PushedSeq([first.widget] + rest.children, rest.gpu, rest.counter)
  }

  /** Rebuild appends exactly the pre-order transforms of the drawn nodes to
      `tbo`, and the textures of the textured ones, in pre-order, to the texture
      list; nodes without a texture add nothing there. */
  lemma {:induction false} PushAllBuffers(w: Widget, vs: Mat, g: Gpu, c: PrimitiveCounter)
    ensures PushAll(w, vs, g, c).gpu.tbo == g.tbo + Flatten(w, vs)
    ensures PushAll(w, vs, g, c).gpu.textures == g.textures + TexturesOf(Kinds(w))
    decreases w, 1
  {
    match w
    case Primitive(_, _, _, _, _) =>
      PushAllPrimitiveBuffers(w, vs, g, c);
    case Composite(p, _, pad, cs) =>
      PushAllSeqBuffers(cs, TransformMatrix(Composite(p, vs, pad, cs)), g, c);
  }

  /** The drawn-node step of `PushAllBuffers`: the node's own transform and
      texture go first, then its children's. */
  lemma {:induction false} PushAllPrimitiveBuffers(w: Widget, vs: Mat, g: Gpu, c: PrimitiveCounter)
    requires w.Primitive?
    ensures PushAll(w, vs, g, c).gpu.tbo == g.tbo + Flatten(w, vs)
    ensures PushAll(w, vs, g, c).gpu.textures == g.textures + TexturesOf(Kinds(w))
    decreases w, 0
  {
    var Primitive(kind, p, _, _, cs) := w;
    var w1 := Primitive(kind, p, vs, Some(|g.tbo|), cs);
    var m := TransformMatrix(w1);
    var own := TexturesOf([kind]);
    var textures := match GetTexture(w1) case Some(t) => g.textures + [t] case None => g.textures;
    assert [kind][1..] == [];
    assert TexturesOf([kind][1..]) == [];
    assert own == if kind.Texture? && kind.texture.Some? then [kind.texture.value] else [];
    assert GetTexture(w1) == if kind.Texture? then kind.texture else None;
    assert textures == g.textures + own;
    var info := SendWidgetInfo(kind, w1.index, g.uniforms, c);
    var g1 := Gpu(g.tbo + [m], textures, info.uniforms);
    PushAllSeqBuffers(cs, m, g1, info.counter);
    var rest := PushAllSeq(cs, m, g1, info.counter);
    assert PushAll(w, vs, g, c).gpu == rest.gpu;
    assert Flatten(w, vs) == [m] + FlattenSeq(cs, m);
    TexturesOfConcat([kind], KindsSeq(cs));
    assert Kinds(w) == [kind] + KindsSeq(cs);
    AppendAssoc(g.tbo, [m], FlattenSeq(cs, m));
    AppendAssoc(g.textures, own, TexturesOf(KindsSeq(cs)));
  }

  lemma AppendAssoc<T>(a: seq<T>, b: seq<T>, c: seq<T>)
    ensures (a + b) + c == a + (b + c)
  {
  }

  lemma {:induction false} PushAllSeqBuffers(cs: seq<Widget>, vs: Mat, g: Gpu, c: PrimitiveCounter)
    ensures PushAllSeq(cs, vs, g, c).gpu.tbo == g.tbo + FlattenSeq(cs, vs)
    ensures PushAllSeq(cs, vs, g, c).gpu.textures == g.textures + TexturesOf(KindsSeq(cs))
    decreases cs
  {
    if |cs| > 0 {
      var first := PushAll(cs[0], vs, g, c);
      PushAllBuffers(cs[0], vs, g, c);
      PushAllSeqBuffers(cs[1..], vs, first.gpu, first.counter);
      TexturesOfConcat(Kinds(cs[0]), KindsSeq(cs[1..]));
    }
  }

  /** Rebuild numbers the drawn nodes densely in pre-order: from the length `L`
      of `tbo` before the call, the `N` drawn nodes get `L, L + 1, ..., L + N - 1`,
      so `tbo[index]` is the entry appended for that node. */
  lemma {:induction false} PushAllSlots(w: Widget, vs: Mat, g: Gpu, c: PrimitiveCounter)
    ensures Kinds(PushAll(w, vs, g, c).widget) == Kinds(w)
    ensures Slots(PushAll(w, vs, g, c).widget) == Range(|g.tbo|, |Kinds(w)|)
    ensures |PushAll(w, vs, g, c).gpu.tbo| == |g.tbo| + |Kinds(w)|
    decreases w, 1
  {
    match w
    case Primitive(_, _, _, _, _) =>
      PushAllPrimitiveSlots(w, vs, g, c);
    case Composite(p, _, pad, cs) =>
      PushAllSeqSlots(cs, TransformMatrix(Composite(p, vs, pad, cs)), g, c);
  }

  /** The drawn-node step of `PushAllSlots`: the node takes slot `|tbo|` and its
      children number on from the next one. */
  lemma {:induction false} PushAllPrimitiveSlots(w: Widget, vs: Mat, g: Gpu, c: PrimitiveCounter)
    requires w.Primitive?
    ensures Kinds(PushAll(w, vs, g, c).widget) == Kinds(w)
    ensures Slots(PushAll(w, vs, g, c).widget) == Range(|g.tbo|, |Kinds(w)|)
    ensures |PushAll(w, vs, g, c).gpu.tbo| == |g.tbo| + |Kinds(w)|
    decreases w, 0
  {
    var Primitive(kind, p, _, _, cs) := w;
    var w1 := Primitive(kind, p, vs, Some(|g.tbo|), cs);
    var m := TransformMatrix(w1);
    var textures := match GetTexture(w1) case Some(t) => g.textures + [t] case None => g.textures;
    var info := SendWidgetInfo(kind, w1.index, g.uniforms, c);
    var g1 := Gpu(g.tbo + [m], textures, info.uniforms);
    PushAllSeqSlots(cs, m, g1, info.counter);
    var rest := PushAllSeq(cs, m, g1, info.counter);
    var r := PushAll(w, vs, g, c);
    assert r.widget == Primitive(kind, p, vs, Some(|g.tbo|), rest.children) && r.gpu == rest.gpu;
    assert Kinds(r.widget) == [kind] + KindsSeq(rest.children);
    assert Slots(r.widget) == [Some(|g.tbo|)] + SlotsSeq(rest.children);
    assert Kinds(w) == [kind] + KindsSeq(cs);
    RangeCons(|g.tbo|, SlotsSeq(rest.children));
  }

  /** Two adjacent dense runs make one. */
  lemma RangeAppend(start: nat, a: seq<Option<nat>>, b: seq<Option<nat>>)
    requires a == Range(start, |a|) && b == Range(start + |a|, |b|)
    ensures a + b == Range(start, |a| + |b|)
  {
    RangeConcat(start, |a|, |b|);
  }

  /** A dense run preceded by the index just before it is a dense run. */
  lemma RangeCons(start: nat, t: seq<Option<nat>>)
    requires t == Range(start + 1, |t|)
    ensures [Some(start)] + t == Range(start, 1 + |t|)
  {
    RangeConcat(start, 1, |t|);
  }

  lemma {:induction false} PushAllSeqSlots(cs: seq<Widget>, vs: Mat, g: Gpu, c: PrimitiveCounter)
    ensures KindsSeq(PushAllSeq(cs, vs, g, c).children) == KindsSeq(cs)
    ensures SlotsSeq(PushAllSeq(cs, vs, g, c).children) == Range(|g.tbo|, |KindsSeq(cs)|)
    ensures |PushAllSeq(cs, vs, g, c).gpu.tbo| == |g.tbo| + |KindsSeq(cs)|
    decreases cs
  {
    if |cs| > 0 {
      var first := PushAll(cs[0], vs, g, c);
      PushAllSlots(cs[0], vs, g, c);
      PushAllSeqSlots(cs[1..], vs, first.gpu, first.counter);
      var rest := PushAllSeq(cs[1..], vs, first.gpu, first.counter);
      var n0, n1 := |Kinds(cs[0])|, |KindsSeq(cs[1..])|;
      assert PushAllSeq(cs, vs, g, c).children == [first.widget] + rest.children;
      assert PushAllSeq(cs, vs, g, c).gpu == rest.gpu;
      KindsSeqCons(first.widget, rest.children);
      assert KindsSeq(cs) == Kinds(cs[0]) + KindsSeq(cs[1..]) && |KindsSeq(cs)| == n0 + n1;
      assert |Slots(first.widget)| == n0 && |SlotsSeq(rest.children)| == n1;
      assert |first.gpu.tbo| == |g.tbo| + n0;
      RangeAppend(|g.tbo|, Slots(first.widget), SlotsSeq(rest.children));
    }
  }

  /** Rebuild changes nothing but indices and frames, and leaves every node in
      the frame its parent hands it. */
  lemma {:induction false} PushAllPlaces(w: Widget, vs: Mat, g: Gpu, c: PrimitiveCounter)
    ensures Shape(PushAll(w, vs, g, c).widget) == Shape(w)
    ensures Placed(PushAll(w, vs, g, c).widget, vs)
    decreases w
  {
    match w
    case Primitive(kind, p, _, _, cs) =>
      var w1 := Primitive(kind, p, vs, Some(|g.tbo|), cs);
      var m := TransformMatrix(w1);
      var textures := match GetTexture(w1) case Some(t) => g.textures + [t] case None => g.textures;
      var info := SendWidgetInfo(kind, w1.index, g.uniforms, c);
      PushAllSeqPlaces(cs, m, Gpu(g.tbo + [m], textures, info.uniforms), info.counter);
    case Composite(p, _, pad, cs) =>
      PushAllSeqPlaces(cs, TransformMatrix(Composite(p, vs, pad, cs)), g, c);
  }

  lemma {:induction false} PushAllSeqPlaces(cs: seq<Widget>, vs: Mat, g: Gpu, c: PrimitiveCounter)
    ensures ShapeSeq(PushAllSeq(cs, vs, g, c).children) == ShapeSeq(cs)
    ensures PlacedSeq(PushAllSeq(cs, vs, g, c).children, vs)
    decreases cs
  {
    if |cs| > 0 {
      var first := PushAll(cs[0], vs, g, c);
      PushAllPlaces(cs[0], vs, g, c);
      PushAllSeqPlaces(cs[1..], vs, first.gpu, first.counter);
      var rest := PushAllSeq(cs[1..], vs, first.gpu, first.counter);
      KindsSeqCons(first.widget, rest.children);
    }
  }

  /** The uniforms and counter a rebuild leaves are those of sending the info of
      every drawn node, in pre-order, with the slot the rebuild gave it. */
  lemma {:induction false} PushAllInfo(w: Widget, vs: Mat, g: Gpu, c: PrimitiveCounter)
    ensures var r := PushAll(w, vs, g, c);
      InfoList(Kinds(r.widget), Slots(r.widget), g.uniforms, c) == InfoResult(r.gpu.uniforms, r.counter, Ok)
    decreases w
  {
    PushAllSlots(w, vs, g, c);
    match w
    case Primitive(kind, p, _, _, cs) =>
      var w1 := Primitive(kind, p, vs, Some(|g.tbo|), cs);
      var m := TransformMatrix(w1);
      var textures := match GetTexture(w1) case Some(t) => g.textures + [t] case None => g.textures;
      var info := SendWidgetInfo(kind, w1.index, g.uniforms, c);
      var g1 := Gpu(g.tbo + [m], textures, info.uniforms);
      PushAllSeqInfo(cs, m, g1, info.counter);
      var rest := PushAllSeq(cs, m, g1, info.counter);
      assert ([kind] + KindsSeq(cs))[1..] == KindsSeq(cs);
      assert ([Some(|g.tbo|)] + SlotsSeq(rest.children))[1..] == SlotsSeq(rest.children);
    case Composite(p, _, pad, cs) =>
      PushAllSeqInfo(cs, TransformMatrix(Composite(p, vs, pad, cs)), g, c);
  }

  lemma {:induction false} PushAllSeqInfo(cs: seq<Widget>, vs: Mat, g: Gpu, c: PrimitiveCounter)
    ensures var r := PushAllSeq(cs, vs, g, c);
      InfoList(KindsSeq(r.children), SlotsSeq(r.children), g.uniforms, c) == InfoResult(r.gpu.uniforms, r.counter, Ok)
    decreases cs
  {
    if |cs| > 0 {
      var first := PushAll(cs[0], vs, g, c);
      PushAllInfo(cs[0], vs, g, c);
      PushAllSeqInfo(cs[1..], vs, first.gpu, first.counter);
      var rest := PushAllSeq(cs[1..], vs, first.gpu, first.counter);
      KindsSeqCons(first.widget, rest.children);
      PushAllSlots(cs[0], vs, g, c);
      PushAllSeqSlots(cs[1..], vs, first.gpu, first.counter);
      InfoListConcat(Kinds(first.widget), Slots(first.widget), KindsSeq(rest.children), SlotsSeq(rest.children), g.uniforms, c);
    }
  }

  // =====================================================================
  // traverse_and_send_info: the per-frame info refresh
  // =====================================================================

  /** `traverse_and_send_info`: send this node's info, then each child's, in
      order, stopping at the first error.  A composite's own `send_widget_info`
      is an `Ok` no-op that leaves the counter alone. */
  function SendInfo(w: Widget, u: Uniforms, c: PrimitiveCounter): (r: InfoResult)
    ensures w.Primitive? && w.index.None? ==> r == InfoResult(u, c, Err(WidgetIndexMissing))
    ensures r.outcome.Err? ==> r.outcome == Err(WidgetIndexMissing)
    decreases w
  {
    match w
    case Primitive(kind, _, _, index, cs) =>
      var own := SendWidgetInfo(kind, index, u, c);
      if own.outcome.Err? then own else SendInfoSeq(cs, own.uniforms, own.counter)
    case Composite(_, _, _, cs) =>
      SendInfoSeq(cs, u, c)
  }

  function SendInfoSeq(cs: seq<Widget>, u: Uniforms, c: PrimitiveCounter): (r: InfoResult)
    ensures |cs| == 0 ==> r == InfoResult(u, c, Ok)
    ensures r.outcome.Err? ==> r.outcome == Err(WidgetIndexMissing)
    decreases cs
  {
    if |cs| == 0 then InfoResult(u, c, Ok)
    else
      var first := SendInfo(cs[0], u, c);
      if first.outcome.Err? then first else SendInfoSeq(cs[1..], first.uniforms, first.counter)
  }

  /** The tree walk is the list walk over the pre-order (kind, slot) list: parent
      before children, children in stored order, stopping at the first error. */
  lemma {:induction false} SendInfoIsPreorder(w: Widget, u: Uniforms, c: PrimitiveCounter)
    ensures SendInfo(w, u, c) == InfoList(Kinds(w), Slots(w), u, c)
    decreases w
  {
    match w
    case Primitive(kind, _, _, index, cs) =>
      var own := SendWidgetInfo(kind, index, u, c);
      assert ([kind] + KindsSeq(cs))[1..] == KindsSeq(cs);
      assert ([index] + SlotsSeq(cs))[1..] == SlotsSeq(cs);
      if own.outcome.Ok? {
        SendInfoSeqIsPreorder(cs, own.uniforms, own.counter);
      }
    case Composite(_, _, _, cs) =>
      SendInfoSeqIsPreorder(cs, u, c);
  }

  lemma {:induction false} SendInfoSeqIsPreorder(cs: seq<Widget>, u: Uniforms, c: PrimitiveCounter)
    ensures SendInfoSeq(cs, u, c) == InfoList(KindsSeq(cs), SlotsSeq(cs), u, c)
    decreases cs
  {
    if |cs| > 0 {
      SendInfoIsPreorder(cs[0], u, c);
      var first := SendInfo(cs[0], u, c);
      if first.outcome.Ok? {
        SendInfoSeqIsPreorder(cs[1..], first.uniforms, first.counter);
      }
      InfoListConcat(Kinds(cs[0]), Slots(cs[0]), KindsSeq(cs[1..]), SlotsSeq(cs[1..]), u, c);
    }
  }

  /** The info refresh succeeds exactly when every drawn node has a slot, and
      then advances each per-type count by the number of drawn nodes of that
      type.  Otherwise it fails with `WidgetIndexMissing`, at the first drawn
      node without a slot, having counted only the nodes before it. */
  lemma SendInfoSpec(w: Widget, u: Uniforms, c: PrimitiveCounter)
    ensures SendInfo(w, u, c).outcome.Ok? <==> None !in Slots(w)
    ensures SendInfo(w, u, c).outcome.Err? ==> SendInfo(w, u, c).outcome == Err(WidgetIndexMissing)
    ensures None !in Slots(w) ==>
      forall t :: CountOf(SendInfo(w, u, c).counter, t) == CountOf(c, t) + Occurrences(Kinds(w), t)
    ensures forall k :: 0 <= k < |Slots(w)| && Slots(w)[k] == None && None !in Slots(w)[..k] ==>
      SendInfo(w, u, c).counter == Tally(c, Kinds(w)[..k])
  {
    SendInfoIsPreorder(w, u, c);
    InfoListSpec(Kinds(w), Slots(w), u, c);
    forall t {
      TallyCounts(c, Kinds(w), t);
    }
  }

  /** Right after a rebuild, the per-frame info refresh of the rebuilt tree
      succeeds and writes exactly the uniforms and counter the rebuild wrote. */
  lemma RebuildThenSendInfo(w: Widget, vs: Mat, g: Gpu, c: PrimitiveCounter)
    ensures var r := PushAll(w, vs, g, c);
      SendInfo(r.widget, g.uniforms, c) == InfoResult(r.gpu.uniforms, r.counter, Ok)
  {
    PushAllInfo(w, vs, g, c);
    SendInfoIsPreorder(PushAll(w, vs, g, c).widget, g.uniforms, c);
  }

  /** A tree that was never rebuilt has no slots, so the info refresh fails on it
      (as soon as it has one drawn node). */
  lemma UnbuiltTreeFailsInfo(w: Widget, u: Uniforms, c: PrimitiveCounter)
    requires |Slots(w)| > 0 && Slots(w)[0] == None
    ensures SendInfo(w, u, c).outcome == Err(WidgetIndexMissing)
    ensures SendInfo(w, u, c).counter == c
  {
    SendInfoSpec(w, u, c);
    assert Slots(w)[..0] == [];
  }

  // =====================================================================
  // traverse_and_set_transforms: the in-place geometry refresh
  // =====================================================================

  /** Every slot the transform refresh writes before it stops lies inside a buffer
      of length `n` (the source writes through an unchecked pointer). */
  predicate WritesFit(w: Widget, n: nat)
    decreases w
  {
    match w
    case Primitive(_, _, _, index, cs) => index.Some? ==> index.value < n && WritesFitSeq(cs, n)
    case Composite(_, _, _, cs) => WritesFitSeq(cs, n)
  }

  predicate WritesFitSeq(cs: seq<Widget>, n: nat)
    decreases cs
  {
    |cs| == 0 || (WritesFit(cs[0], n) && (None !in Slots(cs[0]) ==> WritesFitSeq(cs[1..], n)))
  }

  datatype Refreshed = Refreshed(widget: Widget, tbo: seq<Mat>, outcome: Outcome)
  datatype RefreshedSeq = RefreshedSeq(children: seq<Widget>, tbo: seq<Mat>, outcome: Outcome)

  /** `traverse_and_set_transforms`: store the frame handed down, overwrite the
      node's own slot with its transform, then refresh the children in the frame
      of that transform.  A primitive without a slot stops the walk with
      `WidgetIndexMissing`, after its frame was stored.  A composite only passes
      its transform on and adds no error of its own.

      The buffer never changes length, and only the slots of drawn nodes change. */
  function SetTransforms(w: Widget, vs: Mat, tbo: seq<Mat>): (r: Refreshed)
    requires WritesFit(w, |tbo|)
    ensures |r.tbo| == |tbo|
    ensures r.outcome.Ok? <==> None !in Slots(w)
    ensures r.outcome.Err? ==> r.outcome == Err(WidgetIndexMissing)
    ensures r.widget.vecSpace == vs
    ensures Slots(r.widget) == Slots(w) && Kinds(r.widget) == Kinds(w)
    decreases w
  {
    match w
    case Primitive(kind, p, _, index, cs) =>
      var w1 := Primitive(kind, p, vs, index, cs);
      var m := TransformMatrix(w1);
      if index.None? then Refreshed(w1, tbo, Err(WidgetIndexMissing))
      else
        var rest := SetTransformsSeq(cs, m, tbo[index.value := m]);
        Refreshed(Primitive(kind, p, vs, index, rest.children), rest.tbo, rest.outcome)
    case Composite(p, _, pad, cs) =>
      var rest := SetTransformsSeq(cs, TransformMatrix(Composite(p, vs, pad, cs)), tbo);
      Refreshed(Composite(p, vs, pad, rest.children), rest.tbo, rest.outcome)
  }

  function SetTransformsSeq(cs: seq<Widget>, vs: Mat, tbo: seq<Mat>): (r: RefreshedSeq)
    requires WritesFitSeq(cs, |tbo|)
    ensures |r.tbo| == |tbo|
    ensures r.outcome.Ok? <==> None !in SlotsSeq(cs)
    ensures r.outcome.Err? ==> r.outcome == Err(WidgetIndexMissing)
    ensures SlotsSeq(r.children) == SlotsSeq(cs) && KindsSeq(r.children) == KindsSeq(cs)
    decreases cs
  {
    if |cs| == 0 then RefreshedSeq([], tbo, Ok)
    else
      var first := SetTransforms(cs[0], vs, tbo);
      KindsSeqCons(first.widget, cs[1..]);
      if first.outcome.Err? then RefreshedSeq([first.widget] + cs[1..], first.tbo, first.outcome)
      else
        var rest := SetTransformsSeq(cs[1..], vs, first.tbo);
        KindsSeqCons(first.widget, rest.children);
        RefreshedSeq([first.widget] + rest.children, rest.tbo, rest.outcome)
  }

  /** The refresh writes only the slots the tree names: every other frame of
      `tbo` is kept. */
  lemma {:induction false} SetTransformsFrame(w: Widget, vs: Mat, tbo: seq<Mat>, j: nat)
    requires WritesFit(w, |tbo|)
    requires j < |tbo| && Some(j) !in Slots(w)
    ensures SetTransforms(w, vs, tbo).tbo[j] == tbo[j]
    decreases w
  {
    match w
    case Primitive(kind, p, _, index, cs) =>
      if index.Some? {
        assert Slots(w) == [index] + SlotsSeq(cs);
        var m := TransformMatrix(Primitive(kind, p, vs, index, cs));
        SetTransformsSeqFrame(cs, m, tbo[index.value := m], j);
      }
    case Composite(p, _, pad, cs) =>
      SetTransformsSeqFrame(cs, TransformMatrix(Composite(p, vs, pad, cs)), tbo, j);
  }

  lemma {:induction false} SetTransformsSeqFrame(cs: seq<Widget>, vs: Mat, tbo: seq<Mat>, j: nat)
    requires WritesFitSeq(cs, |tbo|)
    requires j < |tbo| && Some(j) !in SlotsSeq(cs)
    ensures SetTransformsSeq(cs, vs, tbo).tbo[j] == tbo[j]
    decreases cs
  {
    if |cs| > 0 {
      assert SlotsSeq(cs) == Slots(cs[0]) + SlotsSeq(cs[1..]);
      SetTransformsFrame(cs[0], vs, tbo, j);
      var first := SetTransforms(cs[0], vs, tbo);
      if first.outcome.Ok? {
        SetTransformsSeqFrame(cs[1..], vs, first.tbo, j);
      }
    }
  }

  /** A tree numbered densely from `L` writes only inside a buffer that holds
      the whole block. */
  lemma {:induction false} DenseWritesFit(w: Widget, L: nat, n: nat)
    requires Slots(w) == Range(L, |Slots(w)|)
    requires L + |Slots(w)| <= n
    ensures WritesFit(w, n)
    decreases w
  {
    match w
    case Primitive(_, _, _, index, cs) =>
      RangeSplit([index], SlotsSeq(cs), L);
      assert index == [index][0] == Some(L);
      DenseSeqWritesFit(cs, L + 1, n);
    case Composite(_, _, _, cs) =>
      DenseSeqWritesFit(cs, L, n);
  }

  lemma {:induction false} DenseSeqWritesFit(cs: seq<Widget>, L: nat, n: nat)
    requires SlotsSeq(cs) == Range(L, |SlotsSeq(cs)|)
    requires L + |SlotsSeq(cs)| <= n
    ensures WritesFitSeq(cs, n)
    decreases cs
  {
    if |cs| > 0 {
      RangeSplit(Slots(cs[0]), SlotsSeq(cs[1..]), L);
      DenseWritesFit(cs[0], L, n);
      DenseSeqWritesFit(cs[1..], L + |Slots(cs[0])|, n);
    }
  }

  /** On a tree whose drawn nodes hold the dense slots `L, ..., L + N - 1` in
      pre-order (as a rebuild leaves them), the transform refresh succeeds and
      rewrites exactly that block of `tbo` with the pre-order transforms of the
      tree in the frame `vs`; everything before and after the block is kept. */
  lemma SetTransformsRewritesBlock(w: Widget, vs: Mat, tbo: seq<Mat>, L: nat)
    requires Slots(w) == Range(L, |Slots(w)|)
    requires L + |Slots(w)| <= |tbo|
    ensures WritesFit(w, |tbo|)
    ensures SetTransforms(w, vs, tbo).outcome == Ok
    ensures SetTransforms(w, vs, tbo).tbo == tbo[..L] + Flatten(w, vs) + tbo[L + |Slots(w)|..]
  {
    var f := Flatten(w, vs);
    assert |f| == |Slots(w)|;
    DenseWritesFit(w, L, |tbo|);
    SetTransformsWrites(w, vs, tbo);
    WriteAllRange(f, tbo, L);
    RangeHasNoGap(L, |Slots(w)|);
  }

  /** A dense run names a slot at every position. */
  lemma RangeHasNoGap(start: nat, n: nat)
    ensures None !in Range(start, n)
  {
    var r := Range(start, n);
    assert forall k :: 0 <= k < n ==> r[k].Some?;
  }

  /** Writing a list at the dense slots `L, L + 1, ...` is splicing it in at `L`. */
  lemma {:induction false} WriteAllRange(fs: seq<Mat>, tbo: seq<Mat>, L: nat)
    requires L + |fs| <= |tbo|
    ensures ListFits(Range(L, |fs|), |tbo|)
    ensures WriteAll(Range(L, |fs|), fs, tbo) == tbo[..L] + fs + tbo[L + |fs|..]
    decreases |fs|
  {
    var ss := Range(L, |fs|);
    if |fs| == 0 {
      assert tbo[..L] + fs + tbo[L..] == tbo;
    } else {
      assert ss[0] == Some(L) && ss[1..] == Range(L + 1, |fs| - 1);
      WriteAllRange(fs[1..], tbo[L := fs[0]], L + 1);
      SpliceAfterUpdate(tbo, L, fs[0], fs[1..]);
      assert [fs[0]] + fs[1..] == fs;
    }
  }

  /** Storing `m` at `L` and then rewriting the block right after `L` with `f`
      rewrites the block starting at `L` with `[m] + f`. */
  lemma SpliceAfterUpdate<T>(a: seq<T>, L: nat, m: T, f: seq<T>)
    requires L + 1 + |f| <= |a|
    ensures var t1 := a[L := m];
      t1[..L + 1] + f + t1[L + 1 + |f|..] == a[..L] + ([m] + f) + a[L + 1 + |f|..]
  {
    var t1 := a[L := m];
    assert t1[..L + 1] == a[..L] + [m];
    assert t1[L + 1 + |f|..] == a[L + 1 + |f|..];
  }

  /** The refresh only stores frames: the tree keeps its shape, and when the
      refresh succeeds every node holds the frame its parent hands it. */
  lemma {:induction false} SetTransformsPlaces(w: Widget, vs: Mat, tbo: seq<Mat>)
    requires WritesFit(w, |tbo|)
    ensures Shape(SetTransforms(w, vs, tbo).widget) == Shape(w)
    ensures SetTransforms(w, vs, tbo).outcome.Ok? ==> Placed(SetTransforms(w, vs, tbo).widget, vs)
    decreases w
  {
    match w
    case Primitive(kind, p, _, index, cs) =>
      if index.Some? {
        var m := TransformMatrix(Primitive(kind, p, vs, index, cs));
        SetTransformsSeqPlaces(cs, m, tbo[index.value := m]);
      }
    case Composite(p, _, pad, cs) =>
      SetTransformsSeqPlaces(cs, TransformMatrix(Composite(p, vs, pad, cs)), tbo);
  }

  lemma {:induction false} SetTransformsSeqPlaces(cs: seq<Widget>, vs: Mat, tbo: seq<Mat>)
    requires WritesFitSeq(cs, |tbo|)
    ensures ShapeSeq(SetTransformsSeq(cs, vs, tbo).children) == ShapeSeq(cs)
    ensures SetTransformsSeq(cs, vs, tbo).outcome.Ok? ==> PlacedSeq(SetTransformsSeq(cs, vs, tbo).children, vs)
    decreases cs
  {
    if |cs| > 0 {
      SetTransformsPlaces(cs[0], vs, tbo);
      var first := SetTransforms(cs[0], vs, tbo);
      if first.outcome.Err? {
        KindsSeqCons(first.widget, cs[1..]);
        KindsSeqCons(cs[0], cs[1..]);
        assert cs == [cs[0]] + cs[1..];
      } else {
        SetTransformsSeqPlaces(cs[1..], vs, first.tbo);
        var rest := SetTransformsSeq(cs[1..], vs, first.tbo);
        KindsSeqCons(first.widget, rest.children);
        KindsSeqCons(cs[0], cs[1..]);
        assert cs == [cs[0]] + cs[1..];
      }
    }
  }

  // ----- the refresh as a pre-order list walk, stopping or not -----

  /** How many drawn nodes a walk that stops at the first missing slot visits:
      every one, or those up to and including the first without a slot. */
  function Visited(ss: seq<Option<nat>>): (v: nat)
    ensures v <= |ss|
  {
    if |ss| == 0 then 0 else if ss[0].None? then 1 else 1 + Visited(ss[1..])
  }

  /** Every slot before the first missing one lies inside a buffer of length `n`. */
  predicate ListFits(ss: seq<Option<nat>>, n: nat)
  {
    |ss| == 0 || ss[0].None? || (ss[0].value < n && ListFits(ss[1..], n))
  }

  /** Writing the transforms `fs` at the slots `ss` in turn, up to the first
      missing slot. */
  function WriteAll(ss: seq<Option<nat>>, fs: seq<Mat>, tbo: seq<Mat>): (r: seq<Mat>)
    requires |ss| == |fs| && ListFits(ss, |tbo|)
    ensures |r| == |tbo|
  {
    if |ss| == 0 || ss[0].None? then tbo else WriteAll(ss[1..], fs[1..], tbo[ss[0].value := fs[0]])
  }

  /** The frames the drawn nodes are handed when the tree is placed in `vs`,
      in pre-order. */
  function Frames(w: Widget, vs: Mat): (f: seq<Mat>)
    ensures |f| == |Kinds(w)|
    decreases w
  {
    var m := Mul(vs, LocalMatrix(w.place));
    match w
    case Primitive(_, _, _, _, cs) => [vs] + FramesSeq(cs, m)
    case Composite(_, _, _, cs) => FramesSeq(cs, m)
  }

  function FramesSeq(cs: seq<Widget>, vs: Mat): (f: seq<Mat>)
    ensures |f| == |KindsSeq(cs)|
    decreases cs
  {
    if |cs| == 0 then [] else Frames(cs[0], vs) + FramesSeq(cs[1..], vs)
  }

  /** The frames the drawn nodes currently hold, in pre-order. */
  function VecSpaces(w: Widget): (f: seq<Mat>)
    ensures |f| == |Kinds(w)|
    decreases w
  {
    match w
    case Primitive(_, _, vs, _, cs) => [vs] + VecSpacesSeq(cs)
    case Composite(_, _, _, cs) => VecSpacesSeq(cs)
  }

  function VecSpacesSeq(cs: seq<Widget>): (f: seq<Mat>)
    ensures |f| == |KindsSeq(cs)|
    decreases cs
  {
    if |cs| == 0 then [] else VecSpaces(cs[0]) + VecSpacesSeq(cs[1..])
  }

  /** The walk visits every node of a list without a gap, and otherwise stops
      on the first gap. */
  lemma {:induction false} VisitedStops(ss: seq<Option<nat>>)
    ensures None !in ss ==> Visited(ss) == |ss|
    ensures None in ss ==> 0 < Visited(ss) && ss[Visited(ss) - 1] == None && None !in ss[..Visited(ss) - 1]
  {
    if |ss| > 0 && ss[0].Some? {
      VisitedStops(ss[1..]);
      assert ss == [ss[0]] + ss[1..];
      if None in ss {
        assert ss[..Visited(ss) - 1] == [ss[0]] + ss[1..][..Visited(ss[1..]) - 1];
      }
    }
  }

  lemma {:induction false} VisitedConcat(a: seq<Option<nat>>, b: seq<Option<nat>>)
    ensures Visited(a + b) == if None in a then Visited(a) else |a| + Visited(b)
  {
    if |a| == 0 {
      assert a + b == b;
    } else {
      assert (a + b)[0] == a[0] && (a + b)[1..] == a[1..] + b;
      if a[0].Some? {
        VisitedConcat(a[1..], b);
        assert a == [a[0]] + a[1..];
      }
    }
  }

  lemma {:induction false} ListFitsConcat(a: seq<Option<nat>>, b: seq<Option<nat>>, n: nat)
    ensures ListFits(a + b, n) <==> ListFits(a, n) && (None !in a ==> ListFits(b, n))
  {
    if |a| == 0 {
      assert a + b == b;
    } else {
      assert (a + b)[0] == a[0] && (a + b)[1..] == a[1..] + b;
      if a[0].Some? {
        ListFitsConcat(a[1..], b, n);
        assert a == [a[0]] + a[1..];
      }
    }
  }

  /** Walking two lists in turn, stopping at the first gap, is walking their
      concatenation. */
  lemma {:induction false} WriteAllConcat(s1: seq<Option<nat>>, f1: seq<Mat>, s2: seq<Option<nat>>, f2: seq<Mat>, tbo: seq<Mat>)
    requires |s1| == |f1| && |s2| == |f2|
    requires ListFits(s1, |tbo|) && (None !in s1 ==> ListFits(s2, |tbo|))
    ensures ListFits(s1 + s2, |tbo|)
    ensures None in s1 ==> WriteAll(s1 + s2, f1 + f2, tbo) == WriteAll(s1, f1, tbo)
    ensures None !in s1 ==> WriteAll(s1 + s2, f1 + f2, tbo) == WriteAll(s2, f2, WriteAll(s1, f1, tbo))
  {
    ListFitsConcat(s1, s2, |tbo|);
    if |s1| == 0 {
      assert s1 + s2 == s2 && f1 + f2 == f2;
    } else {
      assert (s1 + s2)[0] == s1[0] && (s1 + s2)[1..] == s1[1..] + s2;
      assert (f1 + f2)[0] == f1[0] && (f1 + f2)[1..] == f1[1..] + f2;
      if s1[0].Some? {
        assert s1 == [s1[0]] + s1[1..];
        WriteAllConcat(s1[1..], f1[1..], s2, f2, tbo[s1[0].value := f1[0]]);
      }
    }
  }

  /** The list walk writes only the slots it visits. */
  lemma {:induction false} WriteAllKeeps(ss: seq<Option<nat>>, fs: seq<Mat>, tbo: seq<Mat>, j: nat)
    requires |ss| == |fs| && ListFits(ss, |tbo|)
    requires j < |tbo| && Some(j) !in ss[..Visited(ss)]
    ensures WriteAll(ss, fs, tbo)[j] == tbo[j]
  {
    if |ss| > 0 && ss[0].Some? {
      assert ss[..Visited(ss)] == [ss[0]] + ss[1..][..Visited(ss[1..])];
      WriteAllKeeps(ss[1..], fs[1..], tbo[ss[0].value := fs[0]], j);
    }
  }

  /** A visited slot that no later visited node names keeps what its node wrote. */
  lemma {:induction false} WriteAllLast(ss: seq<Option<nat>>, fs: seq<Mat>, tbo: seq<Mat>, q: nat)
    requires |ss| == |fs| && ListFits(ss, |tbo|)
    requires q < Visited(ss) && ss[q].Some? && ss[q] !in ss[q + 1..Visited(ss)]
    ensures ss[q].value < |tbo|
    ensures WriteAll(ss, fs, tbo)[ss[q].value] == fs[q]
  {
    var t1 := tbo[ss[0].value := fs[0]];
    if q == 0 {
      assert ss[1..][..Visited(ss[1..])] == ss[1..Visited(ss)];
      WriteAllKeeps(ss[1..], fs[1..], t1, ss[0].value);
    } else {
      assert ss[1..][q..Visited(ss[1..])] == ss[q + 1..Visited(ss)];
      WriteAllLast(ss[1..], fs[1..], t1, q - 1);
    }
  }

  /** The transform refresh of a tree is the list walk of its slots and its
      pre-order transforms, whether it stops early or not. */
  lemma {:induction false} SetTransformsWrites(w: Widget, vs: Mat, tbo: seq<Mat>)
    requires WritesFit(w, |tbo|)
    ensures ListFits(Slots(w), |tbo|)
    ensures SetTransforms(w, vs, tbo).tbo == WriteAll(Slots(w), Flatten(w, vs), tbo)
    decreases w
  {
    match w
    case Primitive(kind, p, _, index, cs) =>
      var m := TransformMatrix(Primitive(kind, p, vs, index, cs));
      assert Slots(w) == [index] + SlotsSeq(cs) && Flatten(w, vs) == [m] + FlattenSeq(cs, m);
      if index.Some? {
        SetTransformsSeqWrites(cs, m, tbo[index.value := m]);
        assert Slots(w)[1..] == SlotsSeq(cs) && Flatten(w, vs)[1..] == FlattenSeq(cs, m);
      }
    case Composite(p, _, pad, cs) =>
      SetTransformsSeqWrites(cs, TransformMatrix(Composite(p, vs, pad, cs)), tbo);
  }

  lemma {:induction false} SetTransformsSeqWrites(cs: seq<Widget>, vs: Mat, tbo: seq<Mat>)
    requires WritesFitSeq(cs, |tbo|)
    ensures ListFits(SlotsSeq(cs), |tbo|)
    ensures SetTransformsSeq(cs, vs, tbo).tbo == WriteAll(SlotsSeq(cs), FlattenSeq(cs, vs), tbo)
    decreases cs
  {
    if |cs| > 0 {
      SetTransformsWrites(cs[0], vs, tbo);
      var first := SetTransforms(cs[0], vs, tbo);
      if first.outcome.Ok? {
        SetTransformsSeqWrites(cs[1..], vs, first.tbo);
      }
      WriteAllConcat(Slots(cs[0]), Flatten(cs[0], vs), SlotsSeq(cs[1..]), FlattenSeq(cs[1..], vs), tbo);
    }
  }

  /** Cutting two aligned concatenations at one point: inside their first
      parts, or inside their second parts. */
  lemma Cut<T>(a: seq<T>, b: seq<T>, c: seq<T>, d: seq<T>, v: nat)
    requires |a| == |c| && |b| == |d| && v <= |a| + |b|
    ensures v <= |a| ==> (a + b)[..v] + (c + d)[v..] == (a[..v] + c[v..]) + d
    ensures |a| <= v ==> (a + b)[..v] + (c + d)[v..] == a + (b[..v - |a|] + d[v - |a|..])
  {
    if v <= |a| {
      assert (a + b)[..v] == a[..v];
      assert (c + d)[v..] == c[v..] + d;
    } else {
      assert (a + b)[..v] == a + b[..v - |a|];
      assert (c + d)[v..] == d[v - |a|..];
    }
  }

  lemma VecSpacesSeqCons(w: Widget, cs: seq<Widget>)
    ensures VecSpacesSeq([w] + cs) == VecSpaces(w) + VecSpacesSeq(cs)
  {
    assert ([w] + cs)[0] == w;
    assert ([w] + cs)[1..] == cs;
  }

  /** The refresh stores the frame it hands each drawn node it visits, the
      node it stops at included, and leaves the frames of the nodes after it. */
  lemma {:induction false} SetTransformsStores(w: Widget, vs: Mat, tbo: seq<Mat>)
    requires WritesFit(w, |tbo|)
    ensures var v := Visited(Slots(w));
      VecSpaces(SetTransforms(w, vs, tbo).widget) == Frames(w, vs)[..v] + VecSpaces(w)[v..]
    decreases w, 2
  {
    match w
    case Primitive(kind, p, _, index, cs) =>
      var m := TransformMatrix(Primitive(kind, p, vs, index, cs));
      assert Slots(w) == [index] + SlotsSeq(cs) && Slots(w)[1..] == SlotsSeq(cs);
      if index.Some? {
        SetTransformsSeqStores(cs, m, tbo[index.value := m]);
        Cut([vs], FramesSeq(cs, m), [w.vecSpace], VecSpacesSeq(cs), 1 + Visited(SlotsSeq(cs)));
      }
    case Composite(p, _, pad, cs) =>
      SetTransformsSeqStores(cs, TransformMatrix(Composite(p, vs, pad, cs)), tbo);
  }

  lemma {:induction false} SetTransformsSeqStores(cs: seq<Widget>, vs: Mat, tbo: seq<Mat>)
    requires WritesFitSeq(cs, |tbo|)
    ensures var v := Visited(SlotsSeq(cs));
      VecSpacesSeq(SetTransformsSeq(cs, vs, tbo).children) == FramesSeq(cs, vs)[..v] + VecSpacesSeq(cs)[v..]
    decreases cs, 1
  {
    if |cs| > 0 {
      var first := SetTransforms(cs[0], vs, tbo);
      if first.outcome.Err? {
        SetTransformsSeqStoresStop(cs, vs, tbo);
      } else {
        SetTransformsSeqStoresOn(cs, vs, tbo);
      }
    }
  }

  /** The list step when the first sibling stops the walk. */
  lemma {:induction false} SetTransformsSeqStoresStop(cs: seq<Widget>, vs: Mat, tbo: seq<Mat>)
    requires |cs| > 0 && WritesFitSeq(cs, |tbo|)
    requires SetTransforms(cs[0], vs, tbo).outcome.Err?
    ensures var v := Visited(SlotsSeq(cs));
      VecSpacesSeq(SetTransformsSeq(cs, vs, tbo).children) == FramesSeq(cs, vs)[..v] + VecSpacesSeq(cs)[v..]
    decreases cs, 0
  {
    var first := SetTransforms(cs[0], vs, tbo);
    var s0 := Slots(cs[0]);
    assert SlotsSeq(cs) == s0 + SlotsSeq(cs[1..]);
    VisitedConcat(s0, SlotsSeq(cs[1..]));
    SetTransformsStores(cs[0], vs, tbo);
    assert SetTransformsSeq(cs, vs, tbo).children == [first.widget] + cs[1..];
    VecSpacesSeqCons(first.widget, cs[1..]);
    Cut(Frames(cs[0], vs), FramesSeq(cs[1..], vs), VecSpaces(cs[0]), VecSpacesSeq(cs[1..]), Visited(s0));
  }

  /** The list step when the first sibling is refreshed in full. */
  lemma {:induction false} SetTransformsSeqStoresOn(cs: seq<Widget>, vs: Mat, tbo: seq<Mat>)
    requires |cs| > 0 && WritesFitSeq(cs, |tbo|)
    requires SetTransforms(cs[0], vs, tbo).outcome.Ok?
    ensures var v := Visited(SlotsSeq(cs));
      VecSpacesSeq(SetTransformsSeq(cs, vs, tbo).children) == FramesSeq(cs, vs)[..v] + VecSpacesSeq(cs)[v..]
    decreases cs, 0
  {
    var first := SetTransforms(cs[0], vs, tbo);
    var rest := SetTransformsSeq(cs[1..], vs, first.tbo);
    var s0, f0 := Slots(cs[0]), Frames(cs[0], vs);
    var V1, F1, W1 := Visited(SlotsSeq(cs[1..])), FramesSeq(cs[1..], vs), VecSpacesSeq(cs[1..]);
    assert SlotsSeq(cs) == s0 + SlotsSeq(cs[1..]);
    assert None !in s0;
    VisitedConcat(s0, SlotsSeq(cs[1..]));
    assert Visited(SlotsSeq(cs)) == |s0| + V1;
    assert FramesSeq(cs, vs) == f0 + F1 && VecSpacesSeq(cs) == VecSpaces(cs[0]) + W1;
    SetTransformsStoresAll(cs[0], vs, tbo);
    SetTransformsSeqStores(cs[1..], vs, first.tbo);
    SetTransformsSeqUnfold(cs, vs, tbo);
    VecSpacesSeqCons(first.widget, rest.children);
    assert VecSpacesSeq(SetTransformsSeq(cs, vs, tbo).children) == f0 + (F1[..V1] + W1[V1..]);
    MergeCons(VecSpacesSeq(SetTransformsSeq(cs, vs, tbo).children), FramesSeq(cs, vs), VecSpacesSeq(cs),
      Visited(SlotsSeq(cs)), f0, F1, VecSpaces(cs[0]), W1, V1);
  }

  /** A first part taken whole, followed by a second part cut at `v1`, is the
      whole concatenation cut at the first part's length plus `v1`. */
  lemma MergeCons<T>(x: seq<T>, fs: seq<T>, ws: seq<T>, v: nat, f0: seq<T>, f1: seq<T>, w0: seq<T>, w1: seq<T>, v1: nat)
    requires fs == f0 + f1 && ws == w0 + w1 && v == |f0| + v1
    requires |f0| == |w0| && |f1| == |w1| && v1 <= |f1|
    requires x == f0 + (f1[..v1] + w1[v1..])
    ensures x == fs[..v] + ws[v..]
  {
    assert fs[..v] == f0 + f1[..v1];
    assert ws[v..] == w1[v1..];
  }

  /** The list refresh, one sibling at a time. */
  lemma SetTransformsSeqUnfold(cs: seq<Widget>, vs: Mat, tbo: seq<Mat>)
    requires |cs| > 0 && WritesFitSeq(cs, |tbo|)
    ensures var first := SetTransforms(cs[0], vs, tbo);
      first.outcome.Err? ==> SetTransformsSeq(cs, vs, tbo).children == [first.widget] + cs[1..]
    ensures var first := SetTransforms(cs[0], vs, tbo);
      first.outcome.Ok? ==> SetTransformsSeq(cs, vs, tbo).children == [first.widget] + SetTransformsSeq(cs[1..], vs, first.tbo).children
  {
  }

  /** A refresh that does not stop stores every frame it hands down. */
  lemma SetTransformsStoresAll(w: Widget, vs: Mat, tbo: seq<Mat>)
    requires WritesFit(w, |tbo|) && None !in Slots(w)
    ensures VecSpaces(SetTransforms(w, vs, tbo).widget) == Frames(w, vs)
    decreases w, 3
  {
    SetTransformsStores(w, vs, tbo);
    VisitedStops(Slots(w));
    var f, v := Frames(w, vs), VecSpaces(w);
    assert f[..|f|] == f && v[|v|..] == [];
  }

  /** Where the refresh stops on a tree with a missing slot: at the first
      drawn node without one. */
  function StopAt(w: Widget): (p: nat)
    requires None in Slots(w)
    ensures p < |Slots(w)| && Slots(w)[p] == None && None !in Slots(w)[..p]
  {
    VisitedStops(Slots(w));
    Visited(Slots(w)) - 1
  }

  /** On a list with a gap, a slot no entry before the gap names is kept. */
  lemma WriteAllStopKeeps(ss: seq<Option<nat>>, fs: seq<Mat>, tbo: seq<Mat>, j: nat)
    requires |ss| == |fs| && ListFits(ss, |tbo|) && None in ss
    requires j < |tbo| && Some(j) !in ss[..Visited(ss) - 1]
    ensures WriteAll(ss, fs, tbo)[j] == tbo[j]
  {
    VisitedStops(ss);
    assert ss[..Visited(ss)] == ss[..Visited(ss) - 1] + [None];
    WriteAllKeeps(ss, fs, tbo, j);
  }

  /** On a list with a gap, an entry before the gap that no later one before
      the gap overwrites leaves its transform. */
  lemma {:induction false} WriteAllStopWrote(ss: seq<Option<nat>>, fs: seq<Mat>, tbo: seq<Mat>, q: nat)
    requires |ss| == |fs| && ListFits(ss, |tbo|) && None in ss
    requires q < Visited(ss) - 1 && ss[q] !in ss[q + 1..Visited(ss) - 1]
    ensures ss[q].Some? && ss[q].value < |tbo| && WriteAll(ss, fs, tbo)[ss[q].value] == fs[q]
  {
    VisitedStops(ss);
    var p := Visited(ss) - 1;
    assert ss[q] != None by {
      assert ss[q] == ss[..p][q];
    }
    NotInExtend(ss, ss[q], q + 1, p);
    WriteAllLast(ss, fs, tbo, q);
  }

  /** A value missing from a slice and different from the next element is
      missing from the slice extended by that element. */
  lemma NotInExtend<T>(s: seq<T>, x: T, a: nat, b: nat)
    requires a <= b < |s| && x !in s[a..b] && x != s[b]
    ensures x !in s[a..b + 1]
  {
    assert s[a..b + 1] == s[a..b] + [s[b]];
  }

  /** A slot no node before the stop names keeps its old transform. */
  lemma {:induction false} StopKeeps(w: Widget, vs: Mat, tbo: seq<Mat>, j: nat)
    requires WritesFit(w, |tbo|) && None in Slots(w)
    requires j < |tbo| && Some(j) !in Slots(w)[..StopAt(w)]
    ensures SetTransforms(w, vs, tbo).tbo[j] == tbo[j]
  {
    SetTransformsWrites(w, vs, tbo);
    WriteAllStopKeeps(Slots(w), Flatten(w, vs), tbo, j);
  }

  /** A node before the stop whose slot no later one overwrites leaves its
      transform there. */
  lemma {:induction false} StopWrote(w: Widget, vs: Mat, tbo: seq<Mat>, q: nat)
    requires WritesFit(w, |tbo|) && None in Slots(w)
    requires q < StopAt(w) && Slots(w)[q] !in Slots(w)[q + 1..StopAt(w)]
    ensures Slots(w)[q].value < |tbo| && SetTransforms(w, vs, tbo).tbo[Slots(w)[q].value] == Flatten(w, vs)[q]
  {
    var ss, fs := Slots(w), Flatten(w, vs);
    assert StopAt(w) == Visited(ss) - 1;
    SetTransformsWrites(w, vs, tbo);
    WriteAllStopWrote(ss, fs, tbo, q);
  }

  /** When a drawn node has no slot, the refresh stops there with
      `WidgetIndexMissing`: every node before it has written its transform
      (where no later one overwrote it), and no slot named only after it
      changes. */
  lemma {:induction false} SetTransformsStops(w: Widget, vs: Mat, tbo: seq<Mat>)
    requires WritesFit(w, |tbo|) && None in Slots(w)
    ensures SetTransforms(w, vs, tbo).outcome == Err(WidgetIndexMissing)
    ensures forall j :: 0 <= j < |tbo| && Some(j) !in Slots(w)[..StopAt(w)] ==>
      SetTransforms(w, vs, tbo).tbo[j] == tbo[j]
    ensures forall q :: 0 <= q < StopAt(w) && Slots(w)[q] !in Slots(w)[q + 1..StopAt(w)] ==>
      Slots(w)[q].value < |tbo| && SetTransforms(w, vs, tbo).tbo[Slots(w)[q].value] == Flatten(w, vs)[q]
  {
    forall j | 0 <= j < |tbo| && Some(j) !in Slots(w)[..StopAt(w)]
      ensures SetTransforms(w, vs, tbo).tbo[j] == tbo[j]
    {
      StopKeeps(w, vs, tbo, j);
    }
    forall q | 0 <= q < StopAt(w) && Slots(w)[q] !in Slots(w)[q + 1..StopAt(w)]
      ensures Slots(w)[q].value < |tbo| && SetTransforms(w, vs, tbo).tbo[Slots(w)[q].value] == Flatten(w, vs)[q]
    {
      StopWrote(w, vs, tbo, q);
    }
  }

  /** ... and the frames were stored up to and including the node it stops at,
      while the nodes after it keep theirs. */
  lemma {:induction false} SetTransformsStopsFrames(w: Widget, vs: Mat, tbo: seq<Mat>)
    requires WritesFit(w, |tbo|) && None in Slots(w)
    ensures VecSpaces(SetTransforms(w, vs, tbo).widget)[..StopAt(w) + 1] == Frames(w, vs)[..StopAt(w) + 1]
    ensures VecSpaces(SetTransforms(w, vs, tbo).widget)[StopAt(w) + 1..] == VecSpaces(w)[StopAt(w) + 1..]
  {
    SetTransformsStores(w, vs, tbo);
  }

  /** A refresh after moving nodes of a built tree (anything that keeps the
      slots the rebuild handed out) leaves `tbo` exactly as a fresh rebuild of
      the moved tree from the same starting buffers would. */
  lemma RefreshAgreesWithRebuild(w: Widget, e: Widget, vs: Mat, g: Gpu, c: PrimitiveCounter)
    requires Slots(e) == Slots(PushAll(w, vs, g, c).widget)
    ensures WritesFit(e, |PushAll(w, vs, g, c).gpu.tbo|)
    ensures var r := SetTransforms(e, vs, PushAll(w, vs, g, c).gpu.tbo);
      r.outcome == Ok && r.tbo == PushAll(e, vs, g, c).gpu.tbo
  {
    var built := PushAll(w, vs, g, c);
    var L := |g.tbo|;
    PushAllSlots(w, vs, g, c);
    PushAllBuffers(w, vs, g, c);
    PushAllBuffers(e, vs, g, c);
    var n := |Kinds(w)|;
    assert Slots(e) == Range(L, n);
    SetTransformsRewritesBlock(e, vs, built.gpu.tbo, L);
    assert built.gpu.tbo[..L] == g.tbo;
    assert built.gpu.tbo[L + n..] == [];
  }

  /** A refresh straight after a rebuild writes back what is already there. */
  lemma RefreshAfterRebuildIsNoop(w: Widget, vs: Mat, g: Gpu, c: PrimitiveCounter)
    ensures var b := PushAll(w, vs, g, c);
      WritesFit(b.widget, |b.gpu.tbo|) && SetTransforms(b.widget, vs, b.gpu.tbo).tbo == b.gpu.tbo
  {
    var b := PushAll(w, vs, g, c);
    RefreshAgreesWithRebuild(w, b.widget, vs, g, c);
    RebuildIsIdempotent(w, vs, g, c);
  }

  /** Rebuild reads nothing a traversal writes: two trees that differ only in
      stored indices and frames rebuild to the same result. */
  lemma {:induction false} PushAllShapeOnly(a: Widget, b: Widget, vs: Mat, g: Gpu, c: PrimitiveCounter)
    requires Shape(a) == Shape(b)
    ensures PushAll(a, vs, g, c) == PushAll(b, vs, g, c)
    decreases a
  {
    match a
    case Primitive(kind, p, _, _, cs) =>
      var w1 := Primitive(kind, p, vs, Some(|g.tbo|), cs);
      var m := TransformMatrix(w1);
      var textures := match GetTexture(w1) case Some(t) => g.textures + [t] case None => g.textures;
      var info := SendWidgetInfo(kind, w1.index, g.uniforms, c);
      PushAllSeqShapeOnly(cs, b.children, m, Gpu(g.tbo + [m], textures, info.uniforms), info.counter);
    case Composite(p, _, pad, cs) =>
      PushAllSeqShapeOnly(cs, b.children, TransformMatrix(Composite(p, vs, pad, cs)), g, c);
  }

  lemma {:induction false} PushAllSeqShapeOnly(xs: seq<Widget>, ys: seq<Widget>, vs: Mat, g: Gpu, c: PrimitiveCounter)
    requires ShapeSeq(xs) == ShapeSeq(ys)
    ensures PushAllSeq(xs, vs, g, c) == PushAllSeq(ys, vs, g, c)
    decreases xs
  {
    if |xs| > 0 {
      assert |ys| > 0;
      assert Shape(xs[0]) == ShapeSeq(xs)[0] == ShapeSeq(ys)[0] == Shape(ys[0]);
      assert ShapeSeq(xs[1..]) == ShapeSeq(xs)[1..] == ShapeSeq(ys)[1..] == ShapeSeq(ys[1..]);
      PushAllShapeOnly(xs[0], ys[0], vs, g, c);
      var first := PushAll(xs[0], vs, g, c);
      PushAllSeqShapeOnly(xs[1..], ys[1..], vs, first.gpu, first.counter);
    } else {
      assert |ys| == 0;
    }
  }

  /** Rebuilding a built tree again, from the same buffers, changes nothing. */
  lemma RebuildIsIdempotent(w: Widget, vs: Mat, g: Gpu, c: PrimitiveCounter)
    ensures var b := PushAll(w, vs, g, c);
      PushAll(b.widget, vs, g, c) == b
  {
    PushAllPlaces(w, vs, g, c);
    PushAllShapeOnly(PushAll(w, vs, g, c).widget, w, vs, g, c);
  }

  // =====================================================================
  // traverse_and_set_textures: the in-place texture refresh
  // =====================================================================

  /** A kind whose node contributes an entry to the texture list on rebuild. */
  predicate Textured(k: Kind)
  {
    k.Texture? && k.texture.Some?
  }

  /** Every drawn node of `w` has a slot and a texture: the only trees the
      texture refresh as written accepts. */
  predicate FullyTextured(w: Widget)
  {
    None !in Slots(w) && forall k | k in Kinds(w) :: Textured(k)
  }

  predicate FullyTexturedSeq(cs: seq<Widget>)
  {
    None !in SlotsSeq(cs) && forall k | k in KindsSeq(cs) :: Textured(k)
  }

  /** The texture refresh writes only inside the texture list, up to the node
      where it stops. */
  predicate TextureWritesFit(w: Widget, n: nat)
    decreases w
  {
    match w
    case Primitive(k, _, _, index, cs) =>
      index.Some? && Textured(k) ==> index.value < n && TextureWritesFitSeq(cs, n)
    case Composite(_, _, _, cs) => TextureWritesFitSeq(cs, n)
  }

  predicate TextureWritesFitSeq(cs: seq<Widget>, n: nat)
    decreases cs
  {
    |cs| == 0 || (TextureWritesFit(cs[0], n) && (FullyTextured(cs[0]) ==> TextureWritesFitSeq(cs[1..], n)))
  }

  /** `traverse_and_set_textures` as written: a primitive stores its texture at
      `diffuse_textures[index]`, and a primitive without an index or without a
      texture (every background and border) is a `WidgetIndexMissing` error. */
  function SetTextures(w: Widget, textures: seq<TextureId>): (r: SlotWrite<TextureId>)
    requires TextureWritesFit(w, |textures|)
    ensures |r.buffer| == |textures|
    ensures r.outcome.Ok? <==> FullyTextured(w)
    ensures r.outcome.Err? ==> r.outcome == Err(WidgetIndexMissing)
    decreases w
  {
    match w
    case Primitive(k, _, _, index, cs) =>
      assert Kinds(w) == [k] + KindsSeq(cs);
      if index.Some? && Textured(k) then SetTexturesSeq(cs, textures[index.value := k.texture.value])
      else
        assert k in Kinds(w);
        SlotWrite(textures, Err(WidgetIndexMissing))
    case Composite(_, _, _, cs) => SetTexturesSeq(cs, textures)
  }

  function SetTexturesSeq(cs: seq<Widget>, textures: seq<TextureId>): (r: SlotWrite<TextureId>)
    requires TextureWritesFitSeq(cs, |textures|)
    ensures |r.buffer| == |textures|
    ensures r.outcome.Ok? <==> FullyTexturedSeq(cs)
    ensures r.outcome.Err? ==> r.outcome == Err(WidgetIndexMissing)
    decreases cs
  {
    if |cs| == 0 then SlotWrite(textures, Ok)
    else
      var first := SetTextures(cs[0], textures);
      assert KindsSeq(cs) == Kinds(cs[0]) + KindsSeq(cs[1..]);
      if first.outcome.Err? then first
      else SetTexturesSeq(cs[1..], first.buffer)
  }

  /** The texture refresh writes only the slots the tree names. */
  lemma {:induction false} SetTexturesFrame(w: Widget, textures: seq<TextureId>, j: nat)
    requires TextureWritesFit(w, |textures|)
    requires j < |textures| && Some(j) !in Slots(w)
    ensures SetTextures(w, textures).buffer[j] == textures[j]
    decreases w
  {
    match w
    case Primitive(k, _, _, index, cs) =>
      if index.Some? && Textured(k) {
        assert Slots(w) == [index] + SlotsSeq(cs);
        SetTexturesSeqFrame(cs, textures[index.value := k.texture.value], j);
      }
    case Composite(_, _, _, cs) =>
      SetTexturesSeqFrame(cs, textures, j);
  }

  lemma {:induction false} SetTexturesSeqFrame(cs: seq<Widget>, textures: seq<TextureId>, j: nat)
    requires TextureWritesFitSeq(cs, |textures|)
    requires j < |textures| && Some(j) !in SlotsSeq(cs)
    ensures SetTexturesSeq(cs, textures).buffer[j] == textures[j]
    decreases cs
  {
    if |cs| > 0 {
      assert SlotsSeq(cs) == Slots(cs[0]) + SlotsSeq(cs[1..]);
      SetTexturesFrame(cs[0], textures, j);
      var first := SetTextures(cs[0], textures);
      if first.outcome.Ok? {
        SetTexturesSeqFrame(cs[1..], first.buffer, j);
      }
    }
  }

  /** The refresh as written rejects every tree that draws anything but
      textures, whatever its slots: a background or border node is reported as
      a missing index. */
  lemma SetTexturesRejectsUntextured(w: Widget, textures: seq<TextureId>, i: nat)
    requires TextureWritesFit(w, |textures|)
    requires i < |Kinds(w)| && !Textured(Kinds(w)[i])
    ensures SetTextures(w, textures).outcome == Err(WidgetIndexMissing)
  {
    assert Kinds(w)[i] in Kinds(w);
  }

  datatype TexturesRefreshed = TexturesRefreshed(textures: seq<TextureId>, next: nat, outcome: Outcome)

  /** The texture refresh as the rebuild lays the list out: the textured nodes'
      entries are consecutive from the length the list had before the rebuild,
      in pre-order, and nodes without a texture have none.  So the refresh
      keeps the running position `k` among the textured nodes, writes each
      texture at `k`, and steps past textureless nodes instead of failing; a
      node that was never built (no slot) is still a `WidgetIndexMissing`. */
  function RefreshTextures(w: Widget, textures: seq<TextureId>, k: nat): (r: TexturesRefreshed)
    requires k + |TexturesOf(Kinds(w))| <= |textures|
    ensures |r.textures| == |textures|
    ensures r.outcome.Ok? <==> None !in Slots(w)
    ensures r.outcome.Err? ==> r.outcome == Err(WidgetIndexMissing)
    ensures r.outcome.Ok? ==> r.next == k + |TexturesOf(Kinds(w))|
    decreases w
  {
    match w
    case Primitive(kind, _, _, index, cs) =>
      TexturesOfConcat([kind], KindsSeq(cs));
      assert ([kind] + KindsSeq(cs))[1..] == KindsSeq(cs);
      if index.None? then TexturesRefreshed(textures, k, Err(WidgetIndexMissing))
      else if Textured(kind) then RefreshTexturesSeq(cs, textures[k := kind.texture.value], k + 1)
      else RefreshTexturesSeq(cs, textures, k)
    case Composite(_, _, _, cs) => RefreshTexturesSeq(cs, textures, k)
  }

  function RefreshTexturesSeq(cs: seq<Widget>, textures: seq<TextureId>, k: nat): (r: TexturesRefreshed)
    requires k + |TexturesOf(KindsSeq(cs))| <= |textures|
    ensures |r.textures| == |textures|
    ensures r.outcome.Ok? <==> None !in SlotsSeq(cs)
    ensures r.outcome.Err? ==> r.outcome == Err(WidgetIndexMissing)
    ensures r.outcome.Ok? ==> r.next == k + |TexturesOf(KindsSeq(cs))|
    decreases cs
  {
    if |cs| == 0 then TexturesRefreshed(textures, k, Ok)
    else
      TexturesOfConcat(Kinds(cs[0]), KindsSeq(cs[1..]));
      var first := RefreshTextures(cs[0], textures, k);
      if first.outcome.Err? then first
      else RefreshTexturesSeq(cs[1..], first.textures, first.next)
  }

  /** The corrected refresh of a pre-order kind list with no missing slot:
      each texture written at the running position, which then advances. */
  function TextureRun(ks: seq<Kind>, textures: seq<TextureId>, k: nat): (r: seq<TextureId>)
    requires k + |TexturesOf(ks)| <= |textures|
    ensures |r| == |textures|
    decreases |ks|
  {
    if |ks| == 0 then textures
    else if Textured(ks[0]) then TextureRun(ks[1..], textures[k := ks[0].texture.value], k + 1)
    else TextureRun(ks[1..], textures, k)
  }

  /** Running over two lists in turn is running over their concatenation. */
  lemma {:induction false} TextureRunConcat(k1: seq<Kind>, k2: seq<Kind>, textures: seq<TextureId>, k: nat)
    requires k + |TexturesOf(k1)| + |TexturesOf(k2)| <= |textures|
    ensures TexturesOf(k1 + k2) == TexturesOf(k1) + TexturesOf(k2)
    ensures TextureRun(k1 + k2, textures, k) == TextureRun(k2, TextureRun(k1, textures, k), k + |TexturesOf(k1)|)
    decreases |k1|
  {
    TexturesOfConcat(k1, k2);
    if |k1| == 0 {
      assert k1 + k2 == k2;
    } else {
      assert (k1 + k2)[0] == k1[0] && (k1 + k2)[1..] == k1[1..] + k2;
      if Textured(k1[0]) {
        TextureRunConcat(k1[1..], k2, textures[k := k1[0].texture.value], k + 1);
      } else {
        TextureRunConcat(k1[1..], k2, textures, k);
      }
    }
  }

  /** The run writes the list's textures as one block starting at `k`. */
  lemma {:induction false} TextureRunSplice(ks: seq<Kind>, textures: seq<TextureId>, k: nat)
    requires k + |TexturesOf(ks)| <= |textures|
    ensures TextureRun(ks, textures, k) == textures[..k] + TexturesOf(ks) + textures[k + |TexturesOf(ks)|..]
    decreases |ks|
  {
    var f := TexturesOf(ks);
    if |ks| == 0 {
      assert textures[..k] + [] + textures[k..] == textures;
    } else if Textured(ks[0]) {
      var t := ks[0].texture.value;
      assert f == [t] + TexturesOf(ks[1..]);
      TextureRunSplice(ks[1..], textures[k := t], k + 1);
      SpliceAfterUpdate(textures, k, t, TexturesOf(ks[1..]));
    } else {
      TextureRunSplice(ks[1..], textures, k);
    }
  }

  /** On a built tree the corrected tree walk is the run over its kinds. */
  lemma {:induction false} RefreshTexturesWalk(w: Widget, textures: seq<TextureId>, k: nat)
    requires None !in Slots(w)
    requires k + |TexturesOf(Kinds(w))| <= |textures|
    ensures RefreshTextures(w, textures, k).textures == TextureRun(Kinds(w), textures, k)
    decreases w
  {
    match w
    case Primitive(kind, _, _, index, cs) =>
      assert Slots(w) == [index] + SlotsSeq(cs);
      var ks := Kinds(w);
      assert ks == [kind] + KindsSeq(cs) && ks[0] == kind && ks[1..] == KindsSeq(cs);
      TexturesOfConcat([kind], KindsSeq(cs));
      if Textured(kind) {
        RefreshTexturesSeqWalk(cs, textures[k := kind.texture.value], k + 1);
      } else {
        RefreshTexturesSeqWalk(cs, textures, k);
      }
    case Composite(_, _, _, cs) =>
      RefreshTexturesSeqWalk(cs, textures, k);
  }

  lemma {:induction false} RefreshTexturesSeqWalk(cs: seq<Widget>, textures: seq<TextureId>, k: nat)
    requires None !in SlotsSeq(cs)
    requires k + |TexturesOf(KindsSeq(cs))| <= |textures|
    ensures RefreshTexturesSeq(cs, textures, k).textures == TextureRun(KindsSeq(cs), textures, k)
    decreases cs
  {
    if |cs| > 0 {
      var k1, k2 := Kinds(cs[0]), KindsSeq(cs[1..]);
      assert SlotsSeq(cs) == Slots(cs[0]) + SlotsSeq(cs[1..]) && KindsSeq(cs) == k1 + k2;
      TexturesOfConcat(k1, k2);
      TextureRunConcat(k1, k2, textures, k);
      var first := RefreshTextures(cs[0], textures, k);
      RefreshTexturesWalk(cs[0], textures, k);
      RefreshTexturesSeqWalk(cs[1..], first.textures, first.next);
    }
  }

  /** On a built tree the corrected refresh rewrites exactly the block of the
      texture list starting at `k` with the tree's textures in pre-order. */
  lemma RefreshTexturesRewritesBlock(w: Widget, textures: seq<TextureId>, k: nat)
    requires None !in Slots(w)
    requires k + |TexturesOf(Kinds(w))| <= |textures|
    ensures var r := RefreshTextures(w, textures, k);
      r.textures == textures[..k] + TexturesOf(Kinds(w)) + textures[k + |TexturesOf(Kinds(w))|..]
  {
    RefreshTexturesWalk(w, textures, k);
    TextureRunSplice(Kinds(w), textures, k);
  }

  /** The corrected refresh on a built tree whose textures were swapped (the same
      nodes textured, any textures) leaves the texture list exactly as a fresh
      rebuild of the changed tree from the same starting buffers would. */
  lemma RefreshTexturesAgreesWithRebuild(w: Widget, e: Widget, vs: Mat, g: Gpu, c: PrimitiveCounter)
    requires None !in Slots(e)
    requires |TexturesOf(Kinds(e))| == |TexturesOf(Kinds(w))|
    ensures |g.textures| + |TexturesOf(Kinds(e))| <= |PushAll(w, vs, g, c).gpu.textures|
    ensures var r := RefreshTextures(e, PushAll(w, vs, g, c).gpu.textures, |g.textures|);
      r.outcome == Ok && r.textures == PushAll(e, vs, g, c).gpu.textures
  {
    var built := PushAll(w, vs, g, c);
    var L := |g.textures|;
    var n := |TexturesOf(Kinds(w))|;
    PushAllBuffers(w, vs, g, c);
    PushAllBuffers(e, vs, g, c);
    RefreshTexturesRewritesBlock(e, built.gpu.textures, L);
    assert built.gpu.textures[..L] == g.textures;
    assert built.gpu.textures[L + n..] == [];
  }
}

=== FILE: view3d_pipeline.dfy ===
/** The 3D view's render pipeline: a deferred geometry buffer, a lighting pass
    that writes the lit scene and its bright parts to two attachments, and a
    bloom blur that ping-pongs between two one-attachment framebuffers.  The
    GL work is foreign, so framebuffers are records of their size, attachment
    count and input links, and each draw is an event of a trace. */
module View3D {
  /** A signed 32-bit value. */
  type I32 = x: int | -0x8000_0000 <= x < 0x8000_0000

  datatype FbId = DeferredFb | LightingFb | PingFb | PongFb

  /** What a framebuffer reads from when drawn: one colour attachment of
      another framebuffer, or all attachments of one. */
  datatype Link = Attachment(fb: FbId, index: nat) | Whole(fb: FbId)

  datatype Framebuffer = Framebuffer(width: I32, height: I32, attachments: nat, depth: bool, links: seq<Link>)

  datatype Pipeline = Pipeline(
    deferred: Framebuffer,
    lighting: Framebuffer,
    ping: Framebuffer,
    pong: Framebuffer,
    hoz: bool,
    firstIter: bool,
    width: I32,
    height: I32)

  /** A draw of a framebuffer with the inputs linked to it at that moment;
      the blur passes also carry the `horizontal` uniform they were given. */
  datatype Pass =
    | LightingPass(inputs: seq<Link>)
    | BlurPass(target: FbId, inputs: seq<Link>, horizontal: bool)

  function Fb(p: Pipeline, id: FbId): Framebuffer
  {
    match id
    case DeferredFb => p.deferred
    case LightingFb => p.lighting
    case PingFb => p.ping
    case PongFb => p.pong
  }

  /** The shape `new` gives the framebuffers, which nothing afterwards changes:
      three attachments and a depth buffer for the geometry, two attachments
      for lighting, one each for the blur, all at the pipeline's size. */
  predicate Valid(p: Pipeline)
  {
    p.deferred.attachments == 3 && p.deferred.depth &&
    p.lighting.attachments == 2 && !p.lighting.depth &&
    p.ping.attachments == 1 && !p.ping.depth &&
    p.pong.attachments == 1 && !p.pong.depth &&
    forall id :: Fb(p, id).width == p.width && Fb(p, id).height == p.height
  }

  /** `View3DRenderPipeline::new` (once its shaders and framebuffers have been
      created): the lighting pass reads the geometry buffer, the blur buffers
      are linked on each draw, and the blur starts horizontal. */
  function New(width: I32, height: I32): (p: Pipeline)
    ensures Valid(p) && p.width == width && p.height == height
    ensures p.lighting.links == [Whole(DeferredFb)] && p.deferred.links == []
    ensures p.hoz && p.firstIter
  {
    Pipeline(
      Framebuffer(width, height, 3, true, []),
      Framebuffer(width, height, 2, false, [Whole(DeferredFb)]),
      Framebuffer(width, height, 1, false, []),
      Framebuffer(width, height, 1, false, []),
      true, true, width, height)
  }

  /** The number of blur passes per frame. */
  const BlurPasses: nat := 10

  /** The blur schedule, independently of the state machine that produces it:
      pass 0 blurs the lighting pass's bright attachment into ping, then odd
      passes blur ping into pong and even passes pong into ping; the
      `horizontal` uniform alternates starting with true. */
  function ScheduledPass(i: nat): Pass
  {
    if i == 0 then BlurPass(PingFb, [Attachment(LightingFb, 1)], true)
    else if i % 2 == 1 then BlurPass(PongFb, [Whole(PingFb)], false)
    else BlurPass(PingFb, [Whole(PongFb)], true)
  }

  function Schedule(n: nat): (ps: seq<Pass>)
    ensures |ps| == n
  {
    seq(n, i requires 0 <= i => ScheduledPass(i))
  }

  /** `draw`: the lighting pass once, then ten blur passes driven by the
      `hoz`/`firstIter` flags, which `draw` resets first and leaves at
      (true, false) whatever they were before. */
  method Draw(p: Pipeline) returns (q: Pipeline, trace: seq<Pass>)
    requires Valid(p)
    ensures Valid(q)
    ensures trace == [LightingPass(p.lighting.links)] + Schedule(BlurPasses)
    ensures q.hoz && !q.firstIter
    ensures q.deferred == p.deferred && q.lighting == p.lighting
    ensures q.width == p.width && q.height == p.height
    ensures q.ping.links == [Whole(PongFb)] && q.pong.links == [Whole(PingFb)]
  {
    trace := [LightingPass(p.lighting.links)];
    var hoz, first := true, true;
    var ping, pong := p.ping, p.pong;
    var i := 0;
    while i < BlurPasses
      invariant 0 <= i <= BlurPasses
      invariant hoz == (i % 2 == 0) && first == (i == 0)
      invariant trace == [LightingPass(p.lighting.links)] + Schedule(i)
      invariant ping == p.ping.(links := ping.links) && pong == p.pong.(links := pong.links)
      invariant i >= 2 ==> pong.links == [Whole(PingFb)]
      invariant i >= 3 ==> ping.links == [Whole(PongFb)]
    {
      var pass;
      if first {
        // the bright attachment exists: the lighting framebuffer has two
        assert 1 < p.lighting.attachments;
        ping := ping.(links := [Attachment(LightingFb, 1)]);
        pass := BlurPass(PingFb, ping.links, hoz);
      } else if hoz {
        ping := ping.(links := [Whole(PongFb)]);
        pass := BlurPass(PingFb, ping.links, hoz);
      } else {
        pong := pong.(links := [Whole(PingFb)]);
        pass := BlurPass(PongFb, pong.links, hoz);
      }
      assert pass == ScheduledPass(i);
      assert Schedule(i + 1) == Schedule(i) + [pass];
      trace := trace + [pass];
      hoz, first := !hoz, false;
      i := i + 1;
    }
    q := Pipeline(p.deferred, p.lighting, ping, pong, hoz, first, p.width, p.height);
    assert forall id :: Fb(q, id).width == Fb(p, id).width && Fb(q, id).height == Fb(p, id).height;
  }

  /** Each blur pass reads what the pass before it wrote: the first the
      lighting pass's attachment 1, every later one the other blur buffer. */
  lemma {:induction false} ScheduleChains(i: nat)
    requires 0 < i
    ensures ScheduledPass(i).BlurPass? && ScheduledPass(i - 1).BlurPass?
    ensures ScheduledPass(i).target != ScheduledPass(i - 1).target
    ensures ScheduledPass(i).inputs == [Whole(ScheduledPass(i - 1).target)]
    ensures ScheduledPass(0).inputs == [Attachment(LightingFb, 1)]
  {
    if i % 2 == 1 {
      assert i - 1 == 0 || (i - 1) % 2 == 0;
    } else {
      assert (i - 1) % 2 == 1;
    }
  }

  /** The uniform alternates: pass i blurs horizontally exactly when i is even. */
  lemma ScheduleAlternates(i: nat)
    ensures ScheduledPass(i).BlurPass?
    ensures ScheduledPass(i).horizontal <==> i % 2 == 0
    ensures ScheduledPass(i).target == PingFb <==> i % 2 == 0
  {
  }

  /** How many passes of a trace draw into `fb`. */
  function Draws(ps: seq<Pass>, fb: FbId): nat
  {
    if |ps| == 0 then 0
    else (if ps[|ps| - 1].BlurPass? && ps[|ps| - 1].target == fb then 1 else 0) + Draws(ps[..|ps| - 1], fb)
  }

  /** Over the first n passes ping draws ceil(n / 2) times and pong floor(n / 2). */
  lemma {:induction false} ScheduleDraws(n: nat)
    ensures Draws(Schedule(n), PingFb) == (n + 1) / 2
    ensures Draws(Schedule(n), PongFb) == n / 2
  {
    if n > 0 {
      assert Schedule(n)[..n - 1] == Schedule(n - 1);
      assert Schedule(n)[n - 1] == ScheduledPass(n - 1);
      ScheduleDraws(n - 1);
    }
  }

  /** A frame's blur draws each of ping and pong five times, and the final
      blurred image is in pong (the last pass, 9, is odd). */
  lemma BlurDrawsEachFiveTimes()
    ensures Draws(Schedule(BlurPasses), PingFb) == 5 && Draws(Schedule(BlurPasses), PongFb) == 5
    ensures Schedule(BlurPasses)[BlurPasses - 1].target == PongFb
  {
    ScheduleDraws(BlurPasses);
  }

  /** `set_size`: the pipeline and all four framebuffers take the new size. */
  function SetSize(p: Pipeline, width: I32, height: I32): (q: Pipeline)
    requires Valid(p)
    ensures Valid(q) && q.width == width && q.height == height
    ensures forall id :: Fb(q, id).links == Fb(p, id).links && Fb(q, id).attachments == Fb(p, id).attachments
    ensures q.hoz == p.hoz && q.firstIter == p.firstIter
  {
    Pipeline(
      p.deferred.(width := width, height := height),
      p.lighting.(width := width, height := height),
      p.ping.(width := width, height := height),
      p.pong.(width := width, height := height),
      p.hoz, p.firstIter, width, height)
  }

  /** `get_height`, which returns both dimensions. */
  function GetHeight(p: Pipeline): (r: (I32, I32))
    ensures r == (p.width, p.height)
    ensures Valid(p) ==> forall id :: Fb(p, id).width == r.0 && Fb(p, id).height == r.1
  {
    (p.width, p.height)
  }

  /** After a resize the pipeline reports the new size, and the last resize
      wins. */
  lemma SetSizeThenGet(p: Pipeline, w1: I32, h1: I32, w2: I32, h2: I32)
    requires Valid(p)
    ensures GetHeight(SetSize(p, w1, h1)) == (w1, h1)
    ensures SetSize(SetSize(p, w1, h1), w2, h2) == SetSize(p, w2, h2)
  {
  }

  /** `get_link`: what the next pipeline reads, the lit scene then the blurred
      bright parts, both existing attachments. */
  function GetLink(p: Pipeline): (ls: seq<Link>)
    requires Valid(p)
    ensures ls == [Attachment(LightingFb, 0), Attachment(PingFb, 0)]
    ensures forall i :: 0 <= i < |ls| ==> ls[i].Attachment? && ls[i].index < Fb(p, ls[i].fb).attachments
  {
    [Attachment(LightingFb, 0), Attachment(PingFb, 0)]
  }

  /** What `get_link` hands on, against the draw schedule: the lit scene
      (attachment 0, not the bright attachment 1 the blur starts from) and the
      buffer of the second-to-last blur pass, the last horizontal one; the
      final, vertical pass draws into the other blur buffer. */
  lemma GetLinkAfterSchedule(p: Pipeline)
    requires Valid(p)
    ensures GetLink(p)[0].fb == LightingFb && GetLink(p)[0] != ScheduledPass(0).inputs[0]
    ensures GetLink(p)[1].fb == ScheduledPass(BlurPasses - 2).target && ScheduledPass(BlurPasses - 2).horizontal
    ensures GetLink(p)[1].fb != ScheduledPass(BlurPasses - 1).target
  {
  }

  /** `link_to`, `unlink` and `link_push`: only the geometry buffer's inputs
      change; `link_to` appends the outputs in order. */
  function LinkTo(p: Pipeline, output: seq<Link>): (q: Pipeline)
    ensures q.deferred.links == p.deferred.links + output
    ensures q == p.(deferred := q.deferred) && q.deferred == p.deferred.(links := q.deferred.links)
  {
    p.(deferred := p.deferred.(links := p.deferred.links + output))
  }

  function Unlink(p: Pipeline): (q: Pipeline)
    ensures q.deferred.links == []
    ensures q == p.(deferred := q.deferred) && q.deferred == p.deferred.(links := [])
  {
    p.(deferred := p.deferred.(links := []))
  }

  function LinkPush(p: Pipeline, l: Link): (q: Pipeline)
    ensures q.deferred.links == p.deferred.links + [l]
    ensures q == p.(deferred := q.deferred) && q.deferred == p.deferred.(links := q.deferred.links)
  {
    LinkTo(p, [l])
  }

  /** Linking an output after unlinking leaves exactly that output. */
  lemma UnlinkThenLinkTo(p: Pipeline, output: seq<Link>)
    ensures LinkTo(Unlink(p), output).deferred.links == output
    ensures Valid(p) ==> Valid(LinkTo(Unlink(p), output))
  {
    var q := LinkTo(Unlink(p), output);
    assert forall id :: Fb(q, id).width == Fb(p, id).width && Fb(q, id).height == Fb(p, id).height;
  }
}

=== FILE: widget.dfy ===
/** The widget tree and the per-node operations of the `Widget` trait.

    A widget is either a drawn primitive (background, border or texture) that
    owns one slot of the instance buffers, or a composite (the picture widget)
    that is never drawn itself and only places its children.  Every node keeps
    its local placement, the `vec_space` the last traversal handed it, and its
    children in draw order. */
module Widgets {
  import opened Wrappers
  import opened Errors
  import opened LinAlg
  import opened Primitives

  /** Position, rotation and size in the parent's normalised frame. */
  datatype Placement = Placement(position: Vec2, rotation: Quat, width: real, height: real)

  datatype Widget =
    | Primitive(kind: Kind, place: Placement, vecSpace: Mat, index: Option<nat>, children: seq<Widget>)
    | Composite(place: Placement, vecSpace: Mat, padding: Vec4, children: seq<Widget>)

  /** The placement every default widget starts from: origin, no rotation, size 0 x 0. */
  const Unplaced: Placement := Placement(Zero2, UnitQuat, 0.0, 0.0)

  /** The local box: placed, then sized, then spun in place. */
  function LocalMatrix(p: Placement): (m: Mat)
    ensures p.position == Zero2 && p.width == 1.0 && p.height == 1.0 && p.rotation == UnitQuat ==> m == Identity
    ensures p.rotation == UnitQuat ==> m == Mul(Translate(p.position.x, p.position.y, 0.0), Scale(p.width, p.height, 1.0))
  {
    Mul(Mul(Translate(p.position.x, p.position.y, 0.0), Scale(p.width, p.height, 1.0)), Rotate(p.rotation))
  }

  /** `transform_matrix`: the node's local box seen through its `vec_space`. */
  function TransformMatrix(w: Widget): (m: Mat)
    ensures LocalMatrix(w.place) == Identity ==> m == w.vecSpace
    ensures w.vecSpace == Identity ==> m == LocalMatrix(w.place)
  {
    Mul(w.vecSpace, LocalMatrix(w.place))
  }

  /** A node at the origin with unit size and no rotation draws exactly its parent's frame. */
  lemma UnitPlacementIsVecSpace(w: Widget)
    requires w.place == Placement(Zero2, UnitQuat, 1.0, 1.0)
    ensures TransformMatrix(w) == w.vecSpace
  {
  }

  /** Without rotation the transform is the parent frame, translated, then scaled. */
  lemma UnrotatedTransform(w: Widget)
    requires w.place.rotation == UnitQuat
    ensures TransformMatrix(w) ==
      Mul(w.vecSpace, Mul(Translate(w.place.position.x, w.place.position.y, 0.0), Scale(w.place.width, w.place.height, 1.0)))
  {
  }

  // ----- plain accessors -----

  /** `r` is the same kind of node as `w`, with the same variant-specific data:
      a primitive's kind, a composite's padding. */
  predicate SameVariant(w: Widget, r: Widget)
  {
    r.Primitive? == w.Primitive? &&
    (w.Primitive? ==> r.kind == w.kind) &&
    (w.Composite? ==> r.padding == w.padding)
  }

  function GetPosition(w: Widget): Vec2 { w.place.position }

  function SetPosition(w: Widget, pos: Vec2): (r: Widget)
    ensures GetPosition(r) == pos
    ensures r.place.rotation == w.place.rotation && GetSize(r) == GetSize(w)
    ensures r.children == w.children && GetIndex(r) == GetIndex(w) && r.vecSpace == w.vecSpace
    ensures SameVariant(w, r)
  {
    w.(place := w.place.(position := pos))
  }

  function GetRotation(w: Widget): Quat { w.place.rotation }

  function SetRotation(w: Widget, rot: Quat): (r: Widget)
    ensures GetRotation(r) == rot
    ensures GetPosition(r) == GetPosition(w) && GetSize(r) == GetSize(w)
    ensures r.children == w.children && GetIndex(r) == GetIndex(w) && r.vecSpace == w.vecSpace
    ensures SameVariant(w, r)
  {
    w.(place := w.place.(rotation := rot))
  }

  function GetSize(w: Widget): (real, real) { (w.place.width, w.place.height) }

  function SetSize(w: Widget, width: real, height: real): (r: Widget)
    ensures GetSize(r) == (width, height)
    ensures GetPosition(r) == GetPosition(w) && GetRotation(r) == GetRotation(w)
    ensures r.children == w.children && GetIndex(r) == GetIndex(w) && r.vecSpace == w.vecSpace
    ensures SameVariant(w, r)
  {
    w.(place := w.place.(width := width, height := height))
  }

  /** `get_index`: a composite never owns a slot. */
  function GetIndex(w: Widget): (i: Option<nat>)
    ensures w.Composite? ==> i == None
  {
    if w.Primitive? then w.index else None
  }

  /** `set_index`: stored by a primitive, ignored by a composite. */
  function SetIndex(w: Widget, i: Option<nat>): (r: Widget)
    ensures w.Primitive? ==> GetIndex(r) == i
    ensures w.Composite? ==> r == w
    ensures r.place == w.place && r.children == w.children && r.vecSpace == w.vecSpace
    ensures SameVariant(w, r)
  {
    if w.Primitive? then w.(index := i) else w
  }

  function SetVecSpace(w: Widget, vs: Mat): (r: Widget)
    ensures r.vecSpace == vs
    ensures r.place == w.place && r.children == w.children && GetIndex(r) == GetIndex(w)
    ensures SameVariant(w, r)
  {
    w.(vecSpace := vs)
  }

  /** `get_texture`: only a texture primitive has one; the trait default is `None`. */
  function GetTexture(w: Widget): (t: Option<TextureId>)
    ensures t.Some? ==> w.Primitive? && w.kind.Texture?
  {
    if w.Primitive? && w.kind.Texture? then w.kind.texture else None
  }

  datatype TextureSet = TextureSet(widget: Widget, outcome: Outcome)

  /** `set_texture`: a texture primitive stores the texture; every other widget keeps
      the trait default, which refuses with `TexturelessWidget(id)` and changes nothing. */
  function SetTexture(w: Widget, t: TextureId): (r: TextureSet)
    ensures r.outcome.Ok? <==> w.Primitive? && w.kind.Texture?
    ensures r.outcome.Ok? ==> GetTexture(r.widget) == Some(t) && r.widget == w.(kind := Texture(Some(t)))
    ensures r.outcome.Err? ==> r.outcome == Err(TexturelessWidget(t)) && r.widget == w
  {
    if w.Primitive? && w.kind.Texture? then TextureSet(w.(kind := Texture(Some(t))), Ok)
    else TextureSet(w, Err(TexturelessWidget(t)))
  }

  /** Reading back what was just stored. */
  lemma SetThenGet(w: Widget, pos: Vec2, width: real, height: real, i: Option<nat>)
    requires w.Primitive?
    ensures GetPosition(SetPosition(w, pos)) == pos
    ensures GetSize(SetSize(w, width, height)) == (width, height)
    ensures GetIndex(SetIndex(w, i)) == i
  {
  }

  // ----- defaults of the primitive widgets -----

  /** `BackgroundWidget::default()`: transparent black, no slot, identity frame. */
  function DefaultBackground(): (w: Widget)
    ensures w.Primitive? && w.kind == Background(Zero4)
    ensures w.index == None && w.vecSpace == Identity && w.children == []
    ensures GetPosition(w) == Zero2 && GetSize(w) == (0.0, 0.0) && GetRotation(w) == UnitQuat
  {
    Primitive(Background(Zero4), Unplaced, Identity, None, [])
  }

  /** `BorderWidget::default()`: zero widths, no slot, identity frame. */
  function DefaultBorder(): (w: Widget)
    ensures w.Primitive? && w.kind == Border(Zero4, Zero4)
    ensures w.index == None && w.vecSpace == Identity && w.children == []
    ensures GetPosition(w) == Zero2 && GetSize(w) == (0.0, 0.0) && GetRotation(w) == UnitQuat
  {
    Primitive(Border(Zero4, Zero4), Unplaced, Identity, None, [])
  }

  /** `TextureWidget::default()`: no texture, no slot, identity frame. */
  function DefaultTexture(): (w: Widget)
    ensures w.Primitive? && w.kind == Texture(None) && GetTexture(w) == None
    ensures w.index == None && w.vecSpace == Identity && w.children == []
    ensures GetPosition(w) == Zero2 && GetSize(w) == (0.0, 0.0) && GetRotation(w) == UnitQuat
  {
    Primitive(Texture(None), Unplaced, Identity, None, [])
  }

  // ----- single-slot writers -----

  datatype SlotWrite<T> = SlotWrite(buffer: seq<T>, outcome: Outcome)

  /** The one slot a primitive may write: its index, when that is within the buffer.
      Writing past the end is undefined in the source (an unchecked write or a
      panicking index), so callers must exclude it. */
  predicate IndexFits(w: Widget, n: nat)
  {
    GetIndex(w).Some? ==> GetIndex(w).value < n
  }

  /** `set_transform` (and `set_transform_send`, which also uploads): overwrite the
      node's own slot with its transform. */
  function SetTransform(w: Widget, tbo: seq<Mat>): (r: SlotWrite<Mat>)
    requires IndexFits(w, |tbo|)
    ensures |r.buffer| == |tbo|
    ensures w.Composite? ==> r == SlotWrite(tbo, Err(WidgetNotPrimitive))
    ensures w.Primitive? && w.index.None? ==> r == SlotWrite(tbo, Err(WidgetIndexMissing))
    ensures r.outcome.Ok? <==> w.Primitive? && w.index.Some?
    ensures r.outcome.Ok? ==> r.buffer[w.index.value] == TransformMatrix(w)
    ensures forall j :: 0 <= j < |tbo| && Some(j) != GetIndex(w) ==> r.buffer[j] == tbo[j]
  {
    if w.Composite? then SlotWrite(tbo, Err(WidgetNotPrimitive))
    else if w.index.None? then SlotWrite(tbo, Err(WidgetIndexMissing))
    else SlotWrite(tbo[w.index.value := TransformMatrix(w)], Ok)
  }

  /** `set_texture_send`: overwrite entry `index` of the texture list with the node's
      texture; a missing index or a missing texture is `WidgetIndexMissing`. */
  function SetTextureSend(w: Widget, textures: seq<TextureId>): (r: SlotWrite<TextureId>)
    requires GetTexture(w).Some? ==> IndexFits(w, |textures|)
    ensures |r.buffer| == |textures|
    ensures w.Composite? ==> r == SlotWrite(textures, Err(WidgetNotPrimitive))
    ensures w.Primitive? && (w.index.None? || GetTexture(w).None?) ==> r == SlotWrite(textures, Err(WidgetIndexMissing))
    ensures r.outcome.Ok? <==> w.Primitive? && w.index.Some? && GetTexture(w).Some?
    ensures r.outcome.Ok? ==> r.buffer[w.index.value] == GetTexture(w).value
    ensures forall j :: 0 <= j < |textures| && Some(j) != GetIndex(w) ==> r.buffer[j] == textures[j]
  {
    if w.Composite? then SlotWrite(textures, Err(WidgetNotPrimitive))
    else if w.index.None? || GetTexture(w).None? then SlotWrite(textures, Err(WidgetIndexMissing))
    else SlotWrite(textures[w.index.value := GetTexture(w).value], Ok)
  }
}

=== FILE: widget_quad.dfy ===
/** The one mesh every widget is drawn with: a unit quad anchored at its
    top-left corner (0, 0), drawn once per entry of the transform buffer by a
    single instanced draw. */
module Quad {
  import opened LinAlg
  import opened Primitives
  import opened Widgets
  import opened Traversal
  import Text

  datatype Vertex = Vertex(position: Vec3, normal: Vec3, texCoord: Vec2)

  /** The widget model: mesh data and the two per-instance buffers, the
      transforms and the raw bytes of the shader data, which start empty. */
  datatype WModel = WModel(vertices: seq<Vertex>, indices: seq<nat>, tbo: seq<Mat>, dbo: seq<Text.byte>)

  /** A quad corner at `(x, y)` in the z = 0 plane, facing +z, with the texture
      flipped vertically so that image row 0 lands on the top edge. */
  function Corner(x: real, y: real): Vertex
  {
    Vertex(Vec3(x, y, 0.0), Vec3(0.0, 0.0, 1.0), Vec2(x, 1.0 - y))
  }

  /** `create_wquad`: corners (0,0), (0,1), (1,1), (1,0) and the two triangles
      (0, 1, 2) and (0, 2, 3), which share the diagonal from vertex 0 to 2. */
  function CreateWQuad(): (m: WModel)
    ensures |m.vertices| == 4 && |m.indices| == 6
    ensures forall i :: 0 <= i < 6 ==> m.indices[i] < |m.vertices|
    ensures m.indices[0] == m.indices[3] == 0 && m.indices[2] == m.indices[4] == 2
    ensures forall i :: 0 <= i < 4 ==>
      var p := m.vertices[i].position;
      p.z == 0.0 && (p.x == 0.0 || p.x == 1.0) && (p.y == 0.0 || p.y == 1.0)
    ensures forall i :: 0 <= i < 4 ==>
      m.vertices[i].texCoord == Vec2(m.vertices[i].position.x, 1.0 - m.vertices[i].position.y) &&
      m.vertices[i].normal == Vec3(0.0, 0.0, 1.0)
    ensures m.vertices[0].position == Vec3(0.0, 0.0, 0.0)
    ensures m.tbo == [] && m.dbo == []
  {
    WModel([Corner(0.0, 0.0), Corner(0.0, 1.0), Corner(1.0, 1.0), Corner(1.0, 0.0)],
           [0, 1, 2, 0, 2, 3], [], [])
  }

  /** The quad covers all four corners of the unit square. */
  lemma QuadCoversUnitSquare(x: real, y: real)
    requires (x == 0.0 || x == 1.0) && (y == 0.0 || y == 1.0)
    ensures exists i :: 0 <= i < 4 && CreateWQuad().vertices[i].position == Vec3(x, y, 0.0)
  {
    var vs := CreateWQuad().vertices;
    if x == 0.0 && y == 0.0 { assert vs[0].position == Vec3(x, y, 0.0); }
    else if x == 0.0 { assert vs[1].position == Vec3(x, y, 0.0); }
    else if y == 1.0 { assert vs[2].position == Vec3(x, y, 0.0); }
    else { assert vs[3].position == Vec3(x, y, 0.0); }
  }

  /** `usize as i32`: keep the low 32 bits, read as two's complement. */
  function AsI32(n: nat): (r: int)
    ensures -0x8000_0000 <= r < 0x8000_0000
    ensures n < 0x8000_0000 ==> r == n
    ensures (r - n) % 0x1_0000_0000 == 0
  {
    var low := n % 0x1_0000_0000;
    if low < 0x8000_0000 then low else low - 0x1_0000_0000
  }

  /** The arguments of the instanced draw. */
  datatype ElementsDraw = ElementsDraw(indexCount: int, instanceCount: int)

  /** `WModel::draw`: every index of the mesh, once per transform in `tbo`. */
  function Draw(m: WModel): (d: ElementsDraw)
    ensures |m.tbo| < 0x8000_0000 ==> d.instanceCount == |m.tbo|
    ensures |m.indices| < 0x8000_0000 ==> d.indexCount == |m.indices|
  {
    ElementsDraw(AsI32(|m.indices|), AsI32(|m.tbo|))
  }

  /** A transform buffer of 2^31 entries or more wraps to a negative count. */
  lemma HugeBufferWraps()
    ensures AsI32(0x8000_0000) == -0x8000_0000
  {
  }

  /** Rebuilding a widget tree into the fresh quad makes the next draw show
      exactly its drawn nodes: one instance per primitive, none per composite. */
  lemma DrawAfterRebuild(w: Widget, vs: Mat, g: Gpu, c: PrimitiveCounter)
    requires g.tbo == CreateWQuad().tbo
    requires |Kinds(w)| < 0x8000_0000
    ensures var b := PushAll(w, vs, g, c);
      var d := Draw(CreateWQuad().(tbo := b.gpu.tbo));
      d.instanceCount == |Kinds(w)| && d.indexCount == 6
  {
    PushAllSlots(w, vs, g, c);
  }
}

=== FILE: wrappers.dfy ===
/** Small failure-carrying datatypes shared by the widget core. */
module Wrappers {

  /** The conventional optional value (Rust's `Option`). */
  datatype Option<+T> = None | Some(value: T)
}

/** The engine errors the widget trait raises, and the `Result<(), EngineError>` shape it returns. */
module Errors {

  /** The error kinds used by the widget traversals.
      `TexturelessWidget` carries the id of the texture that could not be stored. */
  datatype EngineError =
    | WidgetIndexMissing
    | WidgetNotPrimitive
    | TexturelessWidget(textureId: nat)

  /** `Result<(), EngineError>`: the unit success or one error. */
  datatype Outcome = Ok | Err(error: EngineError)
}
